=== FILE: README.md ===
# level — a Dafny model of its core

`level` is a web application for teams who translate the Bible and Open
Bible Stories (OBS). This project models the parts of its code that make
decisions. React rendering, the database and network calls are left out.
The modelled parts are:

- three server endpoints that turn Door43 TSV resources into notes,
  words and introductions (`pages/api/git/twl.js`, `obs-tn.js`, `info.js`);
- the download dialog's export tree and file names;
- the import of personal notes;
- the forms (feedback, password recovery, project creation, method editing);
- avatar selection;
- the side bar's modal windows;
- the team and moderator page;
- the resource panel's dispatch on a resource subject;
- the book reader's testament lists and chapter navigation;
- the two verse editors;
- the book-properties page;
- the project brief.

Every source file is one Dafny module, named after its component. Four
modules are shared:

- `Wrappers`: `Option` for `undefined`/`null`, and `Result`.
- `Json`: JavaScript values, records and truthiness.
- `Strings`: `split`/`join`, slicing, `includes`, decimal rendering, white
  space, UTF-16 length.
- `Seqs`: `filter` and `map`.

`Door43` holds what the two TSV endpoints share. A `verses` query given
once arrives as a string and given several times as an array, so a
single verse is matched as a substring of that string (`"12"` selects
verses `1`, `2` and `12`) while a list is matched by membership.

Outside collaborators are parameters of the functions that use them. These
are:

- `axios.get`, as a function from address to optional text;
- `tsvToJson` and `jsyaml`;
- `filterNotes`;
- the Markdown converter of the download dialog;
- `Math.random` and `new Date()`, as sequences or functions of draws;
- `t()` translation keys, which are kept as the keys themselves.

An index that the source always takes from the rendered list
(`prev[id]`, `prev[index]`) is a `requires`. A JavaScript `TypeError`
that the source can actually reach is modelled as its own outcome.

## Model

| member | source | states |
|---|---|---|
| Download.StoryFile | components/Project/Download.js:103-120 | a kept story (present, non-null text, non-empty Markdown) becomes one file with non-empty content |
| Download.StoryFiles | components/Project/Download.js:103-121 | the archive has at most one story file per fetched story, each a non-empty file |
| Download.StoryFilesConcat | components/Project/Download.js:103-121 | story files of consecutive runs of stories follow one another, so the fetched order is kept |
| Download.SkippedStoryAddsNothing | components/Project/Download.js:103-106 | a missing story, one whose text is null, or one with empty Markdown adds no file |
| Download.StoryFileMembership | components/Project/Download.js:107-120 | a file is in the archive iff some kept story produced it as `<num>.md` with its Markdown |
| Download.CountFoldersConcat | components/Project/Download.js:101-160 | folder counts add up over concatenated entries |
| Download.NoFoldersAmongFiles | components/Project/Download.js:107-120 | the story entries hold no folder |
| Download.CollectStoryFiles | components/Project/Download.js:101-121 | the loop over the fetched stories appends exactly the kept stories' files, in fetched order |
| Download.BuildArchive | components/Project/Download.js:99-160 | the root folder `content` holds the story files in order, then back, front-intro and front-title; exactly one `back` iff back is set; one `front` each for intro and title |
| Download.ArchiveFolderCounts | components/Project/Download.js:123-160 | the `back` and `front` folders of the archive are exactly the metadata folders |
| Download.TitleOnlyArchive | components/Project/Download.js:149-160 | a book with only a title gets one `front` folder holding `title.md` and no `back` |
| Download.ZipName | components/Project/Download.js:164 | the zip name is the title, or `obs` when there is none, followed by `.zip` |
| Download.PadStart | components/Project/Download.js:227 | `padStart` reaches the width with the pad character in front and keeps the string at the end |
| Download.MarkdownFileName | components/Project/Download.js:227 | the chapter file name ends in `.md`; an undefined chapter gives `undefined.md`, a numeric one starts with a digit |
| Download.ChapterFileName | components/Project/Download.js:83-87 | the Markdown file is `undefined.md` exactly when `chapterNum` finds no loaded chapter |
| Download.MarkdownFileNameRoundTrip | components/Project/Download.js:227 | the file name is the chapter number zero-padded to two digits, and its digits read back as the number |
| Download.DownloadOptions | components/Project/Download.js:48-70 | the menu starts with PDF and has one extra format: ZIP (OBS book), Markdown (OBS chapter), USFM (other book), TXT (other chapter) |
| Download.DownloadOptionsDistinct | components/Project/Download.js:48-70 | two menus are equal iff both or neither type is OBS and the book flags agree |
| Download.DefaultSettingKeys | components/Project/Download.js:22-30 | a chapter has `withImages` and `withFront`; a book adds `withIntro` and `withBack` |
| Download.ShownSettings | components/Project/Download.js:277-282 | nothing is shown for USFM; a non-OBS project shows only `withFront`; an OBS project shows every key |
| Download.ScriptureChapterShowsFront | components/Project/Download.js:277-282 | a scripture chapter download shows exactly `withFront` |
| Download.ShownDefaultSettings | components/Project/Download.js:277-282 | of the default keys, nothing is shown for USFM, all for OBS, and only `withFront` otherwise |
| Download.ToggleSetting | components/Project/Download.js:298-301 | a click negates one setting (undefined becomes true) and keeps the others |
| Download.FindChapter | components/Project/Download.js:83-88 | the first chapter whose number prints as the requested one, none iff no chapter does |
| PersonalNotes.IdCandidate | components/Panel/Helpers/PersonalNotes.js:89 | every candidate id has nine characters |
| PersonalNotes.GenerateUniqueId | components/Panel/Helpers/PersonalNotes.js:86-92 | the first drawn candidate not among the existing ids, nine characters long |
| PersonalNotes.FirstUnused | components/Panel/Helpers/PersonalNotes.js:86-92 | the first drawn candidate that `includes` does not find in the array, i.e. no equal string is in it; none iff every candidate is found |
| PersonalNotes.AllNotesCheckTakesFirstDraw | components/Panel/Helpers/PersonalNotes.js:86-117 | with the note objects passed, as every call does, the first draw is always taken |
| PersonalNotes.AllNotesCheckDuplicates | components/Panel/Helpers/PersonalNotes.js:86-95 | a stored note that already has the first candidate's id gets a twin |
| PersonalNotes.FreshNoteId | components/Panel/Helpers/PersonalNotes.js:86-92 | checked against the notes' ids, the chosen id differs from every stored note's |
| PersonalNotes.ParseData | components/Panel/Helpers/PersonalNotes.js:142-152 | a missing payload stays null; otherwise the version and time are kept and missing blocks become `[]` |
| PersonalNotes.ParseTree | components/Panel/Helpers/PersonalNotes.js:116-139 | a note and its descendants give exactly that many rows |
| PersonalNotes.ParseNotes | components/Panel/Helpers/PersonalNotes.js:115-140 | a forest gives exactly one row per note |
| PersonalNotes.BuiltInOrderConcat | components/Panel/Helpers/PersonalNotes.js:131-135 | rows built in order for two forests concatenate to rows built in order for both |
| PersonalNotes.ParseNotesPreOrder | components/Panel/Helpers/PersonalNotes.js:115-140 | the rows are the notes in pre-order, each built from its note with the next draw |
| PersonalNotes.ParseNotesCons | components/Panel/Helpers/PersonalNotes.js:115-140 | a forest's rows and pre-order walk are those of its first tree followed by those of the rest |
| PersonalNotes.ParseTreePreOrder | components/Panel/Helpers/PersonalNotes.js:116-139 | one tree's rows are its notes in pre-order |
| PersonalNotes.OffsetStep | components/Panel/Helpers/PersonalNotes.js:116-139 | a top-level note's position is the size of the first tree plus its position among the rest |
| PersonalNotes.TreeAtShift | components/Panel/Helpers/PersonalNotes.js:135 | a tree's block of rows keeps its shape behind a prefix |
| PersonalNotes.ParseNotesTreeAt | components/Panel/Helpers/PersonalNotes.js:115-140 | the rows of each top-level note form one contiguous block at its offset |
| PersonalNotes.TreeAtHead | components/Panel/Helpers/PersonalNotes.js:116-139 | the first tree's block starts the rows |
| PersonalNotes.TreeAtTail | components/Panel/Helpers/PersonalNotes.js:116-139 | a later tree's block follows the first tree's rows |
| PersonalNotes.ParseNotesBlocks | components/Panel/Helpers/PersonalNotes.js:117-129 | a top-level note's row has the caller's parent id and a freshly drawn id, and its children hang under it |
| PersonalNotes.IdsOf | components/Panel/Helpers/PersonalNotes.js:119 | the ids of the rows, in order |
| PersonalNotes.ParentsEarlierConcat | components/Panel/Helpers/PersonalNotes.js:133-135 | rows whose parents come earlier stay so behind a prefix that holds their parent |
| PersonalNotes.ParentPrecedesChild | components/Panel/Helpers/PersonalNotes.js:115-140 | every row's parent is the caller's parent id or a row inserted before it |
| PersonalNotes.TreeParents | components/Panel/Helpers/PersonalNotes.js:127-135 | the same for the rows of one tree |
| PersonalNotes.ParseNotesWithTopFolder | components/Panel/Helpers/PersonalNotes.js:94-113 | a root folder `export-<date>` with no parent and sorting 0 comes first; the imported rows hang under it |
| PersonalNotes.ImportHangsUnderFolder | components/Panel/Helpers/PersonalNotes.js:94-113 | every imported row hangs, directly or through other imported rows, under the export folder |
| PersonalNotes.ImportNotes | components/Panel/Helpers/PersonalNotes.js:154-190 | no file, a blank file and a file that is not typed `personal_notes` each fail with their message, in that order; a file that is not JSON fails; a `personal_notes` file succeeds with exactly the rows of its data under a new export folder |
| PersonalNotes.ImportedRowsHang | components/Panel/Helpers/PersonalNotes.js:154-190 | a successful import gives one row per note plus the folder, which comes first with no parent, and every later row's parent is a row before it |
| Door43.VerseOf | pages/api/git/twl.js:83 | the verse of a reference is absent iff it has no colon |
| Door43.TsvUrlPieces | pages/api/git/twl.js:74-76 | the TSV address splits back into scheme, host, owner, repository, `raw`, `commit` and commit |
| Door43.TsvUrlPrefix | pages/api/git/obs-tn.js:73-75 | the TSV address is the commit's raw prefix followed by the book path without its first character |
| Door43.SplitEight | pages/api/git/twl.js:74-76 | eight slash-free pieces joined by slashes split back into themselves |
| Door43.ReadVerses | pages/api/git/twl.js:73 | a truthy `verses[]` parameter wins; otherwise the plain `verses` parameter is used |
| Door43.SingleVerseTakesSubstrings | pages/api/git/twl.js:81-84 | the single query `12` includes verses `12`, `1` and `2` but not `21`; the array `["12"]` includes only `12` |
| Door43.SingleVerseIncludesParts | pages/api/git/twl.js:84 | a single verse query includes every verse written inside it |
| Twl.SelectRows | pages/api/git/twl.js:73-89 | a row is kept iff its chapter is the requested one and, when verses are given, the query includes its verse: by membership for an array, as a substring for a single string |
| Twl.SelectedCases | pages/api/git/twl.js:81-88 | the row test spelled out per query shape: an array needs the row's verse as an element, a string needs it (or `undefined` when the reference has no colon) as a substring, no verses needs only the chapter |
| Twl.WholeChapterKept | pages/api/git/twl.js:86-89 | without verses, a list of rows of the chapter is kept whole |
| Twl.ArticlePath | pages/api/git/twl.js:91-94 | the article path is the last three pieces of the link |
| Twl.IndexOf | pages/api/git/twl.js:96 | `search` of a character: its first index, or -1 iff it is absent |
| Twl.SplitArticle | pages/api/git/twl.js:96-101 | title and text concatenate back to the article; the title has no line break; the text starts with the first line break; an article without a break loses its last character to the text |
| Twl.WordOf | pages/api/git/twl.js:96-101 | a word keeps its row's reference, and its title and text concatenate back to the article, the title holding no line break |
| Twl.RowWordFetches | pages/api/git/twl.js:90-102 | a row's request fails iff the article at its link cannot be fetched, and otherwise gives a word of that article |
| Twl.FetchWords | pages/api/git/twl.js:90-103 | a successful `Promise.all` gives one word per selected row |
| Twl.FetchWordsFails | pages/api/git/twl.js:103 | the whole fetch fails iff the request of some row fails |
| Twl.FetchWordsAt | pages/api/git/twl.js:90-103 | in a successful fetch, position i holds the word of row i's request, so row order is kept |
| Twl.GroupByVerse | pages/api/git/twl.js:105-118 | one group per verse met, holding exactly that verse's entries in row order |
| Twl.EntriesForAbsent | pages/api/git/twl.js:112-117 | a verse that no word has gets no entries |
| Twl.EntryIdsDistinct | pages/api/git/twl.js:109-110 | entries with different counts get different ids |
| Twl.CountPiece | pages/api/git/twl.js:109 | the last `_`-piece of an id is its count |
| Twl.TwlHandler | pages/api/git/twl.js:70-126 | 404 iff the TSV or an article cannot be fetched; otherwise 200 with the selected rows grouped by verse |
| ObsTn.CollectNotes | pages/api/git/obs-tn.js:83-99 | the notes of the asked verses (array membership, or substring of a single string query) go to the divided answer and the other notes of the chapter to the whole answer, in row order |
| ObsTn.RowsStep | pages/api/git/obs-tn.js:84-98 | each row goes to exactly one of the two answers, or to none when it is of another chapter |
| ObsTn.FileNotesStep | pages/api/git/obs-tn.js:94-98 | filing one more row files its note last |
| ObsTn.ObsTnHandler | pages/api/git/obs-tn.js:70-108 | verses read from `verses[]` or `verses`, array or string; 404 iff the TSV cannot be fetched; otherwise the divided answer when verses are given, else the whole one |
| Info.FindBookPath | pages/api/git/info.js:53 | none iff no project has the book's identifier; otherwise the path of the first project that has it |
| Info.FindBookPathIgnoresOtherBooks | pages/api/git/info.js:53 | projects of other books do not change the path found |
| Info.ContentUrlRelative | pages/api/git/info.js:59-64 | `./path` and `path` lead to the same file |
| Info.IntroOf | pages/api/git/info.js:76-92 | a row counts iff it is the `intro` of the chapter or of `front`; front gives the book intro; the text is `OccurrenceNote` or `Note` |
| Info.CollectIntros | pages/api/git/info.js:73-93 | a key is present iff some row contributes to it, and its text is the last such row's |
| Info.LastForStep | pages/api/git/info.js:75-93 | one more row keeps or takes over the last contributor of each key |
| Info.InfoHandler | pages/api/git/info.js:44-97 | 404 without a manifest or file; an uncaught error when the book is not in the manifest; 200 exactly when the manifest, the book's path and the file are all found, and then a key is present iff some row of the chapter or front contributes to it, and its text is the last such row's |
| PasswordRecovery.ComparePasswords | components/StartPage/PasswordRecovery.js:40-52 | in order: a field is empty; the password is shorter than six UTF-16 units; the two differ; otherwise accepted |
| PasswordRecovery.AcceptedPasswordIsLongEnough | components/StartPage/PasswordRecovery.js:40-52 | an accepted password has at least six UTF-16 units in both fields |
| PasswordRecovery.HandleChange | components/StartPage/PasswordRecovery.js:54-59 | only the named field changes |
| PasswordRecovery.HandleRecovery | components/StartPage/PasswordRecovery.js:60-86 | a failing check shows its message and sends nothing; an accepted password is sent iff there is a user |
| PasswordRecovery.CompleteRecovery | components/StartPage/PasswordRecovery.js:72-84 | a truthy answer shows success, a rejection shows its message or the default, and recovering always ends |
| Feedback.HandleChange | components/StartPage/Feedback.js:18-20 | the named field takes the typed value and the others stay |
| Feedback.HandleSubmit | components/StartPage/Feedback.js:22-46 | an incomplete form raises the error flag and the `NotAllFieldFull` toast and sends nothing; a complete one shows no toast, starts saving and is sent |
| Feedback.CompleteSend | components/StartPage/Feedback.js:34-45 | a delivered message shows success and clears the error; a failure shows the sending error; saving always ends |
| Feedback.RefusedSubmitFlagsEmptyFields | components/StartPage/Feedback.js:25-29 | after a refused submit the flagged fields are exactly the empty ones, and at least one is flagged |
| Feedback.TypingClearsFlag | components/StartPage/Feedback.js:18-20 | typing into a flagged field clears its flag and keeps the others |
| ProjectCreate.MatchCodePattern | components/ProjectCreate.js:122 | the scan accepts iff the code is 2-12 code characters, `_`, then 1-12 code characters |
| ProjectCreate.SplitPointUnique | components/ProjectCreate.js:122 | a well-formed code has only one split point |
| ProjectCreate.CodeFormatShape | components/ProjectCreate.js:122 | a well-formed code has 4 to 25 characters and exactly one `_` |
| ProjectCreate.FindProject | components/ProjectCreate.js:123 | a project is found iff some project has the code |
| ProjectCreate.Unique | components/ProjectCreate.js:123 | the rule fails iff the loaded list has a project with the code |
| ProjectCreate.CodeError | components/ProjectCreate.js:119-124 | `required` first, then the wrong-format rule, then the uniqueness rule; no error iff well-formed and unique |
| ProjectCreate.ErrorMessageNamesRule | components/ProjectCreate.js:127-132 | a message appears exactly for a wrongly formatted or already used code, and names that rule |
| ProjectCreate.OnSubmit | components/ProjectCreate.js:69-98 | nothing is sent without title, code and language; with a method, the request carries them with the method's id and steps |
| ProjectCreate.Submit | components/ProjectCreate.js:107-145 | the form reaches `onSubmit` only with a title and a code that passes every rule; a missing title or any code error leaves it unsent |
| ProjectCreate.PostedCodeIsValid | components/ProjectCreate.js:119-145 | a posted project's code is the typed one, well-formed, not used by a loaded project, and shows no message |
| ProjectCreate.UpdateTitle | components/ProjectCreate.js:135-141 | only the step at the index changes, and only its title |
| ProjectCreate.RenamedStepIsPosted | components/ProjectCreate.js:48-49 | a step renamed with `updateTitle` is posted under its new title, and every other step as it was |
| MethodEditor.UpdateArray | components/ProjectCreate/ProjectCreate.js:130-138 | the record at the index takes the value under the field and the others stay |
| MethodEditor.UpdateArrayKeepsOtherFields | components/ProjectCreate/ProjectCreate.js:130-138 | the updated record keeps every other field |
| MethodEditor.UpdateArrayOutOfRange | components/ProjectCreate/ProjectCreate.js:130-138 | an out-of-range index gives an equal array |
| MethodEditor.UpdateArrayIdempotent | components/ProjectCreate/ProjectCreate.js:130-138 | repeating an update changes nothing more |
| MethodEditor.UpdateMethods | components/ProjectCreate/ProjectCreate.js:140-148 | exactly the methods with the current method's id take the new block |
| MethodEditor.UpdateBlock | components/ProjectCreate/ProjectCreate.js:150-160 | the chosen array is updated and written back into the methods; the other array stays |
| MethodEditor.AsValues | components/ProjectCreate/ProjectCreate.js:150-160 | records become object values one for one |
| MethodEditor.UpdateGuarded | components/ProjectCreate/ProjectCreate.js:161-184 | nothing changes unless the value is truthy and the index and field are given |
| MethodEditor.FalsyValueIgnored | components/ProjectCreate/ProjectCreate.js:161-184 | an emptied input never reaches the stored methods |
| MethodEditor.DropIndex | components/ProjectCreate/ProjectCreate.js:197-203 | the block at the index is dropped; an out-of-range index drops nothing |
| MethodEditor.RemoveBlockByIndex | components/ProjectCreate/ProjectCreate.js:197-203 | the last remaining block is never removed; otherwise that block goes, in both copies |
| MethodEditor.NewBlock | components/ProjectCreate/ProjectCreate.js:204-220 | a new block has exactly the keys `block`, `id`, `resume`, `title`, one empty question, and the random id |
| MethodEditor.AddBlock | components/ProjectCreate/ProjectCreate.js:204-220 | exactly one new block after the existing ones, written back into the methods |
| MethodEditor.RemoveUndoesAdd | components/ProjectCreate/ProjectCreate.js:197-220 | removing the block just added restores the blocks |
| AvatarSelector.IsValidFile | components/AvatarSelector.js:95-110 | too large iff over 5 MiB; else unsupported iff not an allowed type; else valid |
| AvatarSelector.TestUserUpload | components/AvatarSelector.js:25 | the scan accepts iff `user_<id>` occurs, followed on one line by any text and `.png` at the end |
| AvatarSelector.UserUploadMatches | components/AvatarSelector.js:25 | any address continuing `user_<id>`, one line of text and `png` passes |
| AvatarSelector.MatchesLibraryAvatar | components/AvatarSelector.js:26 | a pass means the address ends in `avatar_`, a number 01-22, any character and `png` |
| AvatarSelector.LibraryAvatarNumbers | components/AvatarSelector.js:26 | the library pattern accepts exactly the numbers 01 to 22 |
| AvatarSelector.LibraryPatternDotIsAnyCharacter | components/AvatarSelector.js:26 | the unescaped `.` takes any character: `avatar_07xpng` passes as well as `avatar_07.png` |
| AvatarSelector.LibraryPatternRange | components/AvatarSelector.js:26 | `avatar_23.png` and `avatar_00.png` do not pass |
| AvatarSelector.UpdatedList | components/AvatarSelector.js:42-57 | every avatar is selected iff its address is the chosen one; an upload is put first, followed by exactly the other avatars in their order, marked, without the user's earlier uploads |
| AvatarSelector.UploadKeepsOrder | components/AvatarSelector.js:47-55 | updating a concatenated list is updating each part, the upload heading once |
| AvatarSelector.UpdateAvatar | components/AvatarSelector.js:24-63 | refused iff the address is empty or matches neither pattern; failed iff the save fails; otherwise the updated list |
| AvatarSelector.ChoiceSelectsExactly | components/AvatarSelector.js:42-46 | after a saved choice exactly the avatars with that address are selected |
| AvatarSelector.ResetAvatar | components/AvatarSelector.js:148-172 | failed unless the answer is 200 (a thrown request included); a null current address throws; when the current address contains `_<userId>_`, exactly the avatars with that address are dropped and the rest kept in order; otherwise every avatar is kept but deselected |
| AvatarSelector.ResetClearsCurrent | components/AvatarSelector.js:160-164 | after a reset no avatar has the own upload's address, or no avatar is selected |
| AvatarSelector.ResetKeepsOrder | components/AvatarSelector.js:160-164 | resetting two runs of avatars gives their results one after the other, so order and repeats are kept |
| SideBar.OpenModal | components/SideBar.js:55-61 | the named window toggles and every other one closes; no name closes all |
| SideBar.CloseModal | components/SideBar.js:63-69 | every window closes |
| SideBar.OpenLeavesAtMostOne | components/SideBar.js:55-61 | at most one window is open after `openModal` |
| SideBar.OpenTwiceCloses | components/SideBar.js:55-61 | opening a window twice from closed closes it |
| SideBar.OpenSwitches | components/SideBar.js:55-61 | opening another window closes the open one |
| SideBar.RunKeepsAtMostOne | components/SideBar.js:55-69 | no sequence of clicks opens two windows |
| ProjectEdit.MemberIds | components/ProjectEdit.js:47-53 | the members' user ids, in order |
| ProjectEdit.Candidates | components/ProjectEdit.js:47-61 | a user is a candidate iff not yet a member (every user while members load); nothing while users load |
| ProjectEdit.CandidatesInOrder | components/ProjectEdit.js:47-61 | candidates keep the order of `users`: two runs of users give their candidates one after the other |
| ProjectEdit.JoiningLeavesCandidates | components/ProjectEdit.js:47-61 | a user who joins drops out and every other candidate stays |
| ProjectEdit.DefaultSelection | components/ProjectEdit.js:47-61 | the dialog opens on the first candidate, if any |
| ProjectEdit.OpensOnFirstNonMember | components/ProjectEdit.js:47-61 | the dialog opens on the first user, in user order, who is not a member |
| ProjectEdit.NoCandidateNoSelection | components/ProjectEdit.js:47-61 | when every user is a member, nothing is selected |
| ProjectEdit.ModeratorIds | components/ProjectEdit.js:116-120 | an id is listed iff some translator with it is a moderator |
| ProjectEdit.ModeratorIdsInOrder | components/ProjectEdit.js:116-120 | the ids keep the translators' order: two runs of translators give their moderators' ids one after the other |
| ProjectEdit.ModeratorToggle | components/ProjectEdit.js:270-276 | the button removes moderator rights iff the selected translator has them, and grants them otherwise |
| ProjectEdit.FetchesLevel | components/ProjectEdit.js:63-74 | the level is requested iff the project has a non-zero id, whatever the user |
| ProjectEdit.FetchesLevelIgnoresUser | components/ProjectEdit.js:71 | whether the user is known does not change that decision |
| Tool.Dispatch | components/Panel/Tool.js:39-151 | a subject is served iff it is an OBS, scripture or local subject; OBS reads the first project, scripture the book's project, local tools no file and no endpoint |
| Tool.VerseNumber | components/Panel/Tool.js:35-37 | a verse record with a truthy `num` stands for that number; anything else stays |
| Tool.Verses | components/Panel/Tool.js:35-37 | no verses for a whole chapter; otherwise the reference's verses by number |
| Tool.FirstPath | components/Panel/Tool.js:39-151 | the first project's path, none without projects |
| Tool.ToolPanel | components/Panel/Tool.js:17-151 | nothing without a resource; wrong resource iff the subject is unknown; otherwise the tool and endpoint the subject dispatches to, with its file, title and verses |
| Tool.NotesRoute | components/Panel/Tool.js:39-151 | translation notes open the notes tool on `/api/git/tn` |
| Tool.BibleRoute | components/Panel/Tool.js:39-151 | a Bible goes to `/api/git/bible`, titled by the chapter |
| Tool.UnknownSubjectRoute | components/Panel/Tool.js:39-151 | the subject `scripture` shows the wrong-resource message |
| Tool.EndpointTool | components/Panel/Tool.js:39-151 | each endpoint the panel calls is served by one tool kind |
| Tool.DispatchMatchesEndpoint | components/Panel/Tool.js:39-151 | for every subject, the dispatched tool is the one its endpoint belongs to, and the subject reads the first project iff its endpoint is an OBS one |
| Tool.SharedEndpointSharedTool | components/Panel/Tool.js:39-151 | two subjects on one endpoint open the same tool |
| BookReader.At | components/Project/BookReader.js:36-38 | an index past the end gives `undefined` |
| BookReader.ChecksResource | components/Project/BookReader.js:32-42 | no resource without checks; owner, repository and commit are pieces 3, 4 and 6; the path is `//` plus the book's file name |
| BookReader.ChecksResourceRoundTrip | components/Project/BookReader.js:32-42 | a seven-piece checks address gives back its owner, repository and commit |
| BookReader.IndexIn | components/Project/BookReader.js:67-72 | the canonical position of a code, -1 iff it is not in the canon |
| BookReader.Insert | components/Project/BookReader.js:67-72 | inserting keeps canonical order and adds exactly the book |
| BookReader.AppendKeepsOrder | components/Project/BookReader.js:67-72 | appending a book no earlier than the others keeps the order |
| BookReader.BoundedByParts | components/Project/BookReader.js:67-72 | a bound on the parts holds for the whole |
| BookReader.SortByCanon | components/Project/BookReader.js:67-72 | the sorted list is in canonical order and a permutation of the input |
| BookReader.CheckedBooks | components/Project/BookReader.js:58-66 | exactly the checked books of the testament, each as often as the project has it |
| BookReader.TestamentBooks | components/Project/BookReader.js:58-93 | a testament list holds exactly the checked books of the testament, in canonical order |
| BookReader.FilterCounts | components/Project/BookReader.js:58-66 | filtering keeps every copy of a kept book and none of a dropped one |
| BookReader.ChapterGrid | components/Project/BookReader.js:364-366 | the grid has buttons 1 to n in order |
| BookReader.ChapterGridExact | components/Project/BookReader.js:364-366 | a chapter has a button iff it is between 1 and n |
| BookReader.ClickPrev | components/Project/BookReader.js:214-226 | the click goes to the previous chapter unless that would be 0 |
| BookReader.ClickNextPassesLastChapter | components/Project/BookReader.js:285-288 | the written click moves past the last chapter of a book whose record has more fields than chapters |
| BookReader.ClickNext | components/Project/BookReader.js:280-288 | the click moves on iff the next-chapter button is shown |
| BookReader.NavigationStaysInBook | components/Project/BookReader.js:214-288 | from a chapter of the book, both buttons keep the reader in the book |
| CommandEditor.BuildRows | components/Panel/Helpers/CommandEditor.js:41-47 | one row per fetched verse, editable iff its verse id is among the reference's verses |
| CommandEditor.RowsKeepQueryOrder | components/Panel/Helpers/CommandEditor.js:39-47 | rows fetched by ascending number are shown in that order |
| CommandEditor.UpdateVerse | components/Panel/Helpers/CommandEditor.js:85-104 | with `moderatorOnly`, only levels other than user and translator may edit; otherwise only editable rows; a refused edit changes nothing and sends nothing; a permitted one changes that text only and saves it |
| CommandEditor.DisabledMeansNoEdit | components/Panel/Helpers/CommandEditor.js:124-128 | the textarea is disabled iff an edit would be refused |
| CommandEditor.UpdateVerseObject | components/Panel/Helpers/CommandEditor.js:55-65 | a pushed change replaces the text of exactly the rows with that verse id |
| CommandEditor.UpdateVerseObjectIdempotent | components/Panel/Helpers/CommandEditor.js:55-65 | applying a pushed change twice is the same as once |
| Editor.KeptVerses | components/Panel/Helpers/Editor.js:25 | exactly the verses numbered below 201; nothing when there are no verses |
| Editor.KeptVersesKeepOrder | components/Panel/Helpers/Editor.js:25 | the kept verses keep their relative order |
| Editor.PseudoVerseBoundary | components/Panel/Helpers/Editor.js:25 | pseudo-verse 200 stays and 201 goes |
| Editor.SavePayload | components/Panel/Helpers/Editor.js:33-35 | the save carries one entry, the verse id mapped to its text |
| Editor.UpdateVerse | components/Panel/Helpers/Editor.js:29-43 | only the text at the index changes, and the save carries that verse's id and the text |
| Editor.UpdateVerseIdempotent | components/Panel/Helpers/Editor.js:29-43 | typing the same text again changes nothing more |
| Editor.NullResultCrashes | components/Panel/Helpers/Editor.js:36 | a null result throws before the falsy test |
| Editor.FailureCheck | components/Panel/Helpers/Editor.js:36-40 | the failure notice is raised iff the result is missing or carries an error |
| Editor.FailureCheckAgreesOnResponses | components/Panel/Helpers/Editor.js:36-40 | on every actual response the corrected test decides like the written one |
| BookProperties.FindBook | components/Project/BookList/BookProperties/BookProperties.js:23 | the first book with the code, none iff no book has it |
| BookProperties.SectionKey | components/Project/BookList/BookProperties/BookProperties.js:35 | OBS edits `obs`, every other type `scripture` |
| BookProperties.SectionFields | components/Project/BookList/BookProperties/BookProperties.js:38-43 | `...prev.scripture` / `...prev.obs`: a stored object section gives its fields; a missing or non-object section spreads to nothing |
| BookProperties.UpdateProperty | components/Project/BookList/BookProperties/BookProperties.js:33-47 | the property of the type's section becomes the text; the section's other properties and every other section stay |
| BookProperties.UpdatePropertyReadBack | components/Project/BookList/BookProperties/BookProperties.js:33-47 | the property reads back as typed and the other section is untouched |
| BookProperties.UpdatesCommute | components/Project/BookList/BookProperties/BookProperties.js:33-47 | edits of two different properties commute |
| BookProperties.RenderedProperties | components/Project/BookList/BookProperties/BookProperties.js:49-52 | nothing before loading; the entries of the type's section; a `TypeError` when that section is missing or null |
| BookProperties.EditShowsInListing | components/Project/BookList/BookProperties/BookProperties.js:33-52 | after an edit the listing shows the new text |
| BookProperties.DefaultTab | components/Project/BookList/BookProperties/BookProperties.js:93 | the level-check tab opens first iff the address asks for levels |
| BookProperties.LoadLink | components/Project/BookList/BookProperties/BookProperties.js:168-172 | a book with level checks replaces the link; otherwise the link stays |
| BookProperties.ClickLevel | components/Project/BookList/BookProperties/BookProperties.js:208-224 | clicking level k checks k, unchecks the others, keeps the rest of the link and adds only the key `level` |
| BookProperties.TypeUrl | components/Project/BookList/BookProperties/BookProperties.js:179-184 | typing sets the link's address, keeps the rest and adds only the key `url` |
| BookProperties.OneLevelChecked | components/Project/BookList/BookProperties/BookProperties.js:208-224 | exactly the clicked level is checked, and typing the address keeps it |
| BookProperties.SaveLevelChecks | components/Project/BookList/BookProperties/BookProperties.js:146-166 | nothing is sent without a link; otherwise the whole link goes to the book's level-checks address |
| BookProperties.SavedClickCarriesLevel | components/Project/BookList/BookProperties/BookProperties.js:146-224 | a saved click saves the chosen level |
| BriefBlock.Spread | components/ProjectEdit/Brief/BriefBlock.js:77-79 | spreading an object gives its fields |
| BriefBlock.LoadCollection | components/ProjectEdit/Brief/BriefBlock.js:39-43 | the brief's array collection is taken iff the local one is empty; otherwise the local one stays |
| BriefBlock.LoadCollectionStable | components/ProjectEdit/Brief/BriefBlock.js:39-43 | re-running the load changes nothing, and local edits are never overwritten |
| BriefBlock.UpdateBrief | components/ProjectEdit/Brief/BriefBlock.js:75-83 | the item's `resume` becomes the text, it gains no other key, its other fields and the other items stay |
| BriefBlock.UpdateAnswer | components/ProjectEdit/Brief/BriefBlock.js:85-98 | the pair's `answer` becomes the text and no other key appears; the pair's other fields, the item's other pairs and fields, and the other items stay |
| BriefBlock.EditsAreIndependent | components/ProjectEdit/Brief/BriefBlock.js:75-98 | answering keeps every summary, and writing a summary keeps every answer |
| BriefBlock.LeadingDigits | components/ProjectEdit/Brief/BriefBlock.js:161 | the maximal run of leading digits |
| BriefBlock.LeadingDigitsOf | components/ProjectEdit/Brief/BriefBlock.js:161 | digits followed by a non-digit are the leading digits |
| BriefBlock.HeadingParses | components/ProjectEdit/Brief/BriefBlock.js:161 | the heading `<id>. <title>` reads back as the id, `. ` and the title |
| BriefBlock.HandleSwitch | components/ProjectEdit/Brief/BriefBlock.js:100-107 | with a brief, the request carries the negation of `is_enable`; without one nothing is sent |
| BriefBlock.SwitchAlternates | components/ProjectEdit/Brief/BriefBlock.js:100-107 | once the flag is stored, the next click asks for the opposite |
| BriefBlock.SaveRequest | components/ProjectEdit/Brief/BriefBlock.js:45-52 | the whole collection is sent to the project's brief address |
| BriefBlock.FailedSaveReportsSuccess | components/ProjectEdit/Brief/BriefBlock.js:224-227 | a failed save still shows success |
| BriefBlock.SaveToastAfterRequest | components/ProjectEdit/Brief/BriefBlock.js:224-227 | success is shown iff the request succeeded |
| BriefBlock.SaveToastsAgreeOnSuccess | components/ProjectEdit/Brief/BriefBlock.js:45-60 | the written and corrected toasts agree iff the save succeeded |
| Strings.Split | pages/api/git/twl.js:83 | `split(':')` gives at least one piece and no piece holds the separator |
| Strings.JoinSplit | pages/api/git/twl.js:94 | joining the pieces of a split gives the string back |
| Strings.SplitJoin | pages/api/git/twl.js:94 | splitting joined separator-free pieces gives the pieces back |
| Strings.SplitNoSep | pages/api/git/twl.js:83 | a reference without a colon splits into itself alone |
| Strings.SplitFindsSep | pages/api/git/twl.js:83 | a second piece exists iff the separator occurs |
| Strings.SplitConcat | pages/api/git/twl.js:94 | a split around one separator splits both halves |
| Strings.SplitCons | pages/api/git/obs-tn.js:84 | a separator-free first piece comes off unchanged |
| Strings.SplitSnoc | pages/api/git/twl.js:74-76 | a separator-free last piece comes off unchanged |
| Strings.SliceFrom | pages/api/git/info.js:61 | `slice(k)` keeps the characters from index k on, none when k is past the end |
| Strings.DropLast | pages/api/git/twl.js:91-93 | `slice(0, -1)` drops exactly the last element, and an empty string stays empty |
| Strings.LastN | pages/api/git/twl.js:94 | `slice(-3)` is the longest suffix of at most three elements |
| Strings.ContainsInfix | pages/api/git/twl.js:84 | `includes` finds whatever is written inside the string |
| Strings.DigitChar | pages/api/git/twl.js:109 | a digit value renders as the digit character of that value |
| Strings.NatToString | pages/api/git/twl.js:109 | `String(n)` is a non-empty run of digits, one digit iff n < 10 |
| Strings.DecimalRoundTrip | pages/api/git/twl.js:109 | the rendered number reads back as itself |
| Strings.NatToStringInjective | pages/api/git/twl.js:109-110 | different counts render differently |
| Strings.DecimalLeadingZero | components/Project/Download.js:227 | `padStart(2, '0')` keeps the value of a digit string |
| Strings.Utf16Length | components/StartPage/PasswordRecovery.js:45 | `length` counts UTF-16 units: at least one and at most two per character |
| Seqs.Filter | pages/api/git/twl.js:82-89 | `filter` keeps only elements of the input that pass, and keeps every one that passes |
| Seqs.FilterConcat | pages/api/git/twl.js:82-89 | filtering a concatenation filters each part |
| Seqs.Map | components/AvatarSelector.js:163 | `map` applies the function to each element, keeping length and order |

## Left out

- React rendering, CSS classes, transitions and router navigation are presentation and not modelled. The same goes for the book reader's default tab, its list box and the "Detailed" switch of the brief.
- Supabase queries, RPCs, realtime subscriptions, `axios` calls and Door43 fetches are not modelled. Their results are parameters. The brief's realtime update replaces the collection outright and is left out with the rest.
- `localStorage` writes in the project forms are not modelled; they are side effects with no decision in them.
- `compileChapter`, `convertToUsfm`, `createObjectToTransform`, `JsonToMd`, `tsvToJson`, `jsyaml`, `filterNotes`, `downloadPdf` and `downloadFile` belong to `utils/helper` and other libraries, which are not part of this model. Where the core depends on one, it is a function parameter.
- `Math.random` and `new Date()` are given as draws. `GenerateUniqueId` gets a finite sequence of draws and may report that all of them collided, where the source would loop on.
- PersonalNotes.GenerateUniqueId: takes the existing ids as strings. The calls pass note objects, which is recorded under Findings.
- AvatarSelector.UpdatedList: assumes the inner `setAvatars` runs on the list the outer updater returns. The component's text does not fix that order; React's scheduler does.
- `updateQuestion` in the method editor is not modelled. It passes `array` to `updateMethods`, and no `array` is in its scope, so it throws once its guard passes.
- AvatarSelector.UserUploadAt: matches the user id literally. The source builds the pattern from the id, so regular-expression characters in an id would change the pattern.
- AvatarSelector.MatchesLibraryAvatar: states only the direction from a match to its shape, plus the exact statement in `LibraryAvatarNumbers` for addresses of that shape.
- A checks record without an address makes `BookReader.js` throw. The model has no resource in that case.
- The book reader finds the selected book with `find` and an effect. That lookup is `BookProperties.FindBook` here and is not repeated.
- BookReader.SortByCanon: states order and permutation. It does not state the stability of the source's sort.
- Tool.ToolPanel: does not model the write to `config.verses`, which the source makes even when the resource is wrong.
- ProjectEdit: an unknown user with a known project makes `getLevel` throw. The model only states when the level is requested.
- BookProperties.SectionFields: spreading a string or an array gives index-keyed fields in JavaScript; here it gives none. Stored sections are always objects.
- BookProperties.RenderedProperties: a string or array section is listed as having no entries. JavaScript would list its indices.
- BriefBlock.Spread: the same simplification for brief items and question pairs.
- BriefBlock.LoadCollection: a truthy collection that is not an array is not taken. The source would store it and fail on `.length` later.
- ProjectCreate.UpdateTitle: returns a new list of steps. The source renames the step in place in the array it shares with `method.steps`; `RenamedStepIsPosted` passes the renamed steps to `onSubmit` to state the effect.
- `updateBrief` and `updateObjQA` mutate the previous state and return the same array, so React may not re-render. The model states the data as it ends up, not the rendering.
- Twl.SplitArticle: an article without a line break loses its last character to the text, as in the source. This is stated as written and not corrected.
- Info.InfoHandler: a book missing from the manifest throws outside the handler's `try`. It is an outcome of its own (`ServerError`), not a 500 response.
- Integers are unbounded. The source's numbers stay far below 2^53 (chapter numbers, file sizes, counters), so no wrap-around is modelled.

## Findings

| source | as written | input that shows it | evidently intended | confidence | as-written member | corrected member |
|---|---|---|---|---|---|---|
| components/Project/BookReader.js:285-288 | the next-chapter click compares the next chapter with the number of fields of the book record | a book with 3 chapters whose record has 6 fields, on chapter 3: the invisible button still moves to chapter 4 | move on only when the next chapter is at most the chapter count, as the button's visibility (line 280) does | not executed | BookReader.ClickNextAsWritten, BookReader.ClickNextPassesLastChapter | BookReader.ClickNext, BookReader.NavigationStaysInBook |
| components/Panel/Helpers/Editor.js:36 | `res.error \|\| !res` reads `res.error` before testing `res` | a save that resolves with `null`: a `TypeError` rejects the save and no toast appears | `!res \|\| res.error`, so a missing result raises the failure notice | not executed; the client normally resolves with an object | Editor.FailureCheckAsWritten, Editor.NullResultCrashes | Editor.FailureCheck, Editor.FailureCheckAgreesOnResponses |
| components/ProjectEdit/Brief/BriefBlock.js:45-60 | `saveToDatabase` returns `{ error }` before the request settles, so the button always reads `error === false` | a save whose request is rejected: the button shows "SaveSuccess" | the toast follows the request's outcome | not executed | BriefBlock.SaveToastAsWritten, BriefBlock.FailedSaveReportsSuccess | BriefBlock.SaveToastAfterRequest, BriefBlock.SaveToastsAgreeOnSuccess |
| components/Panel/Helpers/PersonalNotes.js:86-95 | `generateUniqueId(allNotes)` passes the note objects, and `includes` compares a string with objects | a stored note whose id equals the first candidate: the loop ends at once and the new note gets the same id | compare against the notes' ids | not executed | PersonalNotes.AllNotesCheckTakesFirstDraw, PersonalNotes.AllNotesCheckDuplicates | PersonalNotes.FreshNoteId |

=== FILE: avatar_selector.dfy ===
/** Choosing, uploading and resetting a user's avatar
    (components/AvatarSelector.js): the upload checks, the address patterns
    an avatar must match, and the avatar list after an update or a reset. */
module AvatarSelector {
  import opened Wrappers
  import opened Strings
  import Seqs

  // ---------------------------------------------------------------------
  // Upload checks

  /** `MAX_FILE_SIZE`: five mebibytes. */
  const MaxFileSize: nat := 5 * 1024 * 1024

  /** `ALLOWED_FILE_TYPES`. */
  const AllowedFileTypes: seq<string> := ["image/jpeg", "image/png", "image/svg+xml"]

  /** A chosen file: its size in bytes and its MIME type. */
  datatype File = File(size: nat, kind: string)

  /** The result of `isValidFile`, with the toast it shows. */
  datatype FileCheck = FileTooLarge | UnsupportedFileType | ValidFile

  /** `isValidFile`: the size is checked before the type. */
  function IsValidFile(file: File): (r: FileCheck)
    ensures r == FileTooLarge <==> file.size > 5242880
    ensures r == UnsupportedFileType <==>
      file.size <= 5242880 && file.kind != "image/jpeg" && file.kind != "image/png" && file.kind != "image/svg+xml"
    ensures r == ValidFile <==>
      file.size <= 5242880 && (file.kind == "image/jpeg" || file.kind == "image/png" || file.kind == "image/svg+xml")
  {
    if file.size > MaxFileSize then FileTooLarge
    else if file.kind !in AllowedFileTypes then UnsupportedFileType
    else ValidFile
  }

  // ---------------------------------------------------------------------
  // Address patterns

  /** No character of `s` ends a line, so a run of `.` can match it. */
  predicate OnOneLine(s: string)
  {
    forall i :: 0 <= i < |s| ==> !IsLineTerminator(s[i])
  }

  /** `user_${userId}.*\.png$` matches with `user_<id>` starting at `p`.
      Inside the template literal `\.` is a plain `.`, so the character
      before `png` may be any character but a line terminator; the part
      after the id is at least one such character followed by `png` at the
      end. The id is taken literally. */
  predicate UserUploadAt(url: string, userId: string, p: int)
  {
    var prefix := "user_" + userId;
    && OccursAt(url, prefix, p)
    && |url| - (p + |prefix|) >= 4
    && url[|url| - 3..] == "png"
    && OnOneLine(url[p + |prefix|..|url| - 3])
  }

  /** The upload pattern matches somewhere in the address; it is not
      anchored at the start. */
  predicate MatchesUserUpload(url: string, userId: string)
  {
    exists p :: 0 <= p <= |url| && UserUploadAt(url, userId, p)
  }

  /** The pattern test as a scan over every start position. */
  method TestUserUpload(url: string, userId: string) returns (matched: bool)
    ensures matched <==> MatchesUserUpload(url, userId)
  {
    matched := false;
    var p := 0;
    while p <= |url|
      invariant 0 <= p <= |url| + 1
      invariant matched <==> exists q :: 0 <= q < p && UserUploadAt(url, userId, q)
    {
      if UserUploadAt(url, userId, p) {
        matched := true;
      }
      p := p + 1;
    }
  }

  /** Whatever comes before `user_<id>`, an address continuing with one
      line of at least one character and ending in `png` matches; so
      `.../user_<id>_1.png` and `.../user_<id>xpng` both pass. */
  lemma UserUploadMatches(prefix: string, userId: string, rest: string)
    requires |rest| >= 1 && OnOneLine(rest)
    ensures MatchesUserUpload(prefix + "user_" + userId + rest + "png", userId)
  {
    var url := prefix + "user_" + userId + rest + "png";
    var p := |prefix|;
    assert url[p..p + |"user_" + userId|] == "user_" + userId;
    assert url[p + |"user_" + userId|..|url| - 3] == rest;
    assert url[|url| - 3..] == "png";
    assert UserUploadAt(url, userId, p);
  }

  /** The two digits of a library avatar, `01` to `22`. */
  predicate LibraryNumber(digits: string)
  {
    && |digits| == 2 && IsDigit(digits[0]) && IsDigit(digits[1])
    && var n := (digits[0] as int - '0' as int) * 10 + (digits[1] as int - '0' as int);
    && 1 <= n <= 22
  }

  /** `avatar_(0[1-9]|1[0-9]|2[0-2])\.png$`: the address ends in
      `avatar_<nn>` with `nn` from 01 to 22, one character that is not a
      line terminator, and `png`. */
  function MatchesLibraryAvatar(url: string): (matched: bool)
    ensures matched ==> |url| >= 13 && url[|url| - 13..|url| - 6] == "avatar_" && url[|url| - 3..] == "png"
    ensures matched ==> LibraryNumber(url[|url| - 6..|url| - 4])
  {
    && |url| >= 13
    && var tail := url[|url| - 13..];
    && tail[..7] == "avatar_"
    && ((tail[7] == '0' && '1' <= tail[8] <= '9') || (tail[7] == '1' && '0' <= tail[8] <= '9')
        || (tail[7] == '2' && '0' <= tail[8] <= '2'))
    && !IsLineTerminator(tail[9])
    && tail[10..] == "png"
  }

  /** The library pattern accepts exactly the numbers 1 to 22. */
  lemma LibraryAvatarNumbers(prefix: string, digits: string, c: char)
    requires |digits| == 2 && !IsLineTerminator(c)
    ensures MatchesLibraryAvatar(prefix + "avatar_" + digits + [c] + "png") <==> LibraryNumber(digits)
  {
    var url := prefix + "avatar_" + digits + [c] + "png";
    var tail := url[|url| - 13..];
    assert tail == "avatar_" + digits + [c] + "png";
    assert tail[7] == digits[0] && tail[8] == digits[1];
  }

  /** Since `.` stands for any character, `avatar_07xpng` passes as well as
      `avatar_07.png`, after any folder. */
  lemma LibraryPatternDotIsAnyCharacter(folder: string)
    ensures MatchesLibraryAvatar(folder + "avatar_" + "07" + ['x'] + "png")
    ensures MatchesLibraryAvatar(folder + "avatar_" + "07" + ['.'] + "png")
  {
    LibraryAvatarNumbers(folder, "07", 'x');
    LibraryAvatarNumbers(folder, "07", '.');
  }

  /** The numbers 23 and 00 are outside the library. */
  lemma LibraryPatternRange(folder: string)
    ensures !MatchesLibraryAvatar(folder + "avatar_" + "23" + ['.'] + "png")
    ensures !MatchesLibraryAvatar(folder + "avatar_" + "00" + ['.'] + "png")
  {
    LibraryAvatarNumbers(folder, "23", '.');
    LibraryAvatarNumbers(folder, "00", '.');
  }

  /** The guard of `updateAvatar`: a non-empty address that matches one of
      the two patterns. */
  predicate AcceptableUrl(url: Option<string>, userId: string)
  {
    url.Some? && url.value != "" && (MatchesUserUpload(url.value, userId) || MatchesLibraryAvatar(url.value))
  }

  // ---------------------------------------------------------------------
  // The avatar list

  /** An avatar of the list; `name` is its file name. */
  datatype Avatar = Avatar(name: string, url: string, selected: bool)

  /** `_<userId>_`, the mark of the user's own uploads in a file name. */
  function OwnMark(userId: string): string
  {
    "_" + userId + "_"
  }

  /** How `updateAvatar` ends. */
  datatype UpdateOutcome = Refused | SaveFailed | Updated(avatars: seq<Avatar>)

  /** `{ ...avatar, selected: avatar.url === avatarUrl }`. */
  function MarkSelected(avatarUrl: string): Avatar -> Avatar
  {
    (avatar: Avatar) => avatar.(selected := avatar.url == avatarUrl)
  }

  /** `!avatar.name.includes(`_${userId}_`)`: not one of the user's uploads. */
  function NotOwnUpload(userId: string): Avatar -> bool
  {
    (avatar: Avatar) => !Contains(avatar.name, OwnMark(userId))
  }

  /** The list after a saved update: every avatar is selected exactly when
      it has the new address; an uploaded avatar then goes first and
      replaces every earlier upload of the user, the other avatars
      following in their order. The model applies the inner `setAvatars`
      to the list the outer one returns; React's scheduler, not the
      component, decides that order. */
  function UpdatedList(avatars: seq<Avatar>, userId: string, avatarUrl: string, newAvatar: Option<Avatar>)
    : (r: seq<Avatar>)
    ensures newAvatar.None? ==>
      (&& |r| == |avatars|
       && forall i :: 0 <= i < |avatars| ==> r[i] == avatars[i].(selected := avatars[i].url == avatarUrl))
    ensures newAvatar.Some? ==>
      (&& |r| >= 1 && r[0] == newAvatar.value
       && (forall i :: 1 <= i < |r| ==> !Contains(r[i].name, OwnMark(userId)) && r[i].selected == (r[i].url == avatarUrl))
       && (forall i :: 0 <= i < |avatars| && !Contains(avatars[i].name, OwnMark(userId)) ==>
            avatars[i].(selected := avatars[i].url == avatarUrl) in r[1..])
       && r[1..] == Seqs.Filter(Seqs.Map(avatars, MarkSelected(avatarUrl)), NotOwnUpload(userId)))
  {
    var marked := Seqs.Map(avatars, MarkSelected(avatarUrl));
    if newAvatar.None? then marked
    else
      var kept := Seqs.Filter(marked, NotOwnUpload(userId));
      assert forall i :: 0 <= i < |kept| ==> kept[i] in marked;
      assert ([newAvatar.value] + kept)[1..] == kept;
      [newAvatar.value] + kept
  }

  /** After an upload the other avatars keep their relative order: the
      avatars of two consecutive stretches of the list follow one another. */
  lemma UploadKeepsOrder(a: seq<Avatar>, b: seq<Avatar>, userId: string, avatarUrl: string, newAvatar: Avatar)
    ensures UpdatedList(a + b, userId, avatarUrl, Some(newAvatar))
         == UpdatedList(a, userId, avatarUrl, Some(newAvatar)) + UpdatedList(b, userId, avatarUrl, Some(newAvatar))[1..]
  {
    var mark, keep := MarkSelected(avatarUrl), NotOwnUpload(userId);
    assert Seqs.Map(a + b, mark) == Seqs.Map(a, mark) + Seqs.Map(b, mark);
    Seqs.FilterConcat(Seqs.Map(a, mark), Seqs.Map(b, mark), keep);
  }

  /** `updateAvatar`. `saved` says whether the request to
      `/api/users/avatars` succeeded. */
  function UpdateAvatar(avatars: seq<Avatar>, userId: string, avatarUrl: Option<string>, newAvatar: Option<Avatar>,
                        saved: bool): (r: UpdateOutcome)
    ensures r.Refused? <==> !AcceptableUrl(avatarUrl, userId)
    ensures r.SaveFailed? <==> AcceptableUrl(avatarUrl, userId) && !saved
    ensures r.Updated? ==> r.avatars == UpdatedList(avatars, userId, avatarUrl.value, newAvatar)
  {
    if !AcceptableUrl(avatarUrl, userId) then Refused
    else if !saved then SaveFailed
    else Updated(UpdatedList(avatars, userId, avatarUrl.value, newAvatar))
  }

  /** After a saved choice from the list, exactly the avatars with the
      chosen address are selected. */
  lemma ChoiceSelectsExactly(avatars: seq<Avatar>, userId: string, avatarUrl: string)
    requires AcceptableUrl(Some(avatarUrl), userId)
    ensures var r := UpdateAvatar(avatars, userId, Some(avatarUrl), None, true);
      && r.Updated? && |r.avatars| == |avatars|
      && forall i :: 0 <= i < |avatars| ==> (r.avatars[i].selected <==> avatars[i].url == avatarUrl)
  {
  }

  /** How `resetAvatar` ends: the request failed or answered another
      status, the current address is `null` (so `includes` throws), or the
      list is reset. */
  datatype ResetOutcome = ResetFailed | NoCurrentUrl | Reset(avatars: seq<Avatar>)

  /** `avatar.url !== url`: not the avatar the user has now. */
  function OtherUrl(url: string): Avatar -> bool
  {
    (avatar: Avatar) => avatar.url != url
  }

  /** `resetAvatar`. `status` is the response's status, `None` when the
      request throws; `currentUrl` is the user's `avatar_url`. */
  function ResetAvatar(avatars: seq<Avatar>, userId: string, currentUrl: Option<string>, status: Option<int>)
    : (r: ResetOutcome)
    ensures r.ResetFailed? <==> status != Some(200)
    ensures r.NoCurrentUrl? <==> status == Some(200) && currentUrl.None?
    ensures r.Reset? && Contains(currentUrl.value, OwnMark(userId)) ==>
      (forall i :: 0 <= i < |r.avatars| ==> r.avatars[i] in avatars && r.avatars[i].url != currentUrl.value)
      && (forall i :: 0 <= i < |avatars| && avatars[i].url != currentUrl.value ==> avatars[i] in r.avatars)
      && r.avatars == Seqs.Filter(avatars, OtherUrl(currentUrl.value))
    ensures r.Reset? && !Contains(currentUrl.value, OwnMark(userId)) ==>
      |r.avatars| == |avatars| && forall i :: 0 <= i < |avatars| ==> r.avatars[i] == avatars[i].(selected := false)
  {
    if status != Some(200) then ResetFailed
    else if currentUrl.None? then NoCurrentUrl
    else if Contains(currentUrl.value, OwnMark(userId)) then
      Reset(Seqs.Filter(avatars, OtherUrl(currentUrl.value)))
    else Reset(Seqs.Map(avatars, (avatar: Avatar) => avatar.(selected := false)))
  }

  /** After a reset the current avatar is gone from the choice: with an
      own upload no avatar keeps its address, otherwise none is selected. */
  lemma ResetClearsCurrent(avatars: seq<Avatar>, userId: string, currentUrl: string)
    ensures var r := ResetAvatar(avatars, userId, Some(currentUrl), Some(200));
      && r.Reset?
      && (Contains(currentUrl, OwnMark(userId)) ==> forall i :: 0 <= i < |r.avatars| ==> r.avatars[i].url != currentUrl)
      && (!Contains(currentUrl, OwnMark(userId)) ==> forall i :: 0 <= i < |r.avatars| ==> !r.avatars[i].selected)
  {
  }

  /** A reset keeps the list's order and repeated entries: resetting two
      consecutive stretches of the list gives the two results one after
      the other. */
  lemma ResetKeepsOrder(a: seq<Avatar>, b: seq<Avatar>, userId: string, currentUrl: string)
    ensures ResetAvatar(a + b, userId, Some(currentUrl), Some(200)).avatars
         == ResetAvatar(a, userId, Some(currentUrl), Some(200)).avatars
            + ResetAvatar(b, userId, Some(currentUrl), Some(200)).avatars
  {
    if Contains(currentUrl, OwnMark(userId)) {
      Seqs.FilterConcat(a, b, OtherUrl(currentUrl));
    } else {
      var off := (avatar: Avatar) => avatar.(selected := false);
      assert Seqs.Map(a + b, off) == Seqs.Map(a, off) + Seqs.Map(b, off);
    }
  }
}

=== FILE: book_properties.dfy ===
/** A book's properties page (components/Project/BookList/BookProperties/BookProperties.js):
    the editable properties of the book's scripture or story section, and
    the link to the translation together with the level of checks done on
    it. */
module BookProperties {
  import opened Wrappers
  import opened Json

  /** A book of the project as the page reads it. */
  datatype BookRow = BookRow(id: int, code: string, properties: Option<Record>, levelChecks: Option<Record>)

  /** `books?.find((el) => el.code === bookCode)`: the first book with the
      code. */
  function FindBook(books: Option<seq<BookRow>>, code: string): (r: Option<BookRow>)
    ensures r.None? <==> books.None? || forall i :: 0 <= i < |books.value| ==> books.value[i].code != code
    ensures r.Some? ==> exists i :: (&& 0 <= i < |books.value| && books.value[i] == r.value
                                    && forall j :: 0 <= j < i ==> books.value[j].code != code)
    decreases if books.Some? then |books.value| else 0
  {
    if books.None? || |books.value| == 0 then None
    else if books.value[0].code == code then Some(books.value[0])
    else
      var rest := FindBook(Some(books.value[1..]), code);
      if rest.None? then None
      else
        ghost var k :| (&& 0 <= k < |books.value[1..]| && books.value[1..][k] == rest.value
                        && forall j :: 0 <= j < k ==> books.value[1..][j].code != code);
        assert books.value[k + 1] == rest.value;
        assert forall j :: 0 <= j < k + 1 ==> books.value[j].code != code;
        rest
  }

  /** `type !== 'obs'`: every type but `obs` edits the scripture section. */
  function SectionKey(bookType: string): (key: string)
    ensures key == "obs" || key == "scripture"
    ensures key == "obs" <==> bookType == "obs"
  {
    if bookType != "obs" then "scripture" else "obs"
  }

  /** `{ ...section }`: the fields of an object; spreading `null` or
      `undefined` gives none. */
  function SectionFields(properties: Record, key: string): (fields: Record)
    ensures key in properties && properties[key].Obj? ==> fields == properties[key].fields
    ensures !(key in properties && properties[key].Obj?) ==> fields == map[]
  {
    if key in properties && properties[key].Obj? then properties[key].fields else map[]
  }

  /** `updateProperty(text, property)`: the property of the type's section
      becomes `text`; the section's other properties and every other section
      stay. */
  function UpdateProperty(properties: Record, bookType: string, property: string, text: string)
    : (r: Record)
    ensures var key := SectionKey(bookType);
      && r.Keys == properties.Keys + {key}
      && (forall k :: k in properties && k != key ==> r[k] == properties[k])
      && r[key].Obj?
      && r[key].fields.Keys == SectionFields(properties, key).Keys + {property}
      && r[key].fields[property] == Str(text)
      && forall p :: p in SectionFields(properties, key) && p != property ==>
        r[key].fields[p] == SectionFields(properties, key)[p]
  {
    var key := if bookType != "obs" then "scripture" else "obs";
    properties[key := Obj(SectionFields(properties, key)[property := Str(text)])]
  }

  /** The property reads back as typed, and editing a property of one
      section never touches the other. */
  lemma UpdatePropertyReadBack(properties: Record, bookType: string, property: string, text: string)
    ensures var r := UpdateProperty(properties, bookType, property, text);
      && SectionFields(r, SectionKey(bookType))[property] == Str(text)
      && var other := if bookType == "obs" then "scripture" else "obs";
         SectionFields(r, other) == SectionFields(properties, other)
  {
  }

  /** Edits of two different properties can be made in either order. */
  lemma UpdatesCommute(properties: Record, bookType: string, p: string, q: string, a: string, b: string)
    requires p != q
    ensures UpdateProperty(UpdateProperty(properties, bookType, p, a), bookType, q, b)
         == UpdateProperty(UpdateProperty(properties, bookType, q, b), bookType, p, a)
  {
    var key := SectionKey(bookType);
    var fields := SectionFields(properties, key);
    assert fields[p := Str(a)][q := Str(b)] == fields[q := Str(b)][p := Str(a)];
  }

  /** What the properties tab lists: nothing while the properties are not
      loaded, the entries of the type's section, or a `TypeError` from
      `Object.entries` when the section is missing or `null`. */
  datatype Listing = NotLoaded | Entries(entries: Record) | EntriesThrow

  function RenderedProperties(properties: Option<Record>, bookType: string): (r: Listing)
    ensures r == NotLoaded <==> properties.None?
    ensures r == EntriesThrow <==>
      (&& properties.Some?
       && (SectionKey(bookType) !in properties.value || properties.value[SectionKey(bookType)] == Null))
    ensures r.Entries? ==> r.entries == SectionFields(properties.value, SectionKey(bookType))
  {
    if properties.None? then NotLoaded
    else
      var section := Field(properties.value, if bookType != "obs" then "scripture" else "obs");
      if section.None? || section.value == Null then EntriesThrow
      else if section.value.Obj? then Entries(section.value.fields)
      else Entries(map[])
  }

  /** Each listed entry of a loaded section is editable in place: after
      `updateProperty` the listing shows the new text for that property. */
  lemma EditShowsInListing(properties: Record, bookType: string, property: string, text: string)
    ensures var listing := RenderedProperties(Some(UpdateProperty(properties, bookType, property, text)), bookType);
      listing.Entries? && listing.entries[property] == Str(text)
  {
  }

  /** `defaultIndex={query?.levels ? 1 : 0}`: the level-check tab opens
      first exactly when the address asks for the levels. */
  function DefaultTab(levels: Option<Value>): (tab: nat)
    ensures tab <= 1
    ensures tab == 1 <==> Present(levels)
  {
    if Present(levels) then 1 else 0
  }

  // ---------------------------------------------------------------------
  // Level checks

  /** The effect on `book`: a book with level checks replaces the link;
      without them the link stays as it was. The same rule loads
      `properties`. */
  function LoadLink(current: Option<Record>, book: Option<BookRow>): (r: Option<Record>)
    ensures book.Some? && book.value.levelChecks.Some? ==> r == book.value.levelChecks
    ensures !(book.Some? && book.value.levelChecks.Some?) ==> r == current
  {
    if book.Some? && book.value.levelChecks.Some? then book.value.levelChecks else current
  }

  /** The checkbox of level `k` is checked. */
  predicate Checked(link: Option<Record>, k: int)
  {
    link.Some? && Field(link.value, "level") == Some(Num(k))
  }

  /** Clicking the checkbox of level `k` (1, 2 or 3): the link's level
      becomes `k`, the rest of the link stays. */
  function ClickLevel(link: Option<Record>, k: int): (r: Record)
    requires 1 <= k <= 3
    ensures Checked(Some(r), k)
    ensures r.Keys == link.GetOr(map[]).Keys + {"level"}
    ensures forall j :: j != k ==> !Checked(Some(r), j)
    ensures forall f :: f != "level" && link.Some? && f in link.value ==> f in r && r[f] == link.value[f]
  {
    link.GetOr(map[])["level" := Num(k)]
  }

  /** Typing into the address field: the link's `url` becomes the text. */
  function TypeUrl(link: Option<Record>, url: string): (r: Record)
    ensures Field(r, "url") == Some(Str(url))
    ensures r.Keys == link.GetOr(map[]).Keys + {"url"}
    ensures forall f :: f != "url" && link.Some? && f in link.value ==> f in r && r[f] == link.value[f]
  {
    link.GetOr(map[])["url" := Str(url)]
  }

  /** At most one level is checked after any click, and typing the address
      keeps the checked level. */
  lemma OneLevelChecked(link: Option<Record>, k: nat, url: string)
    requires 1 <= k <= 3
    ensures forall j :: Checked(Some(ClickLevel(link, k)), j) <==> j == k
    ensures Checked(Some(TypeUrl(Some(ClickLevel(link, k)), url)), k)
  {
  }

  /** The request that saves the level checks. */
  datatype LevelChecksRequest = LevelChecksRequest(path: string, levelChecks: Record, projectId: Option<int>, userId: Option<string>)

  /** `handleSaveLevelChecks`: nothing is sent until there is a link;
      otherwise the whole link is saved for the book of the address. */
  function SaveLevelChecks(link: Option<Record>, code: string, bookParam: string,
                           projectId: Option<int>, userId: Option<string>)
    : (r: Option<LevelChecksRequest>)
    ensures r.None? <==> link.None?
    ensures r.Some? ==> r.value.levelChecks == link.value && r.value.projectId == projectId && r.value.userId == userId
    ensures r.Some? ==> r.value.path == "/api/projects/" + code + "/books/" + bookParam + "/level_checks"
  {
    if link.None? then None
    else Some(LevelChecksRequest("/api/projects/" + code + "/books/" + bookParam + "/level_checks",
                                 link.value, projectId, userId))
  }

  /** A saved click saves the chosen level. */
  lemma SavedClickCarriesLevel(link: Option<Record>, k: int, code: string, bookParam: string)
    requires 1 <= k <= 3
    ensures var r := SaveLevelChecks(Some(ClickLevel(link, k)), code, bookParam, None, None);
      r.Some? && Field(r.value.levelChecks, "level") == Some(Num(k))
  {
  }
}

=== FILE: book_reader.dfy ===
/** Reading a checked book (components/Project/BookReader.js): where the
    book's text is fetched from, the testament lists of checked books in
    canonical order, and moving between chapters. */
module BookReader {
  import opened Wrappers
  import opened Strings
  import Seqs
  import opened Door43

  // ---------------------------------------------------------------------
  // The text's source

  /** The resource `useGetResource` is asked for. */
  datatype Resource = Resource(owner: Option<string>, repo: Option<string>, commit: Option<string>, bookPath: string)

  /** `parts[i]`, `None` past the end (`undefined`). */
  function At(parts: seq<string>, i: nat): (r: Option<string>)
    ensures r.Some? <==> i < |parts|
    ensures r.Some? ==> r.value == parts[i]
  {
    if i < |parts| then Some(parts[i]) else None
  }

  /** The resource of the book: owner, repository and commit are the
      slash-separated pieces 3, 4 and 6 of the checks address, and the
      file is `//` plus the book's USFM file name (`//undefined` when the
      book has none). No resource without a checks address. */
  function ChecksResource(checksUrl: Option<string>, bookId: string, usfmFileNames: map<string, string>)
    : (r: Option<Resource>)
    ensures r.None? <==> checksUrl.None?
    ensures r.Some? ==> var parts := Split(checksUrl.value, '/');
      && r.value.owner == At(parts, 3) && r.value.repo == At(parts, 4) && r.value.commit == At(parts, 6)
    ensures r.Some? && bookId in usfmFileNames ==> r.value.bookPath == "//" + usfmFileNames[bookId]
    ensures r.Some? && bookId !in usfmFileNames ==> r.value.bookPath == "//undefined"
  {
    if checksUrl.None? then None
    else
      var parts := Split(checksUrl.value, '/');
      var fileName := if bookId in usfmFileNames then usfmFileNames[bookId] else "undefined";
      Some(Resource(At(parts, 3), At(parts, 4), At(parts, 6), "//" + fileName))
  }

  /** A checks address of the form `<scheme>//<host>/<owner>/<repo>/<kind>/<commit>`
      (a commit page, for instance) gives back its owner, repository and
      commit. */
  lemma ChecksResourceRoundTrip(parts: seq<string>, bookId: string, usfmFileNames: map<string, string>)
    requires |parts| == 7 && parts[1] == ""
    requires forall i :: 0 <= i < |parts| ==> '/' !in parts[i]
    ensures var r := ChecksResource(Some(Join(parts, '/')), bookId, usfmFileNames);
      && r.Some? && r.value.owner == Some(parts[3]) && r.value.repo == Some(parts[4])
      && r.value.commit == Some(parts[6])
  {
    SplitJoin(parts, '/');
  }

  // ---------------------------------------------------------------------
  // Testament lists

  /** A book of the project: its code, whether it has level checks, its
      number of chapters, and the number of fields of its record. */
  datatype Book = Book(code: string, levelChecks: bool, chapterCount: nat, fieldCount: nat)

  /** `Object.keys(list).indexOf(code)`: the canonical position, -1 when
      the code is not in the list. */
  function IndexIn(canon: seq<string>, code: string): (k: int)
    ensures -1 <= k < |canon|
    ensures k == -1 <==> code !in canon
    ensures k >= 0 ==> canon[k] == code && code !in canon[..k]
    decreases |canon|
  {
    if |canon| == 0 then -1
    else if canon[0] == code then 0
    else
      var k := IndexIn(canon[1..], code);
      if k == -1 then -1
      else
        assert canon[..k + 1] == [canon[0]] + canon[1..][..k];
        k + 1
  }

  /** The books of the testament that have been checked. */
  predicate InTestament(canon: seq<string>, book: Book)
  {
    book.code in canon && book.levelChecks
  }

  /** The list is in canonical order. */
  predicate CanonOrder(canon: seq<string>, books: seq<Book>)
  {
    forall i, j :: 0 <= i < j < |books| ==> IndexIn(canon, books[i].code) <= IndexIn(canon, books[j].code)
  }

  /** Places `book` after every book that does not come later in the
      canon, as a stable sort does. */
  function Insert(canon: seq<string>, sorted: seq<Book>, book: Book): (r: seq<Book>)
    requires CanonOrder(canon, sorted)
    ensures CanonOrder(canon, r)
    ensures multiset(r) == multiset(sorted) + multiset{book}
    decreases |sorted|
  {
    if |sorted| == 0 then [book]
    else
      var last := sorted[|sorted| - 1];
      var front := sorted[..|sorted| - 1];
      assert sorted == front + [last];
      var bound := IndexIn(canon, last.code);
      assert forall i :: 0 <= i < |front| ==> IndexIn(canon, front[i].code) <= bound;
      if bound <= IndexIn(canon, book.code) then
        AppendKeepsOrder(canon, sorted, book);
        sorted + [book]
      else
        var inserted := Insert(canon, front, book);
        BoundedByParts(canon, inserted, front, book, bound);
        AppendKeepsOrder(canon, inserted, last);
        inserted + [last]
  }

  /** Appending a book that comes no earlier than any other keeps the
      order. */
  lemma AppendKeepsOrder(canon: seq<string>, books: seq<Book>, book: Book)
    requires CanonOrder(canon, books)
    requires forall i :: 0 <= i < |books| ==> IndexIn(canon, books[i].code) <= IndexIn(canon, book.code)
    ensures CanonOrder(canon, books + [book])
  {
  }

  /** A list made of the books of `front` and `book` respects any bound
      they all respect. */
  lemma BoundedByParts(canon: seq<string>, books: seq<Book>, front: seq<Book>, book: Book, bound: int)
    requires multiset(books) == multiset(front) + multiset{book}
    requires forall i :: 0 <= i < |front| ==> IndexIn(canon, front[i].code) <= bound
    requires IndexIn(canon, book.code) <= bound
    ensures forall i :: 0 <= i < |books| ==> IndexIn(canon, books[i].code) <= bound
  {
    forall i | 0 <= i < |books|
      ensures IndexIn(canon, books[i].code) <= bound
    {
      assert books[i] in multiset(books);
      if books[i] != book {
        assert books[i] in multiset(front);
      }
    }
  }

  /** `.sort((a, b) => index(a) - index(b))`, as an insertion sort. */
  function SortByCanon(canon: seq<string>, books: seq<Book>): (r: seq<Book>)
    ensures CanonOrder(canon, r)
    ensures multiset(r) == multiset(books)
    decreases |books|
  {
    if |books| == 0 then []
    else
      var front := books[..|books| - 1];
      assert books == front + [books[|books| - 1]];
      Insert(canon, SortByCanon(canon, front), books[|books| - 1])
  }

  /** The checked books of the testament, in project order. */
  function CheckedBooks(canon: seq<string>, books: seq<Book>): (r: seq<Book>)
    ensures forall book :: InTestament(canon, book) ==> multiset(r)[book] == multiset(books)[book]
    ensures forall book :: !InTestament(canon, book) ==> multiset(r)[book] == 0
  {
    FilterCounts(books, (book: Book) => InTestament(canon, book));
    Seqs.Filter(books, (book: Book) => InTestament(canon, book))
  }

  /** A testament's list: exactly the checked books of the testament, each
      as often as the project has it, in canonical order. */
  function TestamentBooks(canon: seq<string>, books: Option<seq<Book>>): (r: seq<Book>)
    ensures books.None? ==> r == []
    ensures CanonOrder(canon, r)
    ensures forall i :: 0 <= i < |r| ==> InTestament(canon, r[i])
    ensures books.Some? ==> forall book :: InTestament(canon, book) ==>
      multiset(r)[book] == multiset(books.value)[book]
  {
    if books.None? then []
    else
      var kept := CheckedBooks(canon, books.value);
      var r := SortByCanon(canon, kept);
      assert forall i :: 0 <= i < |r| ==> InTestament(canon, r[i]) by {
        forall i | 0 <= i < |r|
          ensures InTestament(canon, r[i])
        {
          assert multiset(r)[r[i]] > 0;
        }
      }
      r
  }

  /** Filtering keeps every copy of a kept element and none of a dropped
      one. */
  lemma {:induction false} FilterCounts<T>(s: seq<T>, p: T -> bool)
    ensures forall x :: p(x) ==> multiset(Seqs.Filter(s, p))[x] == multiset(s)[x]
    ensures forall x :: !p(x) ==> multiset(Seqs.Filter(s, p))[x] == 0
    decreases |s|
  {
    if |s| > 0 {
      FilterCounts(s[1..], p);
      assert s == [s[0]] + s[1..];
    }
  }

  // ---------------------------------------------------------------------
  // Chapters

  /** The chapter grid: buttons `1` to `n`. */
  function ChapterGrid(n: nat): (grid: seq<nat>)
    ensures |grid| == n
    ensures forall i :: 0 <= i < n ==> grid[i] == i + 1
  {
    seq(n, i => i + 1)
  }

  /** Every button of the grid opens a chapter of the book, and every
      chapter has its button. */
  lemma ChapterGridExact(n: nat, chapter: nat)
    ensures chapter in ChapterGrid(n) <==> 1 <= chapter <= n
  {
    if 1 <= chapter <= n {
      assert ChapterGrid(n)[chapter - 1] == chapter;
    }
  }

  /** The previous-chapter button: hidden when it would lead to chapter 0
      (`!prevChapter`), and a click then does nothing. */
  predicate PrevShown(chapter: int)
  {
    chapter - 1 != 0
  }

  function ClickPrev(chapter: int): (r: int)
    ensures PrevShown(chapter) ==> r == chapter - 1
    ensures !PrevShown(chapter) ==> r == chapter
    ensures chapter >= 1 ==> r >= 1
  {
    if chapter - 1 != 0 then chapter - 1 else chapter
  }

  /** The next-chapter button is hidden when the next chapter is past the
      book's last. */
  predicate NextShown(chapter: int, book: Book)
  {
    chapter + 1 <= book.chapterCount
  }

  /** The click as written: it compares the next chapter with the number
      of fields of the book's record instead of its chapter count. */
  function ClickNextAsWritten(chapter: int, book: Book): int
  {
    if chapter + 1 != book.fieldCount then chapter + 1 else chapter
  }

  /** On the last chapter of a three-chapter book whose record has six
      fields, the hidden button still moves to chapter 4. */
  lemma ClickNextPassesLastChapter()
    ensures var book := Book("1jn", true, 3, 6);
      && !NextShown(3, book)
      && ClickNextAsWritten(3, book) == 4 > book.chapterCount
  {
  }

  /** The click as intended: it moves on only when the button is shown. */
  function ClickNext(chapter: int, book: Book): (r: int)
    ensures NextShown(chapter, book) ==> r == chapter + 1
    ensures !NextShown(chapter, book) ==> r == chapter
  {
    if chapter + 1 <= book.chapterCount then chapter + 1 else chapter
  }

  /** Clicking either button from a chapter of the book stays in the
      book. */
  lemma NavigationStaysInBook(chapter: int, book: Book)
    requires 1 <= chapter <= book.chapterCount
    ensures 1 <= ClickNext(chapter, book) <= book.chapterCount
    ensures 1 <= ClickPrev(chapter) <= book.chapterCount
  {
  }
}

=== FILE: brief_block.dfy ===
/** The project's brief (components/ProjectEdit/Brief/BriefBlock.js): a
    collection of items, each with a heading, a list of question-and-answer
    pairs and a summary (`resume`); the brief can be switched on and off,
    and the collection saved. */
module BriefBlock {
  import opened Wrappers
  import opened Json
  import opened Strings

  /** `{ ...v }`: the fields of an object; spreading anything else is taken
      as giving none. */
  function Spread(v: Value): (fields: Record)
    ensures v.Obj? ==> fields == v.fields
    ensures !v.Obj? ==> fields == map[]
  {
    if v.Obj? then v.fields else map[]
  }

  // ---------------------------------------------------------------------
  // Loading

  /** The effect on `brief`: the collection is taken from the brief only
      while the local one is empty and the brief has one. */
  function LoadCollection(current: seq<Value>, brief: Option<Record>): (r: seq<Value>)
    ensures |current| > 0 ==> r == current
    ensures brief.None? ==> r == current
    ensures (&& |current| == 0 && brief.Some?
             && "data_collection" in brief.value && brief.value["data_collection"].Arr?) ==>
      r == brief.value["data_collection"].items
    ensures !(&& |current| == 0 && brief.Some?
              && "data_collection" in brief.value && brief.value["data_collection"].Arr?) ==>
      r == current
  {
    if |current| == 0 && brief.Some? && Present(Field(brief.value, "data_collection"))
       && brief.value["data_collection"].Arr?
    then brief.value["data_collection"].items
    else current
  }

  /** The effect re-runs whenever its inputs change; running it again with
      the same brief changes nothing, so local edits are never overwritten
      by the stored brief. */
  lemma LoadCollectionStable(current: seq<Value>, brief: Option<Record>, edited: seq<Value>)
    ensures LoadCollection(LoadCollection(current, brief), brief) == LoadCollection(current, brief)
    ensures |edited| > 0 ==> LoadCollection(edited, brief) == edited
  {
  }

  // ---------------------------------------------------------------------
  // Edits

  /** `updateBrief(text, index)`: item `index` gets `resume` set to the
      text and keeps its other fields; the other items stay. */
  function UpdateBrief(items: seq<Value>, index: nat, text: string): (r: seq<Value>)
    requires index < |items|
    ensures |r| == |items|
    ensures forall i :: 0 <= i < |items| && i != index ==> r[i] == items[i]
    ensures r[index].Obj? && Field(r[index].fields, "resume") == Some(Str(text))
    ensures r[index].fields.Keys == Spread(items[index]).Keys + {"resume"}
    ensures forall f :: f in Spread(items[index]) && f != "resume" ==>
      f in r[index].fields && r[index].fields[f] == Spread(items[index])[f]
  {
    items[index := Obj(Spread(items[index])["resume" := Str(text)])]
  }

  /** The question-and-answer pair `blockIndex` of item `index`. */
  predicate HasPair(items: seq<Value>, index: nat, blockIndex: nat)
  {
    && index < |items| && items[index].Obj?
    && "block" in items[index].fields && items[index].fields["block"].Arr?
    && blockIndex < |items[index].fields["block"].items|
  }

  function Pair(items: seq<Value>, index: nat, blockIndex: nat): Value
    requires HasPair(items, index, blockIndex)
  {
    items[index].fields["block"].items[blockIndex]
  }

  /** `updateObjQA(text, briefItem, blockIndex, objQA, index)` with the item
      and pair shown at those positions: the pair's `answer` becomes the
      text and its other fields stay; the item keeps its other fields and
      its other pairs; the other items stay. */
  function UpdateAnswer(items: seq<Value>, index: nat, blockIndex: nat, text: string): (r: seq<Value>)
    requires HasPair(items, index, blockIndex)
    ensures |r| == |items|
    ensures forall i :: 0 <= i < |items| && i != index ==> r[i] == items[i]
    ensures HasPair(r, index, blockIndex)
    ensures Pair(r, index, blockIndex).Obj?
    ensures Field(Pair(r, index, blockIndex).fields, "answer") == Some(Str(text))
    ensures Pair(r, index, blockIndex).fields.Keys == Spread(Pair(items, index, blockIndex)).Keys + {"answer"}
    ensures r[index].fields.Keys == items[index].fields.Keys
    ensures forall f :: f in Spread(Pair(items, index, blockIndex)) && f != "answer" ==>
      f in Pair(r, index, blockIndex).fields
      && Pair(r, index, blockIndex).fields[f] == Spread(Pair(items, index, blockIndex))[f]
    ensures var block := items[index].fields["block"].items;
      && |r[index].fields["block"].items| == |block|
      && forall j :: 0 <= j < |block| && j != blockIndex ==> r[index].fields["block"].items[j] == block[j]
    ensures forall f :: f in items[index].fields && f != "block" ==>
      f in r[index].fields && r[index].fields[f] == items[index].fields[f]
  {
    var item := items[index];
    var block := item.fields["block"].items;
    var pair := Obj(Spread(block[blockIndex])["answer" := Str(text)]);
    items[index := Obj(Spread(item)["block" := Arr(block[blockIndex := pair])])]
  }

  /** Answering a question leaves every summary as it was, and writing a
      summary leaves every answer as it was. */
  lemma EditsAreIndependent(items: seq<Value>, index: nat, blockIndex: nat, text: string, i: nat, j: nat)
    requires HasPair(items, index, blockIndex)
    requires i < |items| && items[i].Obj?
    ensures var r := UpdateAnswer(items, index, blockIndex, text);
      Field(r[i].fields, "resume") == Field(items[i].fields, "resume")
    ensures HasPair(items, i, j) ==>
      var r := UpdateBrief(items, index, text);
      HasPair(r, i, j) && Pair(r, i, j) == Pair(items, i, j)
  {
  }

  // ---------------------------------------------------------------------
  // Headings

  /** The leading run of digits of a string. */
  function LeadingDigits(s: string): (d: string)
    ensures |d| <= |s| && d == s[..|d|] && AllDigits(d)
    ensures |d| < |s| ==> !IsDigit(s[|d|])
    decreases |s|
  {
    if |s| > 0 && IsDigit(s[0]) then [s[0]] + LeadingDigits(s[1..]) else []
  }

  /** Digits followed by a non-digit are exactly the leading digits. */
  lemma {:induction false} LeadingDigitsOf(d: string, rest: string)
    requires AllDigits(d)
    requires |rest| > 0 && !IsDigit(rest[0])
    ensures LeadingDigits(d + rest) == d
    decreases |d|
  {
    if |d| > 0 {
      assert (d + rest)[1..] == d[1..] + rest;
      LeadingDigitsOf(d[1..], rest);
    } else {
      assert d + rest == rest;
    }
  }

  /** `${briefItem.id}. ${briefItem.title}`. */
  function Heading(id: nat, title: string): string
  {
    NatToString(id) + ". " + title
  }

  /** The heading can be read back: its leading digits are the item's
      number, then come `. ` and the title, whatever the title holds. */
  lemma HeadingParses(id: nat, title: string)
    ensures var h := Heading(id, title);
      var d := LeadingDigits(h);
      && DecimalValue(d) == id
      && |d| + 2 <= |h| && h[|d|..|d| + 2] == ". " && h[|d| + 2..] == title
  {
    var digits := NatToString(id);
    assert Heading(id, title) == digits + (". " + title);
    LeadingDigitsOf(digits, ". " + title);
    DecimalRoundTrip(id);
  }

  // ---------------------------------------------------------------------
  // Switching the brief on and off

  /** `handleSwitch`: with a brief, the request carries the negation of its
      `is_enable` (an unset flag counts as off); without one nothing is
      sent. */
  function HandleSwitch(brief: Option<Record>): (request: Option<bool>)
    ensures request.None? <==> brief.None?
    ensures request.Some? ==> (request.value <==> !Present(Field(brief.value, "is_enable")))
  {
    if brief.None? then None else Some(!Present(Field(brief.value, "is_enable")))
  }

  /** Once the server stores the requested flag, the next click asks for
      the opposite: the switch alternates. */
  lemma SwitchAlternates(brief: Record)
    ensures var first := HandleSwitch(Some(brief)).value;
      var stored := brief["is_enable" := Bool(first)];
      HandleSwitch(Some(stored)) == Some(!first)
  {
  }

  // ---------------------------------------------------------------------
  // Saving

  /** The request `saveToDatabase` sends. */
  datatype BriefSave = BriefSave(path: string, dataCollection: seq<Value>)

  function SaveRequest(projectId: string, items: seq<Value>): (request: BriefSave)
    ensures request.dataCollection == items
    ensures request.path == "/api/briefs/" + projectId
  {
    BriefSave("/api/briefs/" + projectId, items)
  }

  /** The toast of the save button. */
  datatype SaveToast = SaveSuccess | SaveFailed

  /** As written: `saveToDatabase` returns `{ error }` before the request
      settles, so the flag the button reads is always the initial `false`,
      whatever the request's fate. */
  function SaveToastAsWritten(saved: bool): SaveToast
  {
    var error := false;
    if !error then SaveSuccess else SaveFailed
  }

  /** A save that fails still reports success. */
  lemma FailedSaveReportsSuccess()
    ensures SaveToastAsWritten(false) == SaveSuccess
  {
  }

  /** As intended: the toast follows the request's outcome. */
  function SaveToastAfterRequest(saved: bool): (toast: SaveToast)
    ensures toast == SaveSuccess <==> saved
  {
    if saved then SaveSuccess else SaveFailed
  }

  /** The two agree on every save that succeeds and differ on every one
      that fails. */
  lemma SaveToastsAgreeOnSuccess(saved: bool)
    ensures SaveToastAfterRequest(saved) == SaveToastAsWritten(saved) <==> saved
  {
  }
}

=== FILE: command_editor.dfy ===
/** The team's editor of a chapter (components/Panel/Helpers/CommandEditor.js):
    every verse of the chapter is shown; who may change a verse depends on
    whether only moderators may edit. */
module CommandEditor {
  import opened Wrappers
  import Seqs

  /** A verse as the query returns it (`verse_id:id`, `verse:text`, `num`). */
  datatype FetchedVerse = FetchedVerse(verseId: int, text: string, num: int)

  /** A row of the editor. */
  datatype VerseRow = VerseRow(verseId: int, verse: string, num: int, editable: bool)

  /** The request sent to `/api/save_verse`. */
  datatype SaveVerse = SaveVerse(id: int, text: string)

  /** The rows, in the order of the query (`order('num', 'ascending')`);
      a row is editable exactly when its verse is one of the verses of the
      reference. */
  function BuildRows(fetched: seq<FetchedVerse>, referenceVerseIds: seq<int>): (rows: seq<VerseRow>)
    ensures |rows| == |fetched|
    ensures forall i :: 0 <= i < |rows| ==>
      && rows[i].verseId == fetched[i].verseId && rows[i].verse == fetched[i].text && rows[i].num == fetched[i].num
      && (rows[i].editable <==> fetched[i].verseId in referenceVerseIds)
  {
    Seqs.Map(fetched, (v: FetchedVerse) => VerseRow(v.verseId, v.text, v.num, v.verseId in referenceVerseIds))
  }

  predicate AscendingNum(fetched: seq<FetchedVerse>)
  {
    forall i, j :: 0 <= i < j < |fetched| ==> fetched[i].num <= fetched[j].num
  }

  /** Rows fetched in ascending verse number are shown in that order. */
  lemma RowsKeepQueryOrder(fetched: seq<FetchedVerse>, referenceVerseIds: seq<int>)
    requires AscendingNum(fetched)
    ensures var rows := BuildRows(fetched, referenceVerseIds);
      forall i, j :: 0 <= i < j < |rows| ==> rows[i].num <= rows[j].num
  {
  }

  /** The levels that may not edit when only moderators may. */
  predicate PlainMember(level: string)
  {
    level == "user" || level == "translator"
  }

  /** Editing a row is permitted: with `moderatorOnly`, for any level but
      `user` and `translator`; otherwise for the rows of the reference. */
  predicate MayEdit(moderatorOnly: bool, level: string, row: VerseRow)
  {
    if moderatorOnly then !PlainMember(level) else row.editable
  }

  /** The textarea's `disabled` (and the number's plain font). */
  function Disabled(moderatorOnly: bool, level: string, row: VerseRow): bool
  {
    if moderatorOnly then level in ["user", "translator"] else !row.editable
  }

  /** `updateVerse`: an edit that is not permitted changes nothing and sends
      nothing; a permitted one changes the text of that row only and saves
      it. */
  function UpdateVerse(rows: seq<VerseRow>, id: nat, text: string, moderatorOnly: bool, level: string)
    : (r: (seq<VerseRow>, Option<SaveVerse>))
    requires id < |rows|
    ensures !MayEdit(moderatorOnly, level, rows[id]) ==> r == (rows, None)
    ensures MayEdit(moderatorOnly, level, rows[id]) ==>
      && |r.0| == |rows| && r.0[id] == rows[id].(verse := text)
      && (forall i :: 0 <= i < |rows| && i != id ==> r.0[i] == rows[i])
      && r.1 == Some(SaveVerse(rows[id].verseId, text))
  {
    var permitted := if moderatorOnly then !(level in ["user", "translator"]) else rows[id].editable;
    if !permitted then (rows, None)
    else (rows[id := rows[id].(verse := text)], Some(SaveVerse(rows[id].verseId, text)))
  }

  /** The textarea is disabled exactly when typing into it would change
      nothing. */
  lemma DisabledMeansNoEdit(rows: seq<VerseRow>, id: nat, text: string, moderatorOnly: bool, level: string)
    requires id < |rows|
    ensures Disabled(moderatorOnly, level, rows[id]) <==> UpdateVerse(rows, id, text, moderatorOnly, level).1.None?
  {
  }

  /** `updateVerseObject`: a change pushed by the database replaces the
      text of the rows with that verse id and nothing else. */
  function UpdateVerseObject(rows: seq<VerseRow>, id: int, text: string): (r: seq<VerseRow>)
    ensures |r| == |rows|
    ensures forall i :: 0 <= i < |rows| ==>
      r[i] == if rows[i].verseId == id then rows[i].(verse := text) else rows[i]
  {
    Seqs.Map(rows, (row: VerseRow) => if row.verseId == id then row.(verse := text) else row)
  }

  /** Applying a pushed change twice is the same as once. */
  lemma UpdateVerseObjectIdempotent(rows: seq<VerseRow>, id: int, text: string)
    ensures UpdateVerseObject(UpdateVerseObject(rows, id, text), id, text) == UpdateVerseObject(rows, id, text)
  {
    var once := UpdateVerseObject(rows, id, text);
    var twice := UpdateVerseObject(once, id, text);
    assert forall i :: 0 <= i < |rows| ==> twice[i] == once[i];
  }
}

=== FILE: door43.dfy ===
/** What the TSV handlers share (pages/api/git/twl.js and
    pages/api/git/obs-tn.js): the address of a book's TSV on the
    git.door43.org server, the reading of a `chapter:verse` reference and
    the test on the `verses[]` query. */
module Door43 {
  import opened Wrappers
  import opened Strings

  /** `const [chapter, verse] = reference.split(':')`, as the TSV handlers
      read a row's reference: the verse is `undefined` when there is no
      colon. */
  function ChapterOf(reference: string): string
  {
    Split(reference, ':')[0]
  }

  function VerseOf(reference: string): (v: Option<string>)
    ensures v.None? <==> ':' !in reference
  {
    var parts := Split(reference, ':');
    SplitFindsSep(reference, ':');
    if |parts| >= 2 then Some(parts[1]) else None
  }

  /** The verses of the query, `req.query['verses[]'] || req.query.verses`.
      A parameter given more than once arrives as an array; given once, it
      arrives as a plain string. */
  datatype VerseQuery = VerseList(items: seq<string>) | VerseText(text: string)

  /** A query value is truthy: every array is, and every non-empty string. */
  predicate QueryTruthy(v: Option<VerseQuery>)
  {
    v.Some? && (v.value.VerseList? || |v.value.text| > 0)
  }

  /** `req.query['verses[]'] || req.query.verses`. */
  function ReadVerses(bracketed: Option<VerseQuery>, plain: Option<VerseQuery>): (verses: Option<VerseQuery>)
    ensures QueryTruthy(bracketed) ==> verses == bracketed
    ensures !QueryTruthy(bracketed) ==> verses == plain
  {
    if bracketed.Some? && (bracketed.value.VerseList? || |bracketed.value.text| > 0) then bracketed else plain
  }

  /** `verses && verses.length > 0`: a non-empty array, or a non-empty
      string (whose length counts characters). */
  predicate VersesGiven(verses: Option<VerseQuery>)
  {
    verses.Some? &&
    match verses.value
    case VerseList(items) => |items| > 0
    case VerseText(text) => |text| > 0
  }

  /** `verses.includes(verse)`: membership for an array; for a string, a
      substring test, where an `undefined` verse is searched for as the
      text `undefined`. */
  predicate VerseIncluded(verses: VerseQuery, verse: Option<string>)
  {
    match verses
    case VerseList(items) => verse.Some? && verse.value in items
    case VerseText(text) => Contains(text, verse.GetOr("undefined"))
  }

  /** A single verse asked for as `verses[]=12` arrives as the string
      `12`, so it also takes in verses 1 and 2, while the array `['12']`
      takes in verse 12 only. */
  lemma SingleVerseTakesSubstrings()
    ensures VerseIncluded(VerseText("12"), Some("12"))
    ensures VerseIncluded(VerseText("12"), Some("1")) && VerseIncluded(VerseText("12"), Some("2"))
    ensures !VerseIncluded(VerseText("12"), Some("21"))
    ensures VerseIncluded(VerseList(["12"]), Some("12"))
    ensures !VerseIncluded(VerseList(["12"]), Some("1")) && !VerseIncluded(VerseList(["12"]), Some("2"))
  {
    assert OccursAt("12", "12", 0);
    assert OccursAt("12", "1", 0);
    assert OccursAt("12", "2", 1);
    assert !OccursAt("12", "21", 0);
  }

  /** Any verse of a single-verse string query is taken in, and so is
      every verse written inside it. */
  lemma SingleVerseIncludesParts(a: string, verse: string, b: string)
    ensures VerseIncluded(VerseText(a + verse + b), Some(verse))
  {
    ContainsInfix(a, verse, b);
  }

  /** The query both TSV handlers read, with the verses as read above. */
  datatype TsvQuery = TsvQuery(owner: string, repo: string, commit: string, bookPath: string,
                               chapter: string, verses: Option<VerseQuery>)

  /** `https://git.door43.org/<owner>/<repo>/raw/commit/<commit><bookPath minus its first character>`:
      a `bookPath` written `./file.tsv` becomes `/file.tsv`. */
  function TsvUrl(owner: string, repo: string, commit: string, bookPath: string): string
  {
    "https://git.door43.org/" + owner + "/" + repo + "/raw/commit/" + commit + SliceFrom(bookPath, 1)
  }

  /** The address reads back: its first eight slash-separated pieces are
      the scheme, the host, the owner, the repository and the commit, as
      long as none of those contains a slash and the book path is written
      relative (`./...`). */
  lemma TsvUrlPieces(owner: string, repo: string, commit: string, bookPath: string)
    requires '/' !in owner && '/' !in repo && '/' !in commit
    requires |bookPath| >= 2 && bookPath[1] == '/'
    ensures var pieces := Split(TsvUrl(owner, repo, commit, bookPath), '/');
      |pieces| >= 8 && pieces[..8] == ["https:", "", "git.door43.org", owner, repo, "raw", "commit", commit]
  {
    var rest := bookPath[2..];
    var prefix := "https:" + "/" + "" + "/" + "git.door43.org" + "/" + owner + "/" + repo
                  + "/" + "raw" + "/" + "commit" + "/" + commit;
    assert TsvUrl(owner, repo, commit, bookPath) == prefix + "/" + rest by {
      TsvUrlPrefix(owner, repo, commit);
      assert SliceFrom(bookPath, 1) == "/" + rest;
    }
    SplitConcat(prefix, '/', rest);
    SplitEight("https:", "", "git.door43.org", owner, repo, "raw", "commit", commit);
  }

  lemma TsvUrlPrefix(owner: string, repo: string, commit: string)
    ensures "https://git.door43.org/" + owner + "/" + repo + "/raw/commit/" + commit
         == "https:" + "/" + "" + "/" + "git.door43.org" + "/" + owner + "/" + repo
            + "/" + "raw" + "/" + "commit" + "/" + commit
  {
    assert "https://git.door43.org/" == "https:" + "/" + "" + "/" + "git.door43.org" + "/";
    assert "/raw/commit/" == "/" + "raw" + "/" + "commit" + "/";
  }

  /** Eight separator-free pieces joined by slashes split back into
      themselves. */
  lemma SplitEight(p0: string, p1: string, p2: string, p3: string, p4: string, p5: string, p6: string, p7: string)
    requires '/' !in p0 && '/' !in p1 && '/' !in p2 && '/' !in p3
    requires '/' !in p4 && '/' !in p5 && '/' !in p6 && '/' !in p7
    ensures Split(p0 + "/" + p1 + "/" + p2 + "/" + p3 + "/" + p4 + "/" + p5 + "/" + p6 + "/" + p7, '/')
         == [p0, p1, p2, p3, p4, p5, p6, p7]
  {
    var e1 := p0 + "/" + p1;
    var e2 := e1 + "/" + p2;
    var e3 := e2 + "/" + p3;
    var e4 := e3 + "/" + p4;
    var e5 := e4 + "/" + p5;
    var e6 := e5 + "/" + p6;
    SplitNoSep(p0, '/');
    SplitSnoc(p0, '/', p1);
    SplitSnoc(e1, '/', p2);
    SplitSnoc(e2, '/', p3);
    SplitSnoc(e3, '/', p4);
    SplitSnoc(e4, '/', p5);
    SplitSnoc(e5, '/', p6);
    SplitSnoc(e6, '/', p7);
  }
}

=== FILE: download.dfy ===
/** The download dialog of a project book or chapter
    (components/Project/Download.js): the format menu, the visible export
    settings, the chapter lookup, the file names, and the in-memory
    folder tree handed to the zip packer when an Open Bible Stories book
    is exported.

    The Markdown conversion of one story (`JsonToMd` applied to
    `createObjectToTransform`) is not part of this model; it is the
    parameter `toMarkdown`. */
module Download {
  import opened Wrappers
  import opened Strings
  import Seqs

  /** A node of the archive tree: a file with Markdown content or a folder. */
  datatype FileNode =
    | File(name: string, content: string)
    | Folder(name: string, children: seq<FileNode>)

  /** One row of the book's `chapters` table, fetched ordered by `num`;
      `text` is the chapter JSON, `None` when the row holds `null`. */
  datatype Story<J> = Story(num: nat, text: Option<J>)

  /** The `properties.obs` strings of a book; the empty string stands for a
      missing or empty (falsy) property. */
  datatype ObsProperties = ObsProperties(title: string, intro: string, back: string)

  /** An entry of the format menu. */
  datatype MenuItem = MenuItem(caption: string, value: string)

  // ---------------------------------------------------------------------
  // Archive tree

  function StoryFileName(num: nat): string
  {
    NatToString(num) + ".md"
  }

  /** A fetched story yields a file: the row exists, its text is not null,
      and its Markdown is non-empty. */
  predicate Kept<J>(story: Option<Story<J>>, toMarkdown: (J, nat) -> string)
  {
    story.Some? && story.value.text.Some?
    && toMarkdown(story.value.text.value, story.value.num) != ""
  }

  /** The file a kept story becomes. */
  function StoryFile<J>(story: Option<Story<J>>, toMarkdown: (J, nat) -> string): (f: FileNode)
    requires Kept(story, toMarkdown)
    ensures f.File? && f.content != ""
  {
    File(StoryFileName(story.value.num), toMarkdown(story.value.text.value, story.value.num))
  }

  /** The story files of the archive, in fetched order. */
  function StoryFiles<J>(stories: seq<Option<Story<J>>>, toMarkdown: (J, nat) -> string): (files: seq<FileNode>)
    ensures |files| <= |stories|
    ensures forall i :: 0 <= i < |files| ==> files[i].File? && files[i].content != ""
    decreases |stories|
  {
    if |stories| == 0 then []
    else
      (if Kept(stories[0], toMarkdown) then [StoryFile(stories[0], toMarkdown)] else [])
      + StoryFiles(stories[1..], toMarkdown)
  }

  /** Story files of consecutive runs of stories follow one another, so the
      archive keeps the fetched order. */
  lemma {:induction false} StoryFilesConcat<J>(a: seq<Option<Story<J>>>, b: seq<Option<Story<J>>>, toMarkdown: (J, nat) -> string)
    ensures StoryFiles(a + b, toMarkdown) == StoryFiles(a, toMarkdown) + StoryFiles(b, toMarkdown)
    decreases |a|
  {
    if |a| == 0 {
      assert a + b == b;
    } else {
      assert (a + b)[1..] == a[1..] + b;
      StoryFilesConcat(a[1..], b, toMarkdown);
    }
  }

  /** A missing story, a story whose text is null, and a story whose
      Markdown is empty produce no file at all. */
  lemma SkippedStoryAddsNothing<J>(stories: seq<Option<Story<J>>>, story: Option<Story<J>>, toMarkdown: (J, nat) -> string)
    requires story.None? || story.value.text.None? || toMarkdown(story.value.text.value, story.value.num) == ""
    ensures StoryFiles(stories + [story], toMarkdown) == StoryFiles(stories, toMarkdown)
  {
    StoryFilesConcat(stories, [story], toMarkdown);
    assert StoryFiles([story], toMarkdown) == [] by {
      assert [story][1..] == [];
    }
  }

  /** A file is in the archive exactly when some kept story produced it:
      its name is `<num>.md` and its content that story's Markdown. */
  lemma {:induction false} StoryFileMembership<J>(stories: seq<Option<Story<J>>>, toMarkdown: (J, nat) -> string, f: FileNode)
    ensures f in StoryFiles(stories, toMarkdown) <==>
      exists i :: 0 <= i < |stories| && Kept(stories[i], toMarkdown) && f == StoryFile(stories[i], toMarkdown)
    decreases |stories|
  {
    if |stories| > 0 {
      StoryFileMembership(stories[1..], toMarkdown, f);
      var head := if Kept(stories[0], toMarkdown) then [StoryFile(stories[0], toMarkdown)] else [];
      assert StoryFiles(stories, toMarkdown) == head + StoryFiles(stories[1..], toMarkdown);
      if exists i :: 0 <= i < |stories| && Kept(stories[i], toMarkdown) && f == StoryFile(stories[i], toMarkdown) {
        var i :| 0 <= i < |stories| && Kept(stories[i], toMarkdown) && f == StoryFile(stories[i], toMarkdown);
        if i > 0 {
          assert stories[1..][i - 1] == stories[i];
        }
      }
      if f in StoryFiles(stories[1..], toMarkdown) {
        var i :| 0 <= i < |stories[1..]| && Kept(stories[1..][i], toMarkdown) && f == StoryFile(stories[1..][i], toMarkdown);
        assert stories[i + 1] == stories[1..][i];
      }
    }
  }

  /** The `back` folder: a single `intro.md`, present when `back` is set. */
  function BackFolder(props: ObsProperties): seq<FileNode>
  {
    if props.back != "" then [Folder("back", [File("intro.md", props.back)])] else []
  }

  /** The first `front` folder: a single `intro.md`, present when `intro` is set. */
  function FrontIntroFolder(props: ObsProperties): seq<FileNode>
  {
    if props.intro != "" then [Folder("front", [File("intro.md", props.intro)])] else []
  }

  /** The second `front` folder: a single `title.md`, present when `title` is set. */
  function FrontTitleFolder(props: ObsProperties): seq<FileNode>
  {
    if props.title != "" then [Folder("front", [File("title.md", props.title)])] else []
  }

  /** The number of folders called `name` among `nodes`. */
  function CountFolders(nodes: seq<FileNode>, name: string): nat
    decreases |nodes|
  {
    if |nodes| == 0 then 0
    else (if nodes[0].Folder? && nodes[0].name == name then 1 else 0) + CountFolders(nodes[1..], name)
  }

  lemma {:induction false} CountFoldersConcat(a: seq<FileNode>, b: seq<FileNode>, name: string)
    ensures CountFolders(a + b, name) == CountFolders(a, name) + CountFolders(b, name)
    decreases |a|
  {
    if |a| == 0 {
      assert a + b == b;
    } else {
      assert (a + b)[1..] == a[1..] + b;
      CountFoldersConcat(a[1..], b, name);
    }
  }

  lemma {:induction false} NoFoldersAmongFiles(nodes: seq<FileNode>, name: string)
    requires forall i :: 0 <= i < |nodes| ==> nodes[i].File?
    ensures CountFolders(nodes, name) == 0
    decreases |nodes|
  {
    if |nodes| > 0 {
      NoFoldersAmongFiles(nodes[1..], name);
    }
  }

  /** The loop over the fetched stories: each kept story appends its file,
      in the fetched order. */
  method CollectStoryFiles<J>(stories: seq<Option<Story<J>>>, toMarkdown: (J, nat) -> string)
    returns (files: seq<FileNode>)
    ensures files == StoryFiles(stories, toMarkdown)
  {
    files := [];
    var i := 0;
    while i < |stories|
      invariant 0 <= i <= |stories|
      invariant files == StoryFiles(stories[..i], toMarkdown)
    {
      var story := stories[i];
      StoryFilesConcat(stories[..i], [story], toMarkdown);
      assert stories[..i + 1] == stories[..i] + [story];
      assert [story][1..] == [];
      if story.Some? && story.value.text.Some? {
        var text := toMarkdown(story.value.text.value, story.value.num);
        if text != "" {
          files := files + [File(StoryFileName(story.value.num), text)];
        }
      }
      i := i + 1;
    }
    assert stories[..i] == stories;
  }

  /** `downloadZip`: the root folder `content` holds the story files in
      fetched order, then the `back` folder, then the `front` folder of
      the introduction, then the `front` folder of the title. */
  method BuildArchive<J>(stories: seq<Option<Story<J>>>, props: ObsProperties, toMarkdown: (J, nat) -> string)
    returns (root: FileNode)
    ensures root.Folder? && root.name == "content"
    ensures root.children ==
      StoryFiles(stories, toMarkdown) + BackFolder(props) + FrontIntroFolder(props) + FrontTitleFolder(props)
    ensures CountFolders(root.children, "back") == (if props.back != "" then 1 else 0)
    ensures CountFolders(root.children, "front") ==
      (if props.intro != "" then 1 else 0) + (if props.title != "" then 1 else 0)
  {
    var files := CollectStoryFiles(stories, toMarkdown);
    var content := files;
    if props.back != "" {
      content := content + [Folder("back", [File("intro.md", props.back)])];
    }
    if props.intro != "" {
      content := content + [Folder("front", [File("intro.md", props.intro)])];
    }
    if props.title != "" {
      content := content + [Folder("front", [File("title.md", props.title)])];
    }
    root := Folder("content", content);
    assert content == files + (BackFolder(props) + FrontIntroFolder(props) + FrontTitleFolder(props));
    ArchiveFolderCounts(files, props);
  }

  /** Story files are never folders, so the `back` and `front` folders of
      an archive are exactly the metadata folders. */
  lemma ArchiveFolderCounts(files: seq<FileNode>, props: ObsProperties)
    requires forall i :: 0 <= i < |files| ==> files[i].File?
    ensures var all := files + (BackFolder(props) + FrontIntroFolder(props) + FrontTitleFolder(props));
      && CountFolders(all, "back") == (if props.back != "" then 1 else 0)
      && CountFolders(all, "front") == (if props.intro != "" then 1 else 0) + (if props.title != "" then 1 else 0)
  {
    var b, fi, ft := BackFolder(props), FrontIntroFolder(props), FrontTitleFolder(props);
    NoFoldersAmongFiles(files, "back");
    NoFoldersAmongFiles(files, "front");
    CountFoldersConcat(files, b + fi + ft, "back");
    CountFoldersConcat(files, b + fi + ft, "front");
    CountFoldersConcat(b, fi, "back");
    CountFoldersConcat(b + fi, ft, "back");
    CountFoldersConcat(b, fi, "front");
    CountFoldersConcat(b + fi, ft, "front");
  }

  /** A book with only a title gets exactly one `front` folder, holding
      `title.md`, and no `back` folder. */
  lemma TitleOnlyArchive<J>(stories: seq<Option<Story<J>>>, title: string, toMarkdown: (J, nat) -> string)
    requires title != ""
    ensures var props := ObsProperties(title, "", "");
      && BackFolder(props) + FrontIntroFolder(props) + FrontTitleFolder(props)
         == [Folder("front", [File("title.md", title)])]
  {
  }

  /** `${title || 'obs'}.zip`. */
  function ZipName(title: string): (name: string)
    ensures |name| >= 4 && name[|name| - 4..] == ".zip"
    ensures title != "" ==> name[..|name| - 4] == title
    ensures title == "" ==> name == "obs.zip"
  {
    (if title != "" then title else "obs") + ".zip"
  }

  // ---------------------------------------------------------------------
  // Chapter file name

  /** `s.padStart(width, c)`. */
  function PadStart(s: string, width: nat, c: char): (r: string)
    ensures |r| == if |s| >= width then |s| else width
    ensures r[|r| - |s|..] == s
    ensures forall i :: 0 <= i < |r| - |s| ==> r[i] == c
    decreases width - |s|
  {
    if |s| >= width then s else PadStart([c] + s, width, c)
  }

  /** `${String(chapter?.num).padStart(2, '0')}.md`: `num` is `None` when
      no chapter was found, and `String(undefined)` is `undefined`. */
  function MarkdownFileName(num: Option<nat>): (name: string)
    ensures |name| >= 5 && name[|name| - 3..] == ".md"
    ensures num.None? ==> name == "undefined.md"
    ensures num.Some? ==> IsDigit(name[0])
  {
    if num.None? then "undefined.md"
    else
      var digits := NatToString(num.value);
      var padded := PadStart(digits, 2, '0');
      assert IsDigit(padded[0]) by {
        if |digits| >= 2 {
          assert padded == digits;
        } else {
          assert padded[0] == '0';
        }
      }
      padded + ".md"
  }

  /** The file of a Markdown download: named after the chapter that
      `chapterNum` finds, and `undefined.md` exactly when it finds none. */
  function ChapterFileName<J>(chapters: seq<Chapter<J>>, chapterNum: string): (name: string)
    ensures name == "undefined.md" <==> forall i :: 0 <= i < |chapters| ==> NatToString(chapters[i].num) != chapterNum
  {
    var chapter := FindChapter(chapters, chapterNum);
    MarkdownFileName(if chapter.Some? then Some(chapter.value.num) else None)
  }

  /** The Markdown file name is the number, zero-padded to two digits, and
      reading its digits back gives the chapter number. */
  lemma MarkdownFileNameRoundTrip(num: nat)
    ensures var name := MarkdownFileName(Some(num));
      var digits := name[..|name| - 3];
      && |digits| == (if num < 10 then 2 else |NatToString(num)|)
      && AllDigits(digits) && DecimalValue(digits) == num
  {
    var s := NatToString(num);
    var name := MarkdownFileName(Some(num));
    var digits := name[..|name| - 3];
    assert digits == PadStart(s, 2, '0');
    DecimalRoundTrip(num);
    if num < 10 {
      assert digits == "0" + s;
      DecimalLeadingZero(s);
    } else {
      assert digits == s;
    }
  }

  // ---------------------------------------------------------------------
  // Format menu and settings

  /** The format menu: PDF first, then one format chosen by project type
      and by whether a whole book or one chapter is exported. */
  function DownloadOptions(projectType: string, isBook: bool): (r: seq<MenuItem>)
    ensures |r| == 2 && r[0] == MenuItem("PDF", "pdf")
    ensures r[1] == MenuItem("ZIP", "zip") <==> projectType == "obs" && isBook
    ensures r[1] == MenuItem("Markdown", "markdown") <==> projectType == "obs" && !isBook
    ensures r[1] == MenuItem("USFM", "usfm") <==> projectType != "obs" && isBook
    ensures r[1] == MenuItem("TXT", "txt") <==> projectType != "obs" && !isBook
  {
    var extra :=
      if projectType == "obs" then
        (if isBook then [MenuItem("ZIP", "zip")] else [MenuItem("Markdown", "markdown")])
      else
        (if isBook then [MenuItem("USFM", "usfm")] else [MenuItem("TXT", "txt")]);
    [MenuItem("PDF", "pdf")] + extra
  }

  /** The extra format tells the case apart: two menus offer the same
      extra format exactly when both are or both are not OBS and both
      export a book or both a chapter. */
  lemma DownloadOptionsDistinct(type1: string, isBook1: bool, type2: string, isBook2: bool)
    ensures DownloadOptions(type1, isBook1) == DownloadOptions(type2, isBook2) <==>
      (type1 == "obs") == (type2 == "obs") && isBook1 == isBook2
  {
  }

  /** The setting keys in declaration order: a chapter download has
      `withImages` and `withFront`, a book download adds `withIntro` and
      `withBack`. */
  function DefaultSettingKeys(isBook: bool): (keys: seq<string>)
    ensures |keys| == if isBook then 4 else 2
    ensures keys[..2] == ["withImages", "withFront"]
  {
    ["withImages", "withFront"] + (if isBook then ["withIntro", "withBack"] else [])
  }

  predicate SettingShown(key: string, projectType: string, downloadType: string)
  {
    (projectType == "obs" || key == "withFront") && downloadType != "usfm"
  }

  /** The setting checkboxes rendered for the chosen format. */
  function ShownSettings(keys: seq<string>, projectType: string, downloadType: string): (shown: seq<string>)
    ensures downloadType == "usfm" ==> shown == []
    ensures projectType != "obs" ==> forall i :: 0 <= i < |shown| ==> shown[i] == "withFront"
    ensures projectType == "obs" && downloadType != "usfm" ==> shown == keys
    ensures forall i :: 0 <= i < |keys| && SettingShown(keys[i], projectType, downloadType) ==> keys[i] in shown
    ensures forall i :: 0 <= i < |shown| ==> shown[i] in keys
  {
    var p := (k: string) => SettingShown(k, projectType, downloadType);
    if downloadType == "usfm" then
      Seqs.FilterNone(keys, p);
      Seqs.Filter(keys, p)
    else if projectType == "obs" then
      Seqs.FilterAll(keys, p);
      Seqs.Filter(keys, p)
    else
      Seqs.Filter(keys, p)
  }

  /** A scripture chapter download shows only `withFront`. */
  lemma ScriptureChapterShowsFront(downloadType: string)
    requires downloadType != "usfm"
    ensures ShownSettings(DefaultSettingKeys(false), "bible", downloadType) == ["withFront"]
  {
    var keys := DefaultSettingKeys(false);
    var p := (k: string) => SettingShown(k, "bible", downloadType);
    assert keys == ["withImages", "withFront"];
    assert keys[1..] == ["withFront"];
    assert keys[1..][1..] == [];
    assert Seqs.Filter(keys, p) == [] + Seqs.Filter(keys[1..], p);
  }

  /** For the default keys of any download: nothing for USFM, every key of
      an OBS project in its order, and only `withFront` for any other
      project. */
  lemma ShownDefaultSettings(isBook: bool, projectType: string, downloadType: string)
    ensures ShownSettings(DefaultSettingKeys(isBook), projectType, downloadType) ==
      if downloadType == "usfm" then []
      else if projectType == "obs" then DefaultSettingKeys(isBook)
      else ["withFront"]
  {
    if downloadType != "usfm" && projectType != "obs" {
      var p := (k: string) => SettingShown(k, projectType, downloadType);
      var head: seq<string> := ["withImages", "withFront"];
      var tail: seq<string> := if isBook then ["withIntro", "withBack"] else [];
      assert DefaultSettingKeys(isBook) == head + tail;
      Seqs.FilterConcat(head, tail, p);
      Seqs.FilterNone(tail, p);
      assert head[1..] == ["withFront"] && head[1..][1..] == [];
      assert Seqs.Filter(head, p) == [] + Seqs.Filter(head[1..], p);
      assert Seqs.Filter(head[1..], p) == ["withFront"] + Seqs.Filter(head[1..][1..], p);
    }
  }

  /** Clicking a setting checkbox negates it (a missing setting reads as
      `undefined`, whose negation is `true`) and keeps the others. */
  function ToggleSetting(settings: map<string, bool>, key: string): (r: map<string, bool>)
    ensures r.Keys == settings.Keys + {key}
    ensures r[key] == !(key in settings && settings[key])
    ensures forall k :: k in settings && k != key ==> r[k] == settings[k]
  {
    settings[key := !(key in settings && settings[key])]
  }

  // ---------------------------------------------------------------------
  // Chapter lookup

  /** A row of the `chapters` table. */
  datatype Chapter<J> = Chapter(num: nat, text: Option<J>)

  /** `chapterNum && chapters.find(c => c.num.toString() === chapterNum.toString())`:
      the first chapter whose number prints as `chapterNum`. */
  function FindChapter<J>(chapters: seq<Chapter<J>>, chapterNum: string): (r: Option<Chapter<J>>)
    ensures r.Some? ==> NatToString(r.value.num) == chapterNum
    ensures r.Some? ==> exists i :: (0 <= i < |chapters| && chapters[i] == r.value
      && forall j :: 0 <= j < i ==> NatToString(chapters[j].num) != chapterNum)
    ensures r.None? <==> forall i :: 0 <= i < |chapters| ==> NatToString(chapters[i].num) != chapterNum
    decreases |chapters|
  {
    if chapterNum == "" || |chapters| == 0 then None
    else if NatToString(chapters[0].num) == chapterNum then Some(chapters[0])
    else
      var r := FindChapter(chapters[1..], chapterNum);
      assert forall i :: 1 <= i < |chapters| ==> chapters[i] == chapters[1..][i - 1];
      r
  }
}

=== FILE: editor.dfy ===
/** A translator's own editor of a chapter (components/Panel/Helpers/Editor.js):
    the verses of the reference up to the pseudo-verse 200, edited one at a
    time, each edit saved as a one-entry map. */
module Editor {
  import opened Wrappers
  import opened Json
  import Seqs

  /** A verse of the reference (`verse_id`, `verse`, `num`). */
  datatype Verse = Verse(verseId: string, verse: string, num: int)

  /** `num < 201`: the verses and the pseudo-verses up to 200 (the
      additional verses of a story) are shown. */
  predicate Shown(v: Verse)
  {
    v.num < 201
  }

  /** `config.reference.verses?.filter(...)`: undefined without verses. */
  function KeptVerses(verses: Option<seq<Verse>>): (r: Option<seq<Verse>>)
    ensures r.None? <==> verses.None?
    ensures r.Some? ==> forall v :: v in r.value <==> v in verses.value && v.num < 201
  {
    if verses.None? then None else Some(Seqs.Filter(verses.value, Shown))
  }

  /** The kept verses keep their relative order: keeping the verses of two
      consecutive stretches is keeping each stretch and concatenating. */
  lemma KeptVersesKeepOrder(a: seq<Verse>, b: seq<Verse>)
    ensures KeptVerses(Some(a + b)).value == KeptVerses(Some(a)).value + KeptVerses(Some(b)).value
  {
    Seqs.FilterConcat(a, b, Shown);
  }

  /** The pseudo-verse 200 stays and 201 goes. */
  lemma PseudoVerseBoundary(id: string, text: string)
    ensures KeptVerses(Some([Verse(id, text, 200)])) == Some([Verse(id, text, 200)])
    ensures KeptVerses(Some([Verse(id, text, 201)])) == Some([])
  {
    assert Seqs.Filter([Verse(id, text, 200)], Shown) == [Verse(id, text, 200)];
    assert Seqs.Filter([Verse(id, text, 201)], Shown) == [];
  }

  /** The `save_verses` argument: the one verse's id mapped to its text. */
  function SavePayload(verseId: string, text: string): (payload: map<string, string>)
    ensures payload.Keys == {verseId}
    ensures payload[verseId] == text
  {
    map[verseId := text]
  }

  /** `updateVerse`: the text of the verse at `id` becomes `text`, the rest
      stays; the save carries that verse's id and the new text. */
  function UpdateVerse(verses: seq<Verse>, id: nat, text: string): (r: (seq<Verse>, map<string, string>))
    requires id < |verses|
    ensures |r.0| == |verses|
    ensures r.0[id].verse == text && r.0[id].verseId == verses[id].verseId && r.0[id].num == verses[id].num
    ensures forall i :: 0 <= i < |verses| && i != id ==> r.0[i] == verses[i]
    ensures |r.1| == 1 && verses[id].verseId in r.1 && r.1[verses[id].verseId] == text
  {
    var updated := verses[id := verses[id].(verse := text)];
    (updated, SavePayload(updated[id].verseId, text))
  }

  /** Typing the same text again changes nothing further. */
  lemma UpdateVerseIdempotent(verses: seq<Verse>, id: nat, text: string)
    requires id < |verses|
    ensures UpdateVerse(UpdateVerse(verses, id, text).0, id, text) == UpdateVerse(verses, id, text)
  {
    var once := UpdateVerse(verses, id, text).0;
    assert once[id := once[id].(verse := text)] == once;
  }

  // ---------------------------------------------------------------------
  // The save result

  /** What `supabase.rpc` resolves with: `null`, or a response whose
      `error` may be set. */
  datatype RpcResult = NullResult | Response(error: Value)

  /** After the save: the failure toast, nothing, or a `TypeError` that
      rejects the save without a toast. */
  datatype SaveCheck = Notice | Quiet | Crash

  /** `res.error || !res` as written: `res.error` is read first, so a
      `null` result throws before `!res` is reached, and for any response
      `!res` is false. */
  function FailureCheckAsWritten(res: RpcResult): SaveCheck
  {
    if res.NullResult? then Crash
    else if Truthy(res.error) || false then Notice
    else Quiet
  }

  /** The `null` result, which the `!res` test was written for, never
      raises the notice. */
  lemma NullResultCrashes()
    ensures FailureCheckAsWritten(NullResult) == Crash
  {
  }

  /** `!res || res.error`: the notice is raised exactly when there is no
      result or the result carries an error. */
  function FailureCheck(res: RpcResult): (check: SaveCheck)
    ensures check != Crash
    ensures check == Notice <==> res.NullResult? || Truthy(res.error)
  {
    if res.NullResult? || Truthy(res.error) then Notice else Quiet
  }

  /** On every actual response the corrected test decides as the written
      one does. */
  lemma FailureCheckAgreesOnResponses(res: RpcResult)
    requires res.Response?
    ensures FailureCheck(res) == FailureCheckAsWritten(res)
  {
  }
}

=== FILE: feedback.dfy ===
/** The feedback form of the start page (components/StartPage/Feedback.js):
    name, email and message must all be filled before the message is
    posted; after a refused attempt the empty fields are flagged. */
module Feedback {
  import opened Wrappers

  datatype FormField = Name | Email | Message

  datatype Form = Form(name: string, email: string, message: string)
  {
    function Get(field: FormField): string
    {
      match field
      case Name => name
      case Email => email
      case Message => message
    }
  }

  datatype State = State(form: Form, isError: bool, isSaving: bool, isSent: bool)

  /** The toast shown, by translation key. */
  datatype Toast = ErrorToast(key: string) | SuccessToast(key: string)

  /** `handleChange`: the named field takes the typed value, the others
      keep theirs. */
  function HandleChange(form: Form, field: FormField, value: string): (r: Form)
    ensures r.Get(field) == value
    ensures forall other :: other != field ==> r.Get(other) == form.Get(other)
  {
    match field
    case Name => form.(name := value)
    case Email => form.(email := value)
    case Message => form.(message := value)
  }

  /** Every field is filled (`""` is falsy). */
  predicate Complete(form: Form)
  {
    form.name != "" && form.email != "" && form.message != ""
  }

  /** `handleSubmit`: an incomplete form is refused with an error toast
      and sets `isError`; a complete one starts sending, without a toast,
      and is posted. */
  function HandleSubmit(s: State): (r: (State, Option<Toast>, Option<Form>))
    ensures !Complete(s.form) ==> r == (s.(isError := true), Some(ErrorToast("NotAllFieldFull")), None)
    ensures Complete(s.form) ==> r.0 == s.(isSaving := true) && r.1.None? && r.2 == Some(s.form)
    ensures r.2.Some? <==> Complete(s.form)
  {
    if !Complete(s.form) then (s.(isError := true), Some(ErrorToast("NotAllFieldFull")), None)
    else (s.(isSaving := true), None, Some(s.form))
  }

  /** The post's `then`/`catch`/`finally`. */
  function CompleteSend(s: State, delivered: bool): (r: (State, Toast))
    ensures !r.0.isSaving && r.0.form == s.form
    ensures delivered ==> r.0.isSent && !r.0.isError && r.1 == SuccessToast("YourMessageHasBeenSent")
    ensures !delivered ==> r.0 == s.(isSaving := false) && r.1 == ErrorToast("users:ErrorSending")
  {
    if delivered then (s.(isError := false, isSent := true, isSaving := false), SuccessToast("YourMessageHasBeenSent"))
    else (s.(isSaving := false), ErrorToast("users:ErrorSending"))
  }

  /** `isError && !feedback.<field>`: the field is shown in error. */
  predicate Flagged(s: State, field: FormField)
  {
    s.isError && s.form.Get(field) == ""
  }

  /** After a refused submit the flagged fields are exactly the empty
      ones, and there is at least one. */
  lemma RefusedSubmitFlagsEmptyFields(s: State)
    requires !Complete(s.form)
    ensures var after := HandleSubmit(s).0;
      && (forall field :: Flagged(after, field) <==> s.form.Get(field) == "")
      && exists field :: Flagged(after, field)
  {
    var after := HandleSubmit(s).0;
    if s.form.name == "" {
      assert Flagged(after, Name);
    } else if s.form.email == "" {
      assert Flagged(after, Email);
    } else {
      assert Flagged(after, Message);
    }
  }

  /** Typing into a flagged field clears its flag and leaves the other
      flags as they were. */
  lemma TypingClearsFlag(s: State, field: FormField, value: string)
    requires value != ""
    ensures var after := s.(form := HandleChange(s.form, field, value));
      && !Flagged(after, field)
      && forall other :: other != field ==> (Flagged(after, other) <==> Flagged(s, other))
  {
  }
}

=== FILE: info.dfy ===
/** The introductions endpoint (pages/api/git/info.js): read the
    repository's manifest to find the book's file, fetch it, and answer the
    book introduction and the requested chapter's introduction. */
module Info {
  import opened Wrappers
  import opened Strings
  import opened Door43
  import Seqs

  /** An entry of the manifest's `projects`. */
  datatype Project = Project(identifier: string, path: Option<string>)

  /** The columns of a TSV row the handler reads; an absent column is the
      empty string. */
  datatype InfoRow = InfoRow(reference: string, chapter: string, verse: string, id: string,
                             occurrenceNote: string, note: string)

  /** The two keys of the answer, `bookIntro` and `chapterIntro`. */
  datatype IntroKey = BookIntro | ChapterIntro

  /** 200 with the introductions, 404, or the uncaught error raised when
      the manifest names no file for the book. */
  datatype Reply = Ok(intros: map<IntroKey, string>) | NotFound | ServerError

  /** `repo + '/raw/branch/master/manifest.yaml'`; `repo` is the
      repository's full address. */
  function ManifestUrl(repo: string): string
  {
    repo + "/raw/branch/master/manifest.yaml"
  }

  /** `projects.find((el) => el.identifier === book)?.path`: the path of the
      first project of the book, absent when there is none or it has no
      path. */
  function FindBookPath(projects: seq<Project>, book: string): (path: Option<string>)
    ensures path.Some? ==> exists i :: (0 <= i < |projects| && projects[i].identifier == book
      && projects[i].path == path
      && forall j :: 0 <= j < i ==> projects[j].identifier != book)
    ensures (forall i :: 0 <= i < |projects| ==> projects[i].identifier != book) ==> path.None?
    ensures forall i :: (&& 0 <= i < |projects| && projects[i].identifier == book
                         && forall j :: 0 <= j < i ==> projects[j].identifier != book) ==>
      path == projects[i].path
    decreases |projects|
  {
    if |projects| == 0 then None
    else if projects[0].identifier == book then projects[0].path
    else
      var path := FindBookPath(projects[1..], book);
      if path.Some? then
        var i :| 0 <= i < |projects[1..]| && projects[1..][i].identifier == book && projects[1..][i].path == path
          && forall j :: 0 <= j < i ==> projects[1..][j].identifier != book;
        assert projects[i + 1] == projects[1..][i];
        assert forall j :: 1 <= j < i + 1 ==> projects[j] == projects[1..][j - 1];
        path
      else path
  }

  /** Only the book's own entries matter: dropping the projects of every
      other book finds the same path. */
  lemma {:induction false} FindBookPathIgnoresOtherBooks(projects: seq<Project>, book: string)
    ensures FindBookPath(Seqs.Filter(projects, (p: Project) => p.identifier == book), book)
         == FindBookPath(projects, book)
    decreases |projects|
  {
    if |projects| > 0 {
      FindBookPathIgnoresOtherBooks(projects[1..], book);
      assert projects == [projects[0]] + projects[1..];
      Seqs.FilterConcat([projects[0]], projects[1..], (p: Project) => p.identifier == book);
    }
  }

  /** `bookPath` starts with `./`. */
  predicate Relative(bookPath: string)
  {
    |bookPath| >= 2 && bookPath[..2] == "./"
  }

  /** The file's address: a relative path loses its leading dot, any other
      path gets a slash in front. */
  function ContentUrl(repo: string, bookPath: string): string
  {
    if Relative(bookPath) then repo + "/raw/master" + SliceFrom(bookPath, 1)
    else repo + "/raw/master/" + bookPath
  }

  /** Writing a path as `./path` or as `path` leads to the same file. */
  lemma ContentUrlRelative(repo: string, path: string)
    requires !Relative(path)
    ensures ContentUrl(repo, "./" + path) == ContentUrl(repo, path)
  {
    assert ("./" + path)[..2] == "./";
    assert SliceFrom("./" + path, 1) == "/" + path;
  }

  /** `el.Reference ? el.Reference.split(':') : [el.Chapter, el.Verse]`. */
  function RowPlace(row: InfoRow): (string, Option<string>)
  {
    if row.reference != "" then (ChapterOf(row.reference), VerseOf(row.reference))
    else (row.chapter, Some(row.verse))
  }

  /** `el.OccurrenceNote || el.Note`. */
  function RowText(row: InfoRow): string
  {
    if row.occurrenceNote != "" then row.occurrenceNote else row.note
  }

  /** What one row contributes: nothing unless it is the `intro` of the
      requested chapter or of `front`; the book's `front` introduction
      goes under `bookIntro`, the chapter's under `chapterIntro`. */
  function IntroOf(row: InfoRow, chapter: string): (r: Option<(IntroKey, string)>)
    ensures r.Some? <==> (RowPlace(row).0 == chapter || RowPlace(row).0 == "front") && RowPlace(row).1 == Some("intro")
    ensures r.Some? ==> (r.value.0 == BookIntro <==> RowPlace(row).0 == "front")
    ensures r.Some? ==> r.value.1 == RowText(row)
  {
    var (chapterNote, verseNote) := RowPlace(row);
    if chapterNote != chapter && chapterNote != "front" then None
    else if verseNote != Some("intro") then None
    else Some((if chapterNote == "front" then BookIntro else ChapterIntro, RowText(row)))
  }

  /** Row `i` is the last of `rows` to contribute under `key`. */
  predicate LastFor(rows: seq<InfoRow>, chapter: string, key: IntroKey, i: int)
  {
    && 0 <= i < |rows|
    && IntroOf(rows[i], chapter).Some? && IntroOf(rows[i], chapter).value.0 == key
    && forall j :: i < j < |rows| ==> IntroOf(rows[j], chapter).None? || IntroOf(rows[j], chapter).value.0 != key
  }

  /** The `forEach` filling `intros`: a key is present exactly when some
      row contributes under it, and then holds the text of the last such
      row. */
  method CollectIntros(rows: seq<InfoRow>, chapter: string) returns (intros: map<IntroKey, string>)
    ensures forall key :: key in intros <==>
      exists i :: 0 <= i < |rows| && IntroOf(rows[i], chapter).Some? && IntroOf(rows[i], chapter).value.0 == key
    ensures forall key :: key in intros ==>
      exists i :: LastFor(rows, chapter, key, i) && intros[key] == RowText(rows[i])
  {
    intros := map[];
    var k := 0;
    while k < |rows|
      invariant 0 <= k <= |rows|
      invariant forall key :: key in intros <==>
        exists i :: 0 <= i < k && IntroOf(rows[i], chapter).Some? && IntroOf(rows[i], chapter).value.0 == key
      invariant forall key :: key in intros ==>
        exists i :: LastFor(rows[..k], chapter, key, i) && intros[key] == RowText(rows[i])
    {
      var intro := IntroOf(rows[k], chapter);
      if intro.Some? {
        intros := intros[intro.value.0 := intro.value.1];
      }
      LastForStep(rows, chapter, k);
      k := k + 1;
    }
    assert rows[..k] == rows;
  }

  /** Extending the rows by one keeps the last contributor of every key the
      new row does not contribute to, and makes the new row the last of its
      own key. */
  lemma LastForStep(rows: seq<InfoRow>, chapter: string, k: nat)
    requires k < |rows|
    ensures forall key, i ::
              (LastFor(rows[..k], chapter, key, i)
               && (IntroOf(rows[k], chapter).None? || IntroOf(rows[k], chapter).value.0 != key))
              ==> LastFor(rows[..k + 1], chapter, key, i)
    ensures IntroOf(rows[k], chapter).Some? ==> LastFor(rows[..k + 1], chapter, IntroOf(rows[k], chapter).value.0, k)
  {
    forall key, i | LastFor(rows[..k], chapter, key, i)
      && (IntroOf(rows[k], chapter).None? || IntroOf(rows[k], chapter).value.0 != key)
      ensures LastFor(rows[..k + 1], chapter, key, i)
    {
      assert forall j :: 0 <= j < k ==> rows[..k + 1][j] == rows[..k][j];
    }
  }

  /** `infoHandler`. `fetch` is `axios.get(url).data`, `None` when the
      request fails; `loadManifest` is `jsyaml.load(...).projects`, `None`
      when the manifest does not parse; `parseTsv` is `tsvToJson`. */
  method InfoHandler(repo: string, book: string, chapter: string, fetch: string -> Option<string>,
                     loadManifest: string -> Option<seq<Project>>, parseTsv: string -> seq<InfoRow>)
    returns (reply: Reply)
    ensures fetch(ManifestUrl(repo)).None? ==> reply == NotFound
    ensures reply == ServerError <==>
      (&& fetch(ManifestUrl(repo)).Some?
       && loadManifest(fetch(ManifestUrl(repo)).value).Some?
       && FindBookPath(loadManifest(fetch(ManifestUrl(repo)).value).value, book).None?)
    ensures reply.Ok? <==>
      (&& fetch(ManifestUrl(repo)).Some?
       && var projects := loadManifest(fetch(ManifestUrl(repo)).value);
       && projects.Some?
       && var path := FindBookPath(projects.value, book);
       && path.Some?
       && fetch(ContentUrl(repo, path.value)).Some?)
    ensures reply.Ok? ==>
      (&& fetch(ManifestUrl(repo)).Some?
       && var projects := loadManifest(fetch(ManifestUrl(repo)).value);
       && projects.Some?
       && var path := FindBookPath(projects.value, book);
       && path.Some?
       && var data := fetch(ContentUrl(repo, path.value));
       && data.Some?
       && var rows := parseTsv(data.value);
       && (forall key :: key in reply.intros <==>
             exists i :: 0 <= i < |rows| && IntroOf(rows[i], chapter).Some? && IntroOf(rows[i], chapter).value.0 == key)
       && forall key :: key in reply.intros ==>
            exists i :: LastFor(rows, chapter, key, i) && reply.intros[key] == RowText(rows[i]))
  {
    var manifest := fetch(ManifestUrl(repo));
    if manifest.None? {
      return NotFound;
    }
    var projects := loadManifest(manifest.value);
    if projects.None? {
      return NotFound;
    }
    var bookPath := FindBookPath(projects.value, book);
    if bookPath.None? {
      return ServerError;
    }
    var data := fetch(ContentUrl(repo, bookPath.value));
    if data.None? {
      return NotFound;
    }
    var intros := CollectIntros(parseTsv(data.value), chapter);
    return Ok(intros);
  }
}

=== FILE: json.dfy ===
/** JavaScript values as the components hold them: plain records of named
    fields, arrays, strings, numbers, booleans and `null`. */
module Json {
  import opened Wrappers

  datatype Value =
    | Null
    | Bool(b: bool)
    | Num(n: int)
    | Str(s: string)
    | Arr(items: seq<Value>)
    | Obj(fields: map<string, Value>)

  /** A record: its fields by name. */
  type Record = map<string, Value>

  /** `record[key]`: `None` stands for `undefined`. */
  function Field(record: Record, key: string): Option<Value>
  {
    if key in record then Some(record[key]) else None
  }

  /** JavaScript truthiness: `null`, `false`, `0` and `""` are falsy, and
      every array and object is truthy. */
  predicate Truthy(v: Value)
  {
    match v
    case Null => false
    case Bool(b) => b
    case Num(n) => n != 0
    case Str(s) => s != ""
    case Arr(_) => true
    case Obj(_) => true
  }

  /** Truthiness of a value that may be `undefined`. */
  predicate Present(v: Option<Value>)
  {
    v.Some? && Truthy(v.value)
  }
}

=== FILE: method_editor.dfy ===
/** Editing a method's steps and brief blocks while creating a project
    (components/ProjectCreate/ProjectCreate.js). Steps, brief blocks and
    methods are records of named fields; every edit is written back into
    the stored copy of the current method. */
module MethodEditor {
  import opened Wrappers
  import opened Json

  /** The editor's state: the stored methods, the current method, and the
      working copies of its steps and brief blocks. */
  datatype Editor = Editor(methods: seq<Record>, current: Record, customSteps: seq<Record>,
                           customBriefQuestions: seq<Record>)

  /** Which array of the method an edit goes to (`steps` or `brief`). */
  datatype BlockName = Steps | Brief
  {
    function Key(): string
    {
      match this
      case Steps => "steps"
      case Brief => "brief"
    }
  }

  // ---------------------------------------------------------------------
  // Record updates

  /** `updateArray`: the record at `index` takes `value` under `fieldName`;
      every other record is the same. An index outside the array changes
      nothing. */
  function UpdateArray(items: seq<Record>, index: int, fieldName: string, value: Value): (r: seq<Record>)
    ensures |r| == |items|
    ensures 0 <= index < |items| ==> r[index] == items[index][fieldName := value]
    ensures forall i :: 0 <= i < |items| && i != index ==> r[i] == items[i]
  {
    seq(|items|, i requires 0 <= i < |items| => if i == index then items[i][fieldName := value] else items[i])
  }

  /** The updated record keeps every other field. */
  lemma UpdateArrayKeepsOtherFields(items: seq<Record>, index: int, fieldName: string, value: Value)
    requires 0 <= index < |items|
    ensures var r := UpdateArray(items, index, fieldName, value);
      && Field(r[index], fieldName) == Some(value)
      && forall key :: key != fieldName ==> Field(r[index], key) == Field(items[index], key)
  {
  }

  /** An out-of-range index returns an equal array. */
  lemma UpdateArrayOutOfRange(items: seq<Record>, index: int, fieldName: string, value: Value)
    requires !(0 <= index < |items|)
    ensures UpdateArray(items, index, fieldName, value) == items
  {
  }

  /** Repeating an update changes nothing more. */
  lemma UpdateArrayIdempotent(items: seq<Record>, index: int, fieldName: string, value: Value)
    ensures var once := UpdateArray(items, index, fieldName, value);
      UpdateArray(once, index, fieldName, value) == once
  {
    var once := UpdateArray(items, index, fieldName, value);
    var twice := UpdateArray(once, index, fieldName, value);
    forall i | 0 <= i < |once|
      ensures twice[i] == once[i]
    {
      if i == index {
        assert once[i][fieldName := value] == once[i];
      }
    }
  }

  /** `updateMethods`: the methods whose `id` is the current method's (both
      may be missing, and then they agree) take `block` under `key`. */
  function UpdateMethods(methods: seq<Record>, current: Record, key: string, block: Value): (r: seq<Record>)
    ensures |r| == |methods|
    ensures forall i :: 0 <= i < |methods| ==>
      r[i] == if Field(methods[i], "id") == Field(current, "id") then methods[i][key := block] else methods[i]
  {
    seq(|methods|, i requires 0 <= i < |methods| =>
      if Field(methods[i], "id") == Field(current, "id") then methods[i][key := block] else methods[i])
  }

  /** `updateBlock`: the working copy is updated and written back into the
      current method under `blockName`. */
  function UpdateBlock(e: Editor, value: Value, index: int, fieldName: string, blockName: BlockName): (r: Editor)
    ensures r.current == e.current
    ensures blockName == Steps ==> r.customBriefQuestions == e.customBriefQuestions
    ensures blockName == Brief ==> r.customSteps == e.customSteps
    ensures var updated := if blockName == Steps then r.customSteps else r.customBriefQuestions;
      && updated == UpdateArray(if blockName == Steps then e.customSteps else e.customBriefQuestions,
                                index, fieldName, value)
      && r.methods == UpdateMethods(e.methods, e.current, blockName.Key(), Arr(AsValues(updated)))
  {
    var items := if blockName == Steps then e.customSteps else e.customBriefQuestions;
    var updated := UpdateArray(items, index, fieldName, value);
    var e' := if blockName == Steps then e.(customSteps := updated) else e.(customBriefQuestions := updated);
    e'.(methods := UpdateMethods(e.methods, e.current, blockName.Key(), Arr(AsValues(updated))))
  }

  /** An array of records as a value. */
  function AsValues(records: seq<Record>): (r: seq<Value>)
    ensures |r| == |records|
    ensures forall i :: 0 <= i < |records| ==> r[i] == Obj(records[i])
  {
    seq(|records|, i requires 0 <= i < |records| => Obj(records[i]))
  }

  /** The guard of `updateSteps` and `updateTitleBlock`: a truthy value, an
      index that is neither `null` nor `undefined`, and a non-empty field
      name. */
  predicate EditAllowed(value: Value, index: Option<int>, fieldName: string)
  {
    Truthy(value) && index.Some? && fieldName != ""
  }

  /** `updateSteps` (`Steps`) and `updateTitleBlock` (`Brief`): nothing
      happens unless the guard holds. */
  function UpdateGuarded(e: Editor, value: Value, index: Option<int>, fieldName: string, blockName: BlockName)
    : (r: Editor)
    ensures !EditAllowed(value, index, fieldName) ==> r == e
    ensures EditAllowed(value, index, fieldName) ==> r == UpdateBlock(e, value, index.value, fieldName, blockName)
  {
    if Truthy(value) && index.Some? && fieldName != "" then UpdateBlock(e, value, index.value, fieldName, blockName)
    else e
  }

  /** A falsy value, such as an emptied input, never reaches the stored
      methods. */
  lemma FalsyValueIgnored(e: Editor, value: Value, index: Option<int>, fieldName: string, blockName: BlockName)
    requires !Truthy(value)
    ensures UpdateGuarded(e, value, index, fieldName, blockName) == e
  {
  }

  // ---------------------------------------------------------------------
  // Adding and removing brief blocks

  /** `blocks.filter((_, idx) => index !== idx)`. */
  function DropIndex(blocks: seq<Record>, index: int): (r: seq<Record>)
    ensures 0 <= index < |blocks| ==> r == blocks[..index] + blocks[index + 1..]
    ensures !(0 <= index < |blocks|) ==> r == blocks
    decreases |blocks|
  {
    if |blocks| == 0 then []
    else
      var rest := DropIndex(blocks[1..], index - 1);
      if index == 0 then
        assert rest == blocks[1..];
        rest
      else
        [blocks[0]] + rest
  }

  /** `removeBlockByIndex`: the last remaining block is never removed;
      otherwise the block at `index` goes, from the working copy and from
      the current method. */
  function RemoveBlockByIndex(e: Editor, index: int, blocks: seq<Record>): (r: Editor)
    ensures |blocks| <= 1 ==> r == e
    ensures |blocks| > 1 ==>
      && r.customBriefQuestions == DropIndex(blocks, index)
      && r.methods == UpdateMethods(e.methods, e.current, "brief", Arr(AsValues(DropIndex(blocks, index))))
      && r.current == e.current && r.customSteps == e.customSteps
  {
    if |blocks| > 1 then
      var briefs := DropIndex(blocks, index);
      e.(customBriefQuestions := briefs, methods := UpdateMethods(e.methods, e.current, "brief", Arr(AsValues(briefs))))
    else e
  }

  /** The block `addBlock` appends; `randomHex` is the hexadecimal digits
      of `Math.random()` after `0.`. */
  function NewBlock(randomHex: string): (block: Record)
    ensures Field(block, "title") == Some(Str("block"))
    ensures Field(block, "resume") == Some(Str(""))
    ensures Field(block, "id") == Some(Str("id" + randomHex))
    ensures Field(block, "block") == Some(Arr([Obj(map["answer" := Str(""), "question" := Str("question")])]))
    ensures block.Keys == {"block", "id", "resume", "title"}
  {
    map["block" := Arr([Obj(map["answer" := Str(""), "question" := Str("question")])]),
        "id" := Str("id" + randomHex),
        "resume" := Str(""),
        "title" := Str("block")]
  }

  /** `addBlock`: exactly one new block, after the existing ones. */
  function AddBlock(e: Editor, blocks: seq<Record>, randomHex: string): (r: Editor)
    ensures |r.customBriefQuestions| == |blocks| + 1
    ensures r.customBriefQuestions[..|blocks|] == blocks
    ensures r.customBriefQuestions[|blocks|] == NewBlock(randomHex)
    ensures r.methods == UpdateMethods(e.methods, e.current, "brief", Arr(AsValues(r.customBriefQuestions)))
    ensures r.current == e.current && r.customSteps == e.customSteps
  {
    var added := blocks + [NewBlock(randomHex)];
    e.(customBriefQuestions := added, methods := UpdateMethods(e.methods, e.current, "brief", Arr(AsValues(added))))
  }

  /** Removing the block just added restores the blocks. */
  lemma RemoveUndoesAdd(e: Editor, blocks: seq<Record>, randomHex: string)
    requires |blocks| >= 1
    ensures var added := AddBlock(e, blocks, randomHex);
      RemoveBlockByIndex(added, |blocks|, added.customBriefQuestions).customBriefQuestions == blocks
  {
    var added := AddBlock(e, blocks, randomHex);
    assert added.customBriefQuestions[..|blocks|] == blocks;
  }
}

=== FILE: obs_tn.dfy ===
/** The OBS translation-notes endpoint (pages/api/git/obs-tn.js): fetch the
    TSV of a story set, keep the notes of the requested chapter and hand
    each one, with its verse, to `filterNotes`, which files it into the
    answer. Notes of the requested verses go to one answer, the rest of
    the chapter to another; the verses decide which answer is sent.

    `filterNotes` (utils/tsvHelper) is not part of this model: it is the
    parameter `insert`, and the answer under construction is a value of
    any type `A` starting from `empty`. */
module ObsTn {
  import opened Wrappers
  import opened Door43
  import Seqs

  /** The columns of a TSV row the handler reads. */
  datatype TnRow = TnRow(reference: string, id: string, note: string, quote: string)

  /** `{ id: ID, text: Note, title: Quote }`. */
  datatype TnNote = TnNote(id: string, text: string, title: string)

  datatype Reply<A> = Ok(body: A) | NotFound

  function NoteOf(row: TnRow): TnNote
  {
    TnNote(row.id, row.note, row.quote)
  }

  predicate InChapter(row: TnRow, chapter: string)
  {
    ChapterOf(row.reference) == chapter
  }

  /** A row of the chapter whose verse the query includes. */
  predicate InVerses(row: TnRow, chapter: string, verses: Option<VerseQuery>)
  {
    && InChapter(row, chapter)
    && VersesGiven(verses)
    && VerseIncluded(verses.value, VerseOf(row.reference))
  }

  /** A row of the chapter that goes to the whole-chapter answer. */
  predicate InRestOfChapter(row: TnRow, chapter: string, verses: Option<VerseQuery>)
  {
    InChapter(row, chapter) && !InVerses(row, chapter, verses)
  }

  /** The rows of `rows` whose notes go to the verses' answer, and those
      that go to the whole-chapter answer, in row order. */
  function VerseRows(rows: seq<TnRow>, chapter: string, verses: Option<VerseQuery>): seq<TnRow>
  {
    Seqs.Filter(rows, row => InVerses(row, chapter, verses))
  }

  function RestRows(rows: seq<TnRow>, chapter: string, verses: Option<VerseQuery>): seq<TnRow>
  {
    Seqs.Filter(rows, row => InRestOfChapter(row, chapter, verses))
  }

  /** Filing the notes of `rows`, in order, into `empty`. */
  function FileNotes<A>(rows: seq<TnRow>, insert: (A, TnNote, Option<string>) -> A, empty: A): A
    decreases |rows|
  {
    if |rows| == 0 then empty
    else
      var last := rows[|rows| - 1];
      insert(FileNotes(rows[..|rows| - 1], insert, empty), NoteOf(last), VerseOf(last.reference))
  }

  /** The `forEach` over the rows, with its two answers. */
  method CollectNotes<A>(rows: seq<TnRow>, chapter: string, verses: Option<VerseQuery>,
                         insert: (A, TnNote, Option<string>) -> A, empty: A)
    returns (divided: A, whole: A)
    ensures divided == FileNotes(VerseRows(rows, chapter, verses), insert, empty)
    ensures whole == FileNotes(RestRows(rows, chapter, verses), insert, empty)
  {
    divided, whole := empty, empty;
    var k := 0;
    while k < |rows|
      invariant 0 <= k <= |rows|
      invariant divided == FileNotes(VerseRows(rows[..k], chapter, verses), insert, empty)
      invariant whole == FileNotes(RestRows(rows[..k], chapter, verses), insert, empty)
    {
      var row := rows[k];
      RowsStep(rows, k, chapter, verses);
      if !InChapter(row, chapter) {
        assert !InVerses(row, chapter, verses) && !InRestOfChapter(row, chapter, verses);
      } else if InVerses(row, chapter, verses) {
        assert !InRestOfChapter(row, chapter, verses);
        FileNotesStep(VerseRows(rows[..k], chapter, verses), row, insert, empty);
        divided := insert(divided, NoteOf(row), VerseOf(row.reference));
      } else {
        assert InRestOfChapter(row, chapter, verses);
        FileNotesStep(RestRows(rows[..k], chapter, verses), row, insert, empty);
        whole := insert(whole, NoteOf(row), VerseOf(row.reference));
      }
      k := k + 1;
    }
    assert rows[..k] == rows;
  }

  /** Handling row `k` extends exactly one of the two row lists, or none
      when the row is of another chapter. */
  lemma RowsStep(rows: seq<TnRow>, k: nat, chapter: string, verses: Option<VerseQuery>)
    requires k < |rows|
    ensures InVerses(rows[k], chapter, verses) ==>
              VerseRows(rows[..k + 1], chapter, verses) == VerseRows(rows[..k], chapter, verses) + [rows[k]]
    ensures !InVerses(rows[k], chapter, verses) ==>
              VerseRows(rows[..k + 1], chapter, verses) == VerseRows(rows[..k], chapter, verses)
    ensures InRestOfChapter(rows[k], chapter, verses) ==>
              RestRows(rows[..k + 1], chapter, verses) == RestRows(rows[..k], chapter, verses) + [rows[k]]
    ensures !InRestOfChapter(rows[k], chapter, verses) ==>
              RestRows(rows[..k + 1], chapter, verses) == RestRows(rows[..k], chapter, verses)
  {
    assert rows[..k + 1] == rows[..k] + [rows[k]];
    Seqs.FilterConcat(rows[..k], [rows[k]], row => InVerses(row, chapter, verses));
    Seqs.FilterConcat(rows[..k], [rows[k]], row => InRestOfChapter(row, chapter, verses));
    assert VerseRows(rows[..k], chapter, verses) + [] == VerseRows(rows[..k], chapter, verses);
    assert RestRows(rows[..k], chapter, verses) + [] == RestRows(rows[..k], chapter, verses);
  }

  lemma FileNotesStep<A>(rows: seq<TnRow>, row: TnRow, insert: (A, TnNote, Option<string>) -> A, empty: A)
    ensures FileNotes(rows + [row], insert, empty)
         == insert(FileNotes(rows, insert, empty), NoteOf(row), VerseOf(row.reference))
  {
    assert (rows + [row])[..|rows|] == rows;
  }

  /** `obsTnHandler`: 404 when the TSV cannot be fetched; otherwise the
      notes of the requested verses when verses are given, else the notes
      of the whole chapter, each filed in row order. `fetch` is
      `axios.get(url).data`, `None` when the request fails; `parseTsv` is
      `tsvToJson`. */
  method ObsTnHandler<A>(q: TsvQuery, fetch: string -> Option<string>, parseTsv: string -> seq<TnRow>,
                         insert: (A, TnNote, Option<string>) -> A, empty: A) returns (reply: Reply<A>)
    ensures reply.NotFound? <==> fetch(TsvUrl(q.owner, q.repo, q.commit, q.bookPath)).None?
    ensures reply.Ok? && VersesGiven(q.verses) ==>
      var rows := parseTsv(fetch(TsvUrl(q.owner, q.repo, q.commit, q.bookPath)).value);
      reply.body == FileNotes(VerseRows(rows, q.chapter, q.verses), insert, empty)
    ensures reply.Ok? && !VersesGiven(q.verses) ==>
      var rows := parseTsv(fetch(TsvUrl(q.owner, q.repo, q.commit, q.bookPath)).value);
      reply.body == FileNotes(Seqs.Filter(rows, row => InChapter(row, q.chapter)), insert, empty)
  {
    var tsv := fetch(TsvUrl(q.owner, q.repo, q.commit, q.bookPath));
    if tsv.None? {
      return NotFound;
    }
    var rows := parseTsv(tsv.value);
    var divided, whole := CollectNotes(rows, q.chapter, q.verses, insert, empty);
    if VersesGiven(q.verses) {
      return Ok(divided);
    }
    Seqs.FilterSame(rows, row => InRestOfChapter(row, q.chapter, q.verses), row => InChapter(row, q.chapter));
    return Ok(whole);
  }
}

=== FILE: password_recovery.dfy ===
/** Setting a new password after a recovery link
    (components/StartPage/PasswordRecovery.js): the two fields must both be
    filled, at least six UTF-16 units long and equal before the new
    password is sent. */
module PasswordRecovery {
  import opened Wrappers
  import opened Strings

  /** The verdict of `comparePasswords`; its `message` key. */
  datatype Verdict = NotAllFieldsFilled | PasswordShouldBeLeastSix | PasswordsDontMatch | Accepted
  {
    /** The `error` flag of the verdict. */
    predicate IsError()
    {
      !this.Accepted?
    }
  }

  datatype Passwords = Passwords(main: string, repeated: string)

  /** The two input fields, by their `name`. */
  datatype Field = Main | Repeated

  /** The component's state. `error` and `successResult` are "" when
      unset. */
  datatype State = State(passwords: Passwords, isRecovering: bool, error: string, successResult: string)

  /** How the password update request ended: resolved with a truthy or
      falsy response, or rejected, with the server's message when the
      response carries one. */
  datatype Outcome = Resolved(truthy: bool) | Rejected(message: Option<string>)

  /** `comparePasswords`: the first failing check decides the verdict. */
  function ComparePasswords(p: Passwords): (v: Verdict)
    ensures v == NotAllFieldsFilled <==> p.main == "" || p.repeated == ""
    ensures v == PasswordShouldBeLeastSix <==> p.main != "" && p.repeated != "" && Utf16Length(p.main) < 6
    ensures v == PasswordsDontMatch <==>
      p.main != "" && p.repeated != "" && Utf16Length(p.main) >= 6 && p.main != p.repeated
    ensures v == Accepted <==>
      p.main != "" && Utf16Length(p.main) >= 6 && p.main == p.repeated
  {
    if p.main == "" || p.repeated == "" then NotAllFieldsFilled
    else if Utf16Length(p.main) < 6 then PasswordShouldBeLeastSix
    else if p.main != p.repeated then PasswordsDontMatch
    else Accepted
  }

  /** A password that passes the checks has at least six characters'
      worth of UTF-16 units in both fields, so an accepted password is
      never the empty one. */
  lemma AcceptedPasswordIsLongEnough(p: Passwords)
    requires ComparePasswords(p) == Accepted
    ensures Utf16Length(p.repeated) >= 6 && |p.main| >= 3
  {
  }

  /** `handleChange`: only the named field changes. */
  function HandleChange(p: Passwords, field: Field, value: string): (r: Passwords)
    ensures field == Main ==> r.main == value && r.repeated == p.repeated
    ensures field == Repeated ==> r.repeated == value && r.main == p.main
  {
    match field
    case Main => p.(main := value)
    case Repeated => p.(repeated := value)
  }

  /** `handleRecovery`: the new state, and the password sent to
      `/api/users/update_password` when one is sent. Without a signed-in
      user nothing happens. */
  function HandleRecovery(s: State, hasUser: bool): (r: (State, Option<string>))
    ensures ComparePasswords(s.passwords).IsError() ==>
      r.1.None? && r.0 == s.(error := VerdictMessage(ComparePasswords(s.passwords)))
    ensures r.1.Some? <==> ComparePasswords(s.passwords) == Accepted && hasUser
    ensures r.1.Some? ==> r.1.value == s.passwords.main && r.1.value == s.passwords.repeated && r.0.isRecovering
    ensures !ComparePasswords(s.passwords).IsError() && !hasUser ==> r.0 == s
  {
    var verdict := ComparePasswords(s.passwords);
    if verdict.IsError() then (s.(error := VerdictMessage(verdict)), None)
    else if hasUser then (s.(isRecovering := true), Some(s.passwords.main))
    else (s, None)
  }

  /** The translation key of a verdict. */
  function VerdictMessage(v: Verdict): string
  {
    match v
    case NotAllFieldsFilled => "NotAllFieldsFilled"
    case PasswordShouldBeLeastSix => "PasswordShouldBeLeastSix"
    case PasswordsDontMatch => "PasswordsDontMatch"
    case Accepted => "Success"
  }

  /** The request's `then`/`catch`/`finally`: a truthy response shows the
      translated `PasswordChanged` text (`changedText`), a rejection shows
      the server's message or `ProblemWithRecovery`, and the spinner stops
      in every case. Signing out after success is not modelled. */
  function CompleteRecovery(s: State, outcome: Outcome, changedText: string): (r: State)
    ensures !r.isRecovering
    ensures r.passwords == s.passwords
    ensures outcome.Resolved? && outcome.truthy ==> r.successResult == changedText && r.error == s.error
    ensures outcome.Resolved? && !outcome.truthy ==> r == s.(isRecovering := false)
    ensures outcome.Rejected? ==> r.successResult == s.successResult
    ensures outcome.Rejected? && outcome.message.Some? ==> r.error == outcome.message.value
    ensures outcome.Rejected? && outcome.message.None? ==> r.error == "ProblemWithRecovery"
  {
    var settled :=
      match outcome
      case Resolved(truthy) => if truthy then s.(successResult := changedText) else s
      case Rejected(message) => s.(error := message.GetOr("ProblemWithRecovery"));
    settled.(isRecovering := false)
  }
}

=== FILE: personal_notes.dfy ===
/** Importing personal notes (components/Panel/Helpers/PersonalNotes.js):
    an exported JSON file holds a tree of notes; the import flattens it,
    in pre-order, into database rows with fresh ids and parent pointers,
    all hung under a new folder named after the import date.

    `Math.random` and `new Date()` are not modelled: every note that is
    built draws one `Fresh` value (its id and the current timestamp) from
    the oracle `draw`, in the order the source draws them. */
module PersonalNotes {
  import opened Wrappers
  import opened Strings
  import Json
  import Seqs

  /** One Editor.js block of a note, kept as its JSON text: the import
      copies blocks without looking inside them. */
  type Block = string

  /** The Editor.js payload of a note as found in the file; `blocks` may
      be missing. */
  datatype NoteData = NoteData(blocks: Option<seq<Block>>, version: string, time: int)

  /** The payload as stored. */
  datatype StoredData = StoredData(blocks: seq<Block>, version: string, time: int)

  /** A note of the imported tree. */
  datatype ImportedNote = ImportedNote(
    title: string,
    data: Option<NoteData>,
    createdAt: string,
    deletedAt: Option<string>,
    isFolder: bool,
    sorting: int,
    children: seq<ImportedNote>)

  /** A row of the `personal_notes` table, as built for insertion. */
  datatype Note = Note(
    id: string,
    userId: string,
    title: string,
    data: Option<StoredData>,
    createdAt: string,
    changedAt: string,
    deletedAt: Option<string>,
    isFolder: bool,
    parentId: Option<string>,
    sorting: int)

  /** One draw of randomness and clock: an id and an ISO timestamp. */
  datatype Fresh = Fresh(id: string, now: string)

  /** The decoded import file: its `type` tag and its tree of notes. */
  datatype ImportFile = ImportFile(kind: string, data: seq<ImportedNote>)

  // ---------------------------------------------------------------------
  // Fresh ids

  /** `('000000000' + raw).slice(-9)`: the last nine characters of the
      random base-36 digits padded with zeros. */
  function IdCandidate(raw: string): (id: string)
    ensures |id| == 9
  {
    LastN("000000000" + raw, 9)
  }

  /** `generateUniqueId`: draw candidates until one is not among the
      existing ids. `draws` are the successive random digit strings; when
      every draw collides the model reports `None` (the source would keep
      drawing). */
  method GenerateUniqueId(existing: seq<string>, draws: seq<string>) returns (id: Option<string>)
    ensures id.Some? ==> |id.value| == 9 && id.value !in existing
    ensures id.Some? ==> exists k :: (0 <= k < |draws| && id.value == IdCandidate(draws[k])
      && forall j :: 0 <= j < k ==> IdCandidate(draws[j]) in existing)
    ensures id.None? ==> forall k :: 0 <= k < |draws| ==> IdCandidate(draws[k]) in existing
  {
    var k := 0;
    while k < |draws|
      invariant 0 <= k <= |draws|
      invariant forall j :: 0 <= j < k ==> IdCandidate(draws[j]) in existing
    {
      var candidate := IdCandidate(draws[k]);
      if candidate !in existing {
        return Some(candidate);
      }
      k := k + 1;
    }
    return None;
  }

  /** `generateUniqueId(existingIds)` over any JavaScript array: `includes`
      compares with `===`, so a candidate collides only with an equal
      string. The first draw whose candidate is not in the array wins. */
  function FirstUnused(existing: seq<Json.Value>, draws: seq<string>): (id: Option<string>)
    ensures id.Some? ==> Json.Str(id.value) !in existing
    ensures id.Some? ==> exists k :: (0 <= k < |draws| && id.value == IdCandidate(draws[k])
      && forall j :: 0 <= j < k ==> Json.Str(IdCandidate(draws[j])) in existing)
    ensures id.None? <==> forall k :: 0 <= k < |draws| ==> Json.Str(IdCandidate(draws[k])) in existing
    decreases |draws|
  {
    if |draws| == 0 then None
    else if Json.Str(IdCandidate(draws[0])) !in existing then Some(IdCandidate(draws[0]))
    else
      var id := FirstUnused(existing, draws[1..]);
      assert forall k :: 0 <= k < |draws| - 1 ==> draws[1..][k] == draws[k + 1];
      if id.Some? then
        ghost var k :| 0 <= k < |draws| - 1 && id.value == IdCandidate(draws[1..][k])
          && forall j :: 0 <= j < k ==> Json.Str(IdCandidate(draws[1..][j])) in existing;
        assert id.value == IdCandidate(draws[k + 1]);
        id
      else id
  }

  /** A stored note as the object `allNotes` holds; its other fields play
      no part in `includes`. */
  function NoteObject(note: Note): Json.Value
  {
    Json.Obj(map["id" := Json.Str(note.id)])
  }

  /** As called: every use passes `allNotes`, the note objects. No object
      equals a string, so the first draw is taken even when a stored note
      already has that id. */
  lemma AllNotesCheckTakesFirstDraw(notes: seq<Note>, draws: seq<string>)
    requires |draws| > 0
    ensures FirstUnused(Seqs.Map(notes, NoteObject), draws) == Some(IdCandidate(draws[0]))
  {
    var objects := Seqs.Map(notes, NoteObject);
    assert Json.Str(IdCandidate(draws[0])) !in objects by {
      forall i | 0 <= i < |objects|
        ensures objects[i] != Json.Str(IdCandidate(draws[0]))
      {
        assert objects[i].Obj?;
      }
    }
  }

  /** The duplicate this lets through: a stored note with the first
      candidate's id gets a twin. */
  lemma AllNotesCheckDuplicates(notes: seq<Note>, draws: seq<string>, k: nat)
    requires |draws| > 0 && k < |notes| && notes[k].id == IdCandidate(draws[0])
    ensures var id := FirstUnused(Seqs.Map(notes, NoteObject), draws);
      id.Some? && id.value == notes[k].id
  {
    AllNotesCheckTakesFirstDraw(notes, draws);
  }

  /** `generateUniqueId(allNotes.map((note) => note.id))`: the check the
      name `existingIds` asks for. */
  function FreshNoteId(notes: seq<Note>, draws: seq<string>): (id: Option<string>)
    ensures id.Some? ==> forall i :: 0 <= i < |notes| ==> notes[i].id != id.value
    ensures id.Some? ==> exists k :: 0 <= k < |draws| && id.value == IdCandidate(draws[k])
    ensures id.None? <==> forall k :: 0 <= k < |draws| ==> IdCandidate(draws[k]) in IdsOf(notes)
  {
    var ids := IdsOf(notes);
    var values := Seqs.Map(ids, (id: string) => Json.Str(id));
    assert forall x :: Json.Str(x) in values <==> x in ids by {
      forall x ensures Json.Str(x) in values <==> x in ids {
        if Json.Str(x) in values {
          var i :| 0 <= i < |values| && values[i] == Json.Str(x);
          assert ids[i] == x;
        }
        if x in ids {
          var i :| 0 <= i < |ids| && ids[i] == x;
          assert values[i] == Json.Str(x);
        }
      }
    }
    var id := FirstUnused(values, draws);
    if id.Some? then
      assert forall i :: 0 <= i < |notes| ==> notes[i].id == ids[i];
      id
    else id
  }

  // ---------------------------------------------------------------------
  // Flattening

  /** `parseData`: a missing payload stays `null`; otherwise `blocks`
      defaults to the empty list and `version`/`time` are kept. */
  function ParseData(data: Option<NoteData>): (r: Option<StoredData>)
    ensures r.None? <==> data.None?
    ensures r.Some? ==> r.value.version == data.value.version && r.value.time == data.value.time
    ensures r.Some? ==> r.value.blocks == data.value.blocks.GetOr([])
  {
    match data
    case None => None
    case Some(d) => Some(StoredData(d.blocks.GetOr([]), d.version, d.time))
  }

  /** The number of notes in a forest. */
  function ForestSize(notes: seq<ImportedNote>): nat
    decreases notes
  {
    if |notes| == 0 then 0 else TreeSize(notes[0]) + ForestSize(notes[1..])
  }

  /** The number of notes in a tree: the note and its descendants. */
  function TreeSize(n: ImportedNote): nat
    decreases n
  {
    1 + ForestSize(n.children)
  }

  /** The notes of a forest in pre-order: each note, then its
      descendants, then its later siblings. */
  function Flatten(notes: seq<ImportedNote>): seq<ImportedNote>
    decreases notes
  {
    if |notes| == 0 then [] else FlattenTree(notes[0]) + Flatten(notes[1..])
  }

  function FlattenTree(n: ImportedNote): seq<ImportedNote>
    decreases n
  {
    [n] + Flatten(n.children)
  }

  /** The row built for imported note `n` with draw `f`. */
  function ParseNote(n: ImportedNote, userId: string, parentId: Option<string>, f: Fresh): Note
  {
    Note(f.id, userId, n.title, ParseData(n.data), n.createdAt, f.now, n.deletedAt,
         n.isFolder, parentId, n.sorting)
  }

  /** One step of `parseNotes`' reduce: the row of `n`, then the rows of
      its children parsed under the id just drawn for `n`. */
  function ParseTree(n: ImportedNote, userId: string, parentId: Option<string>,
                     draw: nat -> Fresh, start: nat): (rows: seq<Note>)
    ensures |rows| == TreeSize(n)
    decreases n
  {
    [ParseNote(n, userId, parentId, draw(start))]
    + ParseNotes(n.children, userId, Some(draw(start).id), draw, start + 1)
  }

  /** `parseNotes(notes, user_id, parentId)`: the rows of the whole forest;
      the note built `i`-th uses draw `draw(start + i)`. */
  function ParseNotes(notes: seq<ImportedNote>, userId: string, parentId: Option<string>,
                      draw: nat -> Fresh, start: nat): (rows: seq<Note>)
    ensures |rows| == ForestSize(notes)
    decreases notes
  {
    if |notes| == 0 then []
    else
      ParseTree(notes[0], userId, parentId, draw, start)
      + ParseNotes(notes[1..], userId, parentId, draw, start + TreeSize(notes[0]))
  }

  /** Row `row` was built from imported note `n` with draw `f`. */
  predicate BuiltFrom(row: Note, n: ImportedNote, userId: string, f: Fresh)
  {
    && row.id == f.id && row.changedAt == f.now && row.userId == userId
    && row.title == n.title && row.data == ParseData(n.data)
    && row.createdAt == n.createdAt && row.deletedAt == n.deletedAt
    && row.isFolder == n.isFolder && row.sorting == n.sorting
  }

  /** `rows[i]` was built from `notes[i]` with draw `start + i`, for
      every `i`. */
  predicate BuiltInOrder(rows: seq<Note>, notes: seq<ImportedNote>, userId: string,
                         draw: nat -> Fresh, start: nat)
  {
    |rows| == |notes|
    && forall i :: 0 <= i < |rows| ==> BuiltFrom(rows[i], notes[i], userId, draw(start + i))
  }

  lemma BuiltInOrderConcat(rows1: seq<Note>, notes1: seq<ImportedNote>,
                           rows2: seq<Note>, notes2: seq<ImportedNote>,
                           userId: string, draw: nat -> Fresh, start: nat)
    requires BuiltInOrder(rows1, notes1, userId, draw, start)
    requires BuiltInOrder(rows2, notes2, userId, draw, start + |rows1|)
    ensures BuiltInOrder(rows1 + rows2, notes1 + notes2, userId, draw, start)
  {
    var rows := rows1 + rows2;
    var notes := notes1 + notes2;
    forall i | |rows1| <= i < |rows|
      ensures BuiltFrom(rows[i], notes[i], userId, draw(start + i))
    {
      var k := i - |rows1|;
      assert rows[i] == rows2[k] && notes[i] == notes2[k];
      assert start + |rows1| + k == start + i;
    }
  }

  /** Every note of the tree is emitted exactly once, in pre-order: the
      `i`-th row is built from the `i`-th note of the pre-order walk, with
      the `i`-th draw, the given user and the note's own fields. */
  lemma {:induction false} ParseNotesPreOrder(notes: seq<ImportedNote>, userId: string,
                                              parentId: Option<string>, draw: nat -> Fresh, start: nat)
    ensures BuiltInOrder(ParseNotes(notes, userId, parentId, draw, start), Flatten(notes), userId, draw, start)
    decreases notes
  {
    if |notes| > 0 {
      var n := notes[0];
      var head := ParseTree(n, userId, parentId, draw, start);
      var tail := ParseNotes(notes[1..], userId, parentId, draw, start + TreeSize(n));
      ParseNotesCons(notes, userId, parentId, draw, start);
      ParseTreePreOrder(n, userId, parentId, draw, start);
      ParseNotesPreOrder(notes[1..], userId, parentId, draw, start + |head|);
      BuiltInOrderConcat(head, FlattenTree(n), tail, Flatten(notes[1..]), userId, draw, start);
    }
  }

  /** A forest's rows and pre-order walk are its first tree's followed by
      the rest's. */
  lemma ParseNotesCons(notes: seq<ImportedNote>, userId: string,
                       parentId: Option<string>, draw: nat -> Fresh, start: nat)
    requires |notes| > 0
    ensures ParseNotes(notes, userId, parentId, draw, start)
      == ParseTree(notes[0], userId, parentId, draw, start)
         + ParseNotes(notes[1..], userId, parentId, draw, start + TreeSize(notes[0]))
    ensures Flatten(notes) == FlattenTree(notes[0]) + Flatten(notes[1..])
  {
  }

  lemma {:induction false} ParseTreePreOrder(n: ImportedNote, userId: string,
                                             parentId: Option<string>, draw: nat -> Fresh, start: nat)
    ensures BuiltInOrder(ParseTree(n, userId, parentId, draw, start), FlattenTree(n), userId, draw, start)
    decreases n
  {
    var first := [ParseNote(n, userId, parentId, draw(start))];
    ParseNotesPreOrder(n.children, userId, Some(draw(start).id), draw, start + 1);
    assert BuiltInOrder(first, [n], userId, draw, start);
    BuiltInOrderConcat(first, [n], ParseNotes(n.children, userId, Some(draw(start).id), draw, start + 1),
                       Flatten(n.children), userId, draw, start);
  }

  /** The position of top-level note `k` among the rows. */
  function Offset(notes: seq<ImportedNote>, k: nat): nat
    requires k <= |notes|
  {
    ForestSize(notes[..k])
  }

  lemma OffsetStep(notes: seq<ImportedNote>, k: nat)
    requires 0 < k <= |notes|
    ensures Offset(notes, k) == TreeSize(notes[0]) + Offset(notes[1..], k - 1)
  {
    assert notes[..k][1..] == notes[1..][..k - 1];
  }

  /** The rows of tree `n` sit at position `o` of `rows`. */
  predicate TreeAt(rows: seq<Note>, o: nat, n: ImportedNote, userId: string,
                   parentId: Option<string>, draw: nat -> Fresh, start: nat)
  {
    o + TreeSize(n) <= |rows| && rows[o..o + TreeSize(n)] == ParseTree(n, userId, parentId, draw, start + o)
  }

  lemma TreeAtShift(prefix: seq<Note>, rest: seq<Note>, o: nat, n: ImportedNote, userId: string,
                    parentId: Option<string>, draw: nat -> Fresh, start: nat)
    requires TreeAt(rest, o, n, userId, parentId, draw, start + |prefix|)
    ensures TreeAt(prefix + rest, |prefix| + o, n, userId, parentId, draw, start)
  {
    var p := |prefix|;
    assert (prefix + rest)[p + o..p + o + TreeSize(n)] == rest[o..o + TreeSize(n)];
    assert start + |prefix| + o == start + (p + o);
  }

  /** The rows of top-level note `k` form one contiguous block, at the
      position given by the sizes of the trees before it. */
  lemma {:induction false} ParseNotesTreeAt(notes: seq<ImportedNote>, userId: string,
                                            parentId: Option<string>, draw: nat -> Fresh, start: nat, k: nat)
    requires k < |notes|
    ensures TreeAt(ParseNotes(notes, userId, parentId, draw, start), Offset(notes, k), notes[k],
                   userId, parentId, draw, start)
    decreases k
  {
    if k == 0 {
      assert notes[..0] == [];
      TreeAtHead(notes, userId, parentId, draw, start);
    } else {
      assert notes[1..][k - 1] == notes[k];
      ParseNotesTreeAt(notes[1..], userId, parentId, draw, start + TreeSize(notes[0]), k - 1);
      TreeAtTail(notes, userId, parentId, draw, start, k);
    }
  }

  lemma TreeAtHead(notes: seq<ImportedNote>, userId: string, parentId: Option<string>,
                   draw: nat -> Fresh, start: nat)
    requires |notes| > 0
    ensures TreeAt(ParseNotes(notes, userId, parentId, draw, start), 0, notes[0], userId, parentId, draw, start)
  {
    var head := ParseTree(notes[0], userId, parentId, draw, start);
    assert (head + ParseNotes(notes[1..], userId, parentId, draw, start + TreeSize(notes[0])))[..|head|] == head;
  }

  lemma TreeAtTail(notes: seq<ImportedNote>, userId: string, parentId: Option<string>,
                   draw: nat -> Fresh, start: nat, k: nat)
    requires 0 < k < |notes|
    requires TreeAt(ParseNotes(notes[1..], userId, parentId, draw, start + TreeSize(notes[0])),
                    Offset(notes[1..], k - 1), notes[k], userId, parentId, draw, start + TreeSize(notes[0]))
    ensures TreeAt(ParseNotes(notes, userId, parentId, draw, start), Offset(notes, k), notes[k],
                   userId, parentId, draw, start)
  {
    TreeAtShift(ParseTree(notes[0], userId, parentId, draw, start),
                ParseNotes(notes[1..], userId, parentId, draw, start + TreeSize(notes[0])),
                Offset(notes[1..], k - 1), notes[k], userId, parentId, draw, start);
    OffsetStep(notes, k);
  }

  /** Top-level note `k` gets the caller's parent id and a freshly drawn
      id, and the rows right after it are exactly the rows of its
      children, parsed under that id. */
  lemma ParseNotesBlocks(notes: seq<ImportedNote>, userId: string,
                         parentId: Option<string>, draw: nat -> Fresh, start: nat, k: nat)
    requires k < |notes|
    ensures var rows := ParseNotes(notes, userId, parentId, draw, start);
      var o := Offset(notes, k);
      var c := ForestSize(notes[k].children);
      && o + 1 + c <= |rows|
      && rows[o].parentId == parentId
      && rows[o].id == draw(start + o).id
      && rows[o + 1..o + 1 + c]
         == ParseNotes(notes[k].children, userId, Some(draw(start + o).id), draw, start + o + 1)
  {
    var rows := ParseNotes(notes, userId, parentId, draw, start);
    var o := Offset(notes, k);
    var n := notes[k];
    ParseNotesTreeAt(notes, userId, parentId, draw, start, k);
    var tree := ParseTree(n, userId, parentId, draw, start + o);
    assert rows[o..o + TreeSize(n)] == tree;
    assert rows[o] == tree[0];
    assert rows[o + 1..o + TreeSize(n)] == tree[1..];
  }

  /** The ids of a list of rows. */
  function IdsOf(rows: seq<Note>): (ids: seq<string>)
    ensures |ids| == |rows| && forall i :: 0 <= i < |rows| ==> ids[i] == rows[i].id
  {
    seq(|rows|, i requires 0 <= i < |rows| => rows[i].id)
  }

  /** Every row's parent is `parentId` or a row that comes before it. */
  predicate ParentsEarlier(rows: seq<Note>, parentId: Option<string>)
  {
    forall i :: 0 <= i < |rows| ==>
      rows[i].parentId == parentId || (rows[i].parentId.Some? && rows[i].parentId.value in IdsOf(rows[..i]))
  }

  /** Rows whose parents come earlier stay so behind any prefix, when their
      own top parent is the prefix's top parent or a row of the prefix. */
  lemma ParentsEarlierConcat(a: seq<Note>, b: seq<Note>, p: Option<string>, q: Option<string>)
    requires ParentsEarlier(a, p) && ParentsEarlier(b, q)
    requires q == p || (q.Some? && q.value in IdsOf(a))
    ensures ParentsEarlier(a + b, p)
  {
    var rows := a + b;
    forall i | |a| <= i < |rows|
      ensures rows[i].parentId == p || (rows[i].parentId.Some? && rows[i].parentId.value in IdsOf(rows[..i]))
    {
      var k := i - |a|;
      assert rows[i] == b[k];
      assert rows[..i] == a + b[..k];
      var ids := IdsOf(rows[..i]);
      if b[k].parentId == q && q != p {
        var j :| 0 <= j < |a| && IdsOf(a)[j] == q.value;
        assert ids[j] == q.value;
      } else if b[k].parentId != q {
        var x := b[k].parentId.value;
        var j :| 0 <= j < k && IdsOf(b[..k])[j] == x;
        assert ids[|a| + j] == b[j].id;
      }
    }
    forall i | 0 <= i < |a|
      ensures rows[i].parentId == p || (rows[i].parentId.Some? && rows[i].parentId.value in IdsOf(rows[..i]))
    {
      assert rows[..i] == a[..i];
    }
  }

  /** Every row's parent is either the caller's parent id or the id of a
      row emitted before it: the flat list can be rebuilt into a tree. */
  lemma {:induction false} ParentPrecedesChild(notes: seq<ImportedNote>, userId: string,
                                               parentId: Option<string>, draw: nat -> Fresh, start: nat)
    ensures ParentsEarlier(ParseNotes(notes, userId, parentId, draw, start), parentId)
    decreases notes
  {
    if |notes| > 0 {
      var n := notes[0];
      TreeParents(n, userId, parentId, draw, start);
      ParentPrecedesChild(notes[1..], userId, parentId, draw, start + TreeSize(n));
      ParentsEarlierConcat(ParseTree(n, userId, parentId, draw, start),
                           ParseNotes(notes[1..], userId, parentId, draw, start + TreeSize(n)),
                           parentId, parentId);
    }
  }

  lemma {:induction false} TreeParents(n: ImportedNote, userId: string,
                                       parentId: Option<string>, draw: nat -> Fresh, start: nat)
    ensures ParentsEarlier(ParseTree(n, userId, parentId, draw, start), parentId)
    decreases n
  {
    var first := [ParseNote(n, userId, parentId, draw(start))];
    var id := draw(start).id;
    ParentPrecedesChild(n.children, userId, Some(id), draw, start + 1);
    assert ParentsEarlier(first, parentId) by {
      assert first[..0] == [];
    }
    assert IdsOf(first)[0] == id;
    ParentsEarlierConcat(first, ParseNotes(n.children, userId, Some(id), draw, start + 1), parentId, Some(id));
  }

  /** `parseNotesWithTopFolder`: a folder `export-<date>` at the top, then
      the whole imported forest under that folder. The folder takes the
      first draw; its date is the part of the timestamp before `T`. */
  function ParseNotesWithTopFolder(notes: seq<ImportedNote>, userId: string, deletedAt: Option<string>,
                                      draw: nat -> Fresh): (rows: seq<Note>)
    ensures |rows| == 1 + ForestSize(notes)
    ensures rows[0].isFolder && rows[0].parentId.None? && rows[0].sorting == 0 && rows[0].data.None?
    ensures rows[0].id == draw(0).id && rows[0].userId == userId && rows[0].deletedAt == deletedAt
    ensures rows[0].title == "export-" + Split(draw(0).now, 'T')[0]
    ensures rows[1..] == ParseNotes(notes, userId, Some(rows[0].id), draw, 1)
  {
    var f := draw(0);
    var folder := Note(f.id, userId, "export-" + Split(f.now, 'T')[0], None, f.now, f.now,
                       deletedAt, true, None, 0);
    [folder] + ParseNotes(notes, userId, Some(f.id), draw, 1)
  }

  /** Every imported row hangs, directly or through other imported rows,
      under the export folder: its parent is a row emitted before it. */
  lemma ImportHangsUnderFolder(notes: seq<ImportedNote>, userId: string, deletedAt: Option<string>,
                               draw: nat -> Fresh)
    ensures var rows := ParseNotesWithTopFolder(notes, userId, deletedAt, draw);
      rows[0].parentId.None? && forall i :: 1 <= i < |rows| ==>
        rows[i].parentId.Some? && rows[i].parentId.value in IdsOf(rows[..i])
  {
    var rows := ParseNotesWithTopFolder(notes, userId, deletedAt, draw);
    var folderId := Some(rows[0].id);
    ParentPrecedesChild(notes, userId, folderId, draw, 1);
    assert ParentsEarlier([rows[0]], None) by {
      assert [rows[0]][..0] == [];
    }
    assert IdsOf([rows[0]])[0] == rows[0].id;
    ParentsEarlierConcat([rows[0]], rows[1..], None, folderId);
    assert [rows[0]] + rows[1..] == rows;
  }

  /** `importNotes`: the checks on the chosen file, in order, then the rows
      to insert. `decode` is `JSON.parse`, `None` when it throws. */
  function ImportNotes(file: Option<string>, decode: string -> Option<ImportFile>,
                          userId: string, deletedAt: Option<string>, draw: nat -> Fresh)
    : (r: Result<seq<Note>, string>)
    ensures file.None? ==> r == Failure("No file selected")
    ensures file.Some? && IsBlank(file.value) ==> r == Failure("Empty file content")
    ensures r.Success? ==>
              (&& file.Some? && !IsBlank(file.value) && decode(file.value).Some?
               && decode(file.value).value.kind == "personal_notes"
               && r.value == ParseNotesWithTopFolder(decode(file.value).value.data, userId, deletedAt, draw))
    ensures (&& file.Some? && !IsBlank(file.value) && decode(file.value).Some?
             && decode(file.value).value.kind != "personal_notes") ==>
              r == Failure("This not personal notes")
    ensures (&& file.Some? && !IsBlank(file.value) && decode(file.value).Some?
             && decode(file.value).value.kind == "personal_notes") ==>
              r == Success(ParseNotesWithTopFolder(decode(file.value).value.data, userId, deletedAt, draw))
    ensures file.Some? && decode(file.value).None? ==> r.Failure?
  {
    if file.None? then Failure("No file selected")
    else if IsBlank(file.value) then Failure("Empty file content")
    else
      match decode(file.value)
      case None => Failure("SyntaxError")
      case Some(imported) =>
        if imported.kind != "personal_notes" then Failure("This not personal notes")
        else Success(ParseNotesWithTopFolder(imported.data, userId, deletedAt, draw))
  }

  /** An imported file becomes one row per note plus the export folder, and
      every row but the folder hangs under a row inserted before it, so the
      rows can be inserted in order. */
  lemma ImportedRowsHang(file: Option<string>, decode: string -> Option<ImportFile>,
                         userId: string, deletedAt: Option<string>, draw: nat -> Fresh)
    requires ImportNotes(file, decode, userId, deletedAt, draw).Success?
    ensures var rows := ImportNotes(file, decode, userId, deletedAt, draw).value;
      && |rows| == 1 + ForestSize(decode(file.value).value.data)
      && rows[0].isFolder && rows[0].parentId.None?
      && forall i :: 1 <= i < |rows| ==> rows[i].parentId.Some? && rows[i].parentId.value in IdsOf(rows[..i])
  {
    ImportHangsUnderFolder(decode(file.value).value.data, userId, deletedAt, draw);
  }
}

=== FILE: project_create.dfy ===
/** The new-project form (components/ProjectCreate.js): the project code's
    format and uniqueness rules, the message shown for a rejected code, the
    submit guard and the renaming of a step. */
module ProjectCreate {
  import opened Wrappers

  // ---------------------------------------------------------------------
  // The code's format

  /** `[a-z\d\-]` under the `i` flag: an ASCII letter of either case, a
      digit or a hyphen. */
  predicate CodeChar(c: char)
  {
    ('a' <= c <= 'z') || ('A' <= c <= 'Z') || ('0' <= c <= '9') || c == '-'
  }

  predicate AllCodeChars(s: string)
  {
    forall i :: 0 <= i < |s| ==> CodeChar(s[i])
  }

  /** The shape the pattern `^[a-z\d\-]{2,12}\_[a-z\d\-]{1,12}$` (flag `i`)
      describes: two to twelve code characters, an underscore, and one to
      twelve code characters, with nothing before or after. */
  predicate CodeFormat(code: string)
  {
    exists k :: 2 <= k <= 12 && k < |code| && code[k] == '_'
      && AllCodeChars(code[..k]) && 1 <= |code| - k - 1 <= 12 && AllCodeChars(code[k + 1..])
  }

  /** The `wrongTypeCode` rule as a left-to-right scan: the longest run of
      code characters, then exactly one underscore, then a run of code
      characters to the end. */
  method MatchCodePattern(code: string) returns (ok: bool)
    ensures ok <==> CodeFormat(code)
  {
    var i := 0;
    while i < |code| && CodeChar(code[i])
      invariant 0 <= i <= |code|
      invariant AllCodeChars(code[..i])
    {
      i := i + 1;
    }
    if i < 2 || i > 12 || i == |code| || code[i] != '_' {
      ok := false;
      if CodeFormat(code) {
        var k :| 2 <= k <= 12 && k < |code| && code[k] == '_'
          && AllCodeChars(code[..k]) && 1 <= |code| - k - 1 <= 12 && AllCodeChars(code[k + 1..]);
        SplitPointUnique(code, i, k);
      }
      return;
    }
    var rest := code[i + 1..];
    ok := 1 <= |rest| <= 12 && AllCodeChars(rest);
    if CodeFormat(code) {
      var k :| 2 <= k <= 12 && k < |code| && code[k] == '_'
        && AllCodeChars(code[..k]) && 1 <= |code| - k - 1 <= 12 && AllCodeChars(code[k + 1..]);
      SplitPointUnique(code, i, k);
    }
  }

  /** The underscore of a well-formed code is where the leading run of code
      characters stops. */
  lemma SplitPointUnique(code: string, i: nat, k: nat)
    requires i <= |code| && AllCodeChars(code[..i]) && (i == |code| || !CodeChar(code[i]))
    requires k < |code| && code[k] == '_' && AllCodeChars(code[..k])
    ensures i == k
  {
    assert forall j :: 0 <= j < i ==> CodeChar(code[j]) by {
      forall j | 0 <= j < i
        ensures CodeChar(code[j])
      {
        assert code[..i][j] == code[j];
      }
    }
    assert forall j :: 0 <= j < k ==> CodeChar(code[j]) by {
      forall j | 0 <= j < k
        ensures CodeChar(code[j])
      {
        assert code[..k][j] == code[j];
      }
    }
  }

  /** A well-formed code has exactly one underscore and four to twenty-five
      characters. */
  lemma CodeFormatShape(code: string)
    requires CodeFormat(code)
    ensures 4 <= |code| <= 25
    ensures exists k :: (0 <= k < |code| && code[k] == '_'
      && forall j :: 0 <= j < |code| && j != k ==> code[j] != '_')
  {
    var k :| 2 <= k <= 12 && k < |code| && code[k] == '_'
      && AllCodeChars(code[..k]) && 1 <= |code| - k - 1 <= 12 && AllCodeChars(code[k + 1..]);
    forall j | 0 <= j < |code| && j != k
      ensures code[j] != '_'
    {
      if j < k {
        assert code[..k][j] == code[j];
      } else {
        assert code[k + 1..][j - k - 1] == code[j];
      }
    }
  }

  // ---------------------------------------------------------------------
  // Uniqueness and the message shown

  /** A project of the list the form loads; only its code is read. */
  datatype ExistingProject = ExistingProject(code: string)

  /** `projects?.find((el) => el.code === value)`. */
  function FindProject(projects: seq<ExistingProject>, code: string): (found: Option<ExistingProject>)
    ensures found.Some? <==> exists i :: 0 <= i < |projects| && projects[i].code == code
    ensures found.Some? ==> found.value.code == code
    decreases |projects|
  {
    if |projects| == 0 then None
    else if projects[0].code == code then Some(projects[0])
    else
      var found := FindProject(projects[1..], code);
      if found.Some? then found
      else
        assert forall i :: 1 <= i < |projects| ==> projects[i] == projects[1..][i - 1];
        None
  }

  /** The `notUniqueProject` rule: it passes while the project list is not
      loaded. */
  function Unique(projects: Option<seq<ExistingProject>>, code: string): (ok: bool)
    ensures !ok <==> projects.Some? && exists i :: 0 <= i < |projects.value| && projects.value[i].code == code
  {
    projects.None? || FindProject(projects.value, code).None?
  }

  /** The rule that rejects a code: `required` first, then the rules of
      `validate` in the order they are declared. */
  datatype CodeRule = Required | WrongTypeCode | NotUniqueProject

  function CodeError(code: string, projects: Option<seq<ExistingProject>>): (r: Option<CodeRule>)
    ensures r == Some(Required) <==> code == ""
    ensures r == Some(WrongTypeCode) <==> code != "" && !CodeFormat(code)
    ensures r == Some(NotUniqueProject) <==> CodeFormat(code) && !Unique(projects, code)
    ensures r.None? <==> CodeFormat(code) && Unique(projects, code)
  {
    if code == "" then Some(Required)
    else if !CodeFormat(code) then Some(WrongTypeCode)
    else if !Unique(projects, code) then Some(NotUniqueProject)
    else None
  }

  /** The translation key shown under the code field; a missing code shows
      nothing. */
  function ErrorMessage(error: Option<CodeRule>): string
  {
    match error
    case Some(WrongTypeCode) => "CodeMessageErrorWrongType"
    case Some(NotUniqueProject) => "CodeMessageErrorNotUniqueProject"
    case _ => ""
  }

  /** A message appears exactly for a code of the wrong shape or one
      already taken, and it names the rule that failed. */
  lemma ErrorMessageNamesRule(code: string, projects: Option<seq<ExistingProject>>)
    ensures var message := ErrorMessage(CodeError(code, projects));
      && (message == "CodeMessageErrorWrongType" <==> code != "" && !CodeFormat(code))
      && (message == "CodeMessageErrorNotUniqueProject" <==>
           CodeFormat(code) && projects.Some? && exists i :: 0 <= i < |projects.value| && projects.value[i].code == code)
      && (message == "" <==> code == "" || (CodeFormat(code) && Unique(projects, code)))
  {
  }

  // ---------------------------------------------------------------------
  // Submitting

  /** The form's values; an absent value is `None`. */
  datatype FormData = FormData(title: Option<string>, code: Option<string>, languageId: Option<string>)

  /** The selected method; only its id and steps are sent. */
  datatype Method = Method(id: int, steps: seq<Step>)

  /** A step of the method. */
  datatype Step = Step(title: string, description: string)

  /** The body posted to `/api/projects`. */
  datatype ProjectRequest = ProjectRequest(isBriefEnable: bool, customBriefs: seq<string>, title: string,
                                           languageId: string, code: string, methodId: int,
                                           steps: seq<Step>, resources: Option<string>)

  /** How `onSubmit` ends: without a request, with the request posted, or
      with a `TypeError` because no method is selected. */
  datatype SubmitOutcome = Skipped | Posted(request: ProjectRequest) | NoMethod

  /** A present, non-empty value (`""` and `undefined` are falsy). */
  predicate Truthy(v: Option<string>)
  {
    v.Some? && v.value != ""
  }

  /** `onSubmit`. */
  function OnSubmit(data: FormData, isBriefEnable: bool, customBriefs: seq<string>,
                    selected: Option<Method>, resourcesUrl: Option<string>): (r: SubmitOutcome)
    ensures r.Skipped? <==> !Truthy(data.title) || !Truthy(data.code) || !Truthy(data.languageId)
    ensures r.Posted? <==> Truthy(data.title) && Truthy(data.code) && Truthy(data.languageId) && selected.Some?
    ensures r.Posted? ==> r.request == ProjectRequest(isBriefEnable, customBriefs, data.title.value,
      data.languageId.value, data.code.value, selected.value.id, selected.value.steps, resourcesUrl)
  {
    if !Truthy(data.title) || !Truthy(data.code) || !Truthy(data.languageId) then Skipped
    else if selected.None? then NoMethod
    else Posted(ProjectRequest(isBriefEnable, customBriefs, data.title.value, data.languageId.value,
                               data.code.value, selected.value.id, selected.value.steps, resourcesUrl))
  }

  /** `handleSubmit(onSubmit)`: the form's rules run first (`required` on
      the title, then the code's rules) and `onSubmit` is called only when
      none fails. */
  function Submit(data: FormData, projects: Option<seq<ExistingProject>>, isBriefEnable: bool,
                  customBriefs: seq<string>, selected: Option<Method>, resourcesUrl: Option<string>)
    : (r: SubmitOutcome)
    ensures !Truthy(data.title) || CodeError(data.code.GetOr(""), projects).Some? ==> r.Skipped?
    ensures Truthy(data.title) && CodeError(data.code.GetOr(""), projects).None? ==>
      r == OnSubmit(data, isBriefEnable, customBriefs, selected, resourcesUrl)
  {
    if !Truthy(data.title) || CodeError(data.code.GetOr(""), projects).Some? then Skipped
    else OnSubmit(data, isBriefEnable, customBriefs, selected, resourcesUrl)
  }

  /** Only a well-formed code that no loaded project has is ever posted,
      and a posted form shows no message under the code. */
  lemma PostedCodeIsValid(data: FormData, projects: Option<seq<ExistingProject>>, isBriefEnable: bool,
                          customBriefs: seq<string>, selected: Option<Method>, resourcesUrl: Option<string>)
    requires Submit(data, projects, isBriefEnable, customBriefs, selected, resourcesUrl).Posted?
    ensures var request := Submit(data, projects, isBriefEnable, customBriefs, selected, resourcesUrl).request;
      && request.code == data.code.value
      && CodeFormat(request.code) && Unique(projects, request.code)
      && ErrorMessage(CodeError(request.code, projects)) == ""
  {
  }

  // ---------------------------------------------------------------------
  // Renaming a step

  /** `updateTitle`: the step at `index` takes the new title; its other
      fields and every other step are unchanged. */
  function UpdateTitle(steps: seq<Step>, title: string, index: nat): (r: seq<Step>)
    requires index < |steps|
    ensures |r| == |steps|
    ensures r[index].title == title && r[index].description == steps[index].description
    ensures forall i :: 0 <= i < |steps| && i != index ==> r[i] == steps[i]
  {
    steps[index := steps[index].(title := title)]
  }

  /** `customSteps` and `method.steps` are one array, so a step renamed
      with `updateTitle` is posted under its new title, the other steps as
      they were. */
  lemma RenamedStepIsPosted(data: FormData, isBriefEnable: bool, customBriefs: seq<string>, m: Method,
                            title: string, index: nat, resourcesUrl: Option<string>)
    requires index < |m.steps|
    requires Truthy(data.title) && Truthy(data.code) && Truthy(data.languageId)
    ensures var r := OnSubmit(data, isBriefEnable, customBriefs,
                              Some(m.(steps := UpdateTitle(m.steps, title, index))), resourcesUrl);
      && r.Posted? && |r.request.steps| == |m.steps|
      && r.request.steps[index] == m.steps[index].(title := title)
      && forall i :: 0 <= i < |m.steps| && i != index ==> r.request.steps[i] == m.steps[i]
  {
  }
}

=== FILE: project_edit.dfy ===
/** The project's team page (components/ProjectEdit.js): which users can
    still be added as translators or coordinators, who is a moderator, what
    the moderator button does, and what only an administrator sees. */
module ProjectEdit {
  import opened Wrappers
  import Seqs

  type UserId = string

  /** A user of the system. */
  datatype User = User(id: UserId, login: string)

  /** A translator or coordinator of the project: `el.users.id` and
      `el.is_moderator`. */
  datatype Member = Member(userId: UserId, isModerator: bool)

  /** `members?.map((el) => el.users.id)`. */
  function MemberIds(members: seq<Member>): (ids: seq<UserId>)
    ensures |ids| == |members|
    ensures forall i :: 0 <= i < |members| ==> ids[i] == members[i].userId
  {
    Seqs.Map(members, (m: Member) => m.userId)
  }

  /** `!members?.map(...).includes(user.id)`: while the members are not
      loaded every user counts as a candidate. */
  predicate NotMember(members: Option<seq<Member>>, user: User)
  {
    members.None? || user.id !in MemberIds(members.value)
  }

  /** `NotMember(members, ·)` as a function value, the test `filter` applies. */
  function IsCandidate(members: Option<seq<Member>>): User -> bool
  {
    (user: User) => NotMember(members, user)
  }

  /** The candidate list of the translator (or coordinator) dialog: the
      users that are not yet members, in the order of `users`; nothing
      while the users are not loaded. */
  function Candidates(users: Option<seq<User>>, members: Option<seq<Member>>): (r: Option<seq<User>>)
    ensures r.None? <==> users.None?
    ensures r.Some? ==> forall i :: 0 <= i < |users.value| ==>
      (users.value[i] in r.value <==>
        members.None? || forall j :: 0 <= j < |members.value| ==> members.value[j].userId != users.value[i].id)
    ensures r.Some? ==> forall i :: 0 <= i < |r.value| ==> r.value[i] in users.value
  {
    if users.None? then None
    else Some(Seqs.Filter(users.value, IsCandidate(members)))
  }

  /** The candidates keep the order of `users`: the list for two runs of
      users is the first run's candidates followed by the second's, and a
      single user is a candidate exactly when they are not a member. */
  lemma CandidatesInOrder(a: seq<User>, b: seq<User>, members: Option<seq<Member>>)
    ensures Candidates(Some(a + b), members).value
      == Candidates(Some(a), members).value + Candidates(Some(b), members).value
    ensures forall u: User :: Candidates(Some([u]), members).value == if NotMember(members, u) then [u] else []
  {
    Seqs.FilterConcat(a, b, IsCandidate(members));
    forall u: User
      ensures Candidates(Some([u]), members).value == if NotMember(members, u) then [u] else []
    {
      assert [u][1..] == [];
    }
  }

  /** The dialog opens on the first user, in the order of `users`, who is
      not a member; on nobody when every user already is one. */
  lemma {:induction false} OpensOnFirstNonMember(users: seq<User>, members: Option<seq<Member>>, k: nat)
    requires k < |users| && NotMember(members, users[k])
    requires forall j :: 0 <= j < k ==> !NotMember(members, users[j])
    ensures DefaultSelection(Candidates(Some(users), members)) == Some(users[k].id)
  {
    var p := IsCandidate(members);
    var before, rest := users[..k], users[k..];
    assert users == before + rest;
    Seqs.FilterConcat(before, rest, p);
    assert forall j :: 0 <= j < |before| ==> !p(before[j]);
    Seqs.FilterNone(before, p);
    assert rest[0] == users[k] && p(rest[0]);
    assert Seqs.Filter(rest, p)[0] == users[k];
  }

  /** With every user a member, the dialog opens on nobody. */
  lemma NoCandidateNoSelection(users: seq<User>, members: Option<seq<Member>>)
    requires forall j :: 0 <= j < |users| ==> !NotMember(members, users[j])
    ensures DefaultSelection(Candidates(Some(users), members)).None?
  {
    Seqs.FilterNone(users, IsCandidate(members));
  }

  /** Once a user joins, they drop out of the candidates and every other
      candidate stays. */
  lemma JoiningLeavesCandidates(users: seq<User>, members: seq<Member>, joined: Member)
    ensures var before := Candidates(Some(users), Some(members)).value;
      var after := Candidates(Some(users), Some(members + [joined])).value;
      && (forall i :: 0 <= i < |after| ==> after[i].id != joined.userId)
      && forall i :: 0 <= i < |users| && users[i] in before && users[i].id != joined.userId ==> users[i] in after
  {
    var extended := members + [joined];
    assert extended[|members|].userId == joined.userId;
    forall i | 0 <= i < |users| && users[i] in Candidates(Some(users), Some(members)).value
        && users[i].id != joined.userId
      ensures forall j :: 0 <= j < |extended| ==> extended[j].userId != users[i].id
    {
      assert forall j :: 0 <= j < |members| ==> extended[j] == members[j];
    }
  }

  /** `listOf?.[0]?.id`: the user selected when the dialog opens. */
  function DefaultSelection(candidates: Option<seq<User>>): (selected: Option<UserId>)
    ensures selected.Some? <==> candidates.Some? && |candidates.value| > 0
    ensures selected.Some? ==> selected.value == candidates.value[0].id
  {
    if candidates.Some? && |candidates.value| > 0 then Some(candidates.value[0].id) else None
  }

  /** `moderatorIds`: the user ids of the moderating translators, in order;
      undefined while the translators are not loaded. */
  function ModeratorIds(translators: Option<seq<Member>>): (ids: Option<seq<UserId>>)
    ensures ids.None? <==> translators.None?
    ensures ids.Some? ==> forall id :: id in ids.value <==>
      exists i :: 0 <= i < |translators.value| && translators.value[i].isModerator && translators.value[i].userId == id
  {
    if translators.None? then None
    else
      var moderators := Seqs.Filter(translators.value, (m: Member) => m.isModerator);
      var ids := MemberIds(moderators);
      assert forall id :: id in ids ==> exists k :: 0 <= k < |moderators| && moderators[k].userId == id;
      Some(ids)
  }

  /** The moderator ids keep the translators' order: two runs of
      translators give the first run's ids followed by the second's, and
      one translator gives their id exactly when they moderate. */
  lemma ModeratorIdsInOrder(a: seq<Member>, b: seq<Member>)
    ensures ModeratorIds(Some(a + b)).value == ModeratorIds(Some(a)).value + ModeratorIds(Some(b)).value
    ensures forall m: Member :: ModeratorIds(Some([m])).value == if m.isModerator then [m.userId] else []
  {
    var p := (m: Member) => m.isModerator;
    Seqs.FilterConcat(a, b, p);
    var fa, fb := Seqs.Filter(a, p), Seqs.Filter(b, p);
    assert MemberIds(fa + fb) == MemberIds(fa) + MemberIds(fb);
    forall m: Member
      ensures ModeratorIds(Some([m])).value == if m.isModerator then [m.userId] else []
    {
      assert [m][1..] == [];
    }
  }

  /** The procedure the moderator button calls. */
  datatype ModeratorChange = RemoveModerator | AssignModerator
  {
    function RpcName(): string
    {
      match this
      case RemoveModerator => "remove_moderator"
      case AssignModerator => "assign_moderator"
    }
  }

  /** The button removes the selected translator's moderator rights when
      they have them and grants them otherwise. */
  function ModeratorToggle(translators: Option<seq<Member>>, selected: UserId): (change: ModeratorChange)
    ensures change == RemoveModerator <==>
      translators.Some? && exists i :: 0 <= i < |translators.value| && translators.value[i].isModerator
                                       && translators.value[i].userId == selected
  {
    var ids := ModeratorIds(translators);
    if ids.Some? && selected in ids.value then RemoveModerator else AssignModerator
  }

  /** The coordinators' add and delete controls are shown only to an
      administrator of the project. */
  predicate CoordinatorControlsShown(level: string)
  {
    level == "admin"
  }

  /** `if ((user?.id, project?.id))`: the comma operator evaluates to the
      project's id, so the level is requested whenever the project has a
      (non-zero) id. */
  function FetchesLevel(userId: Option<UserId>, projectId: Option<int>): (fetch: bool)
    ensures fetch <==> projectId.Some? && projectId.value != 0
  {
    var condition := (userId, projectId).1;
    condition.Some? && condition.value != 0
  }

  /** Whether the user is known does not change the decision. */
  lemma FetchesLevelIgnoresUser(a: Option<UserId>, b: Option<UserId>, projectId: Option<int>)
    ensures FetchesLevel(a, projectId) == FetchesLevel(b, projectId)
  {
  }
}

=== FILE: seqs.dfy ===
/** `Array.prototype.filter` and `map` over sequences, with the facts the
    rest of the model uses about them. */
module Seqs {

  /** `s.filter(p)`: the elements satisfying `p`, in their original order. */
  function Filter<T>(s: seq<T>, p: T -> bool): (r: seq<T>)
    ensures |r| <= |s|
    ensures forall i :: 0 <= i < |r| ==> r[i] in s && p(r[i])
    ensures forall i :: 0 <= i < |s| && p(s[i]) ==> s[i] in r
    decreases |s|
  {
    if |s| == 0 then []
    else (if p(s[0]) then [s[0]] else []) + Filter(s[1..], p)
  }

  /** Filtering distributes over concatenation, so the kept elements keep
      the relative order of the input. */
  lemma {:induction false} FilterConcat<T>(a: seq<T>, b: seq<T>, p: T -> bool)
    ensures Filter(a + b, p) == Filter(a, p) + Filter(b, p)
    decreases |a|
  {
    if |a| > 0 {
      assert (a + b)[1..] == a[1..] + b;
      FilterConcat(a[1..], b, p);
    } else {
      assert a + b == b;
    }
  }

  /** Filtering with a predicate that holds everywhere changes nothing. */
  lemma {:induction false} FilterAll<T>(s: seq<T>, p: T -> bool)
    requires forall i :: 0 <= i < |s| ==> p(s[i])
    ensures Filter(s, p) == s
    decreases |s|
  {
    if |s| > 0 {
      FilterAll(s[1..], p);
    }
  }

  /** Filtering with a predicate that holds nowhere leaves nothing. */
  lemma {:induction false} FilterNone<T>(s: seq<T>, p: T -> bool)
    requires forall i :: 0 <= i < |s| ==> !p(s[i])
    ensures Filter(s, p) == []
    decreases |s|
  {
    if |s| > 0 {
      FilterNone(s[1..], p);
    }
  }

  /** Predicates that agree on every element filter alike. */
  lemma {:induction false} FilterSame<T>(s: seq<T>, p: T -> bool, q: T -> bool)
    requires forall i :: 0 <= i < |s| ==> p(s[i]) == q(s[i])
    ensures Filter(s, p) == Filter(s, q)
    decreases |s|
  {
    if |s| > 0 {
      FilterSame(s[1..], p, q);
    }
  }

  /** `s.map(f)`. */
  function Map<T, U>(s: seq<T>, f: T -> U): (r: seq<U>)
    ensures |r| == |s|
    ensures forall i :: 0 <= i < |s| ==> r[i] == f(s[i])
  {
    seq(|s|, i requires 0 <= i < |s| => f(s[i]))
  }
}

=== FILE: side_bar.dfy ===
/** The side bar's modal windows (components/SideBar.js): the about-version
    window, the avatar selector and the notepad, opened and closed through
    one shared record of flags. */
module SideBar {
  import opened Wrappers

  /** The three flags of `modalsSidebar`. */
  datatype Modals = Modals(aboutVersion: bool, avatarSelector: bool, notepad: bool)

  /** The windows, by the names `openModal` is called with. */
  datatype ModalType = AboutVersion | AvatarSelector | Notepad

  function IsOpen(m: Modals, t: ModalType): bool
  {
    match t
    case AboutVersion => m.aboutVersion
    case AvatarSelector => m.avatarSelector
    case Notepad => m.notepad
  }

  /** At most one window is open. */
  predicate AtMostOneOpen(m: Modals)
  {
    forall t, u :: IsOpen(m, t) && IsOpen(m, u) ==> t == u
  }

  const AllClosed := Modals(false, false, false)

  /** `openModal(modalType)`: the named window toggles and every other one
      closes. `None` is a call without an argument (or with a name that is
      none of the three), which closes them all. */
  function OpenModal(m: Modals, modalType: Option<ModalType>): (r: Modals)
    ensures modalType.Some? ==> IsOpen(r, modalType.value) == !IsOpen(m, modalType.value)
    ensures forall t :: modalType != Some(t) ==> !IsOpen(r, t)
    ensures modalType.None? ==> r == AllClosed
  {
    Modals(if modalType == Some(AboutVersion) then !m.aboutVersion else false,
           if modalType == Some(AvatarSelector) then !m.avatarSelector else false,
           if modalType == Some(Notepad) then !m.notepad else false)
  }

  /** `closeModal`. */
  function CloseModal(m: Modals): (r: Modals)
    ensures forall t :: !IsOpen(r, t)
  {
    AllClosed
  }

  /** Whatever the flags were before, at most one window is open after
      `openModal`. */
  lemma OpenLeavesAtMostOne(m: Modals, modalType: Option<ModalType>)
    ensures AtMostOneOpen(OpenModal(m, modalType))
  {
  }

  /** Opening a window twice from the closed state closes it again. */
  lemma OpenTwiceCloses(t: ModalType)
    ensures OpenModal(OpenModal(AllClosed, Some(t)), Some(t)) == AllClosed
  {
  }

  /** Opening another window closes the one that was open. */
  lemma OpenSwitches(m: Modals, t: ModalType, u: ModalType)
    requires IsOpen(m, t) && t != u && AtMostOneOpen(m)
    ensures var r := OpenModal(m, Some(u));
      && !IsOpen(r, t) && IsOpen(r, u)
  {
  }

  /** A click in the side bar. */
  datatype Action = Open(modalType: Option<ModalType>) | Close

  function Step(m: Modals, a: Action): Modals
  {
    match a
    case Open(modalType) => OpenModal(m, modalType)
    case Close => CloseModal(m)
  }

  /** The flags after a sequence of clicks. */
  function Run(m: Modals, actions: seq<Action>): Modals
    decreases |actions|
  {
    if |actions| == 0 then m else Run(Step(m, actions[0]), actions[1..])
  }

  /** Starting from a state with at most one window open, no sequence of
      clicks opens two. */
  lemma {:induction false} RunKeepsAtMostOne(m: Modals, actions: seq<Action>)
    requires AtMostOneOpen(m)
    ensures AtMostOneOpen(Run(m, actions))
    decreases |actions|
  {
    if |actions| > 0 {
      if actions[0].Open? {
        OpenLeavesAtMostOne(m, actions[0].modalType);
      }
      RunKeepsAtMostOne(Step(m, actions[0]), actions[1..]);
    }
  }
}

=== FILE: strings.dfy ===
/** The handful of JavaScript string operations the application relies on,
    written out over `seq<char>`: `split` and `join` on a one-character
    separator, `slice` with the negative offsets the code uses, `includes`,
    decimal formatting of numbers and the UTF-16 length of a string. */
module Strings {

  /** `s.split(sep)` for a one-character separator: the pieces between
      separators, always at least one piece. */
  function Split(s: string, sep: char): (parts: seq<string>)
    ensures |parts| >= 1
    ensures forall i :: 0 <= i < |parts| ==> sep !in parts[i]
    decreases |s|
  {
    if |s| == 0 then [""]
    else if s[0] == sep then [""] + Split(s[1..], sep)
    else
      var rest := Split(s[1..], sep);
      [[s[0]] + rest[0]] + rest[1..]
  }

  /** `parts.join(sep)`. */
  function Join(parts: seq<string>, sep: char): string
    decreases |parts|
  {
    if |parts| == 0 then ""
    else if |parts| == 1 then parts[0]
    else parts[0] + [sep] + Join(parts[1..], sep)
  }

  /** Splitting then joining on the same separator gives the input back. */
  lemma {:induction false} JoinSplit(s: string, sep: char)
    ensures Join(Split(s, sep), sep) == s
    decreases |s|
  {
    if |s| == 0 {
    } else if s[0] == sep {
      JoinSplit(s[1..], sep);
      assert s == [sep] + s[1..];
    } else {
      var rest := Split(s[1..], sep);
      JoinSplit(s[1..], sep);
      if |rest| == 1 {
        assert s == [s[0]] + s[1..];
      } else {
        assert Join(rest, sep) == rest[0] + [sep] + Join(rest[1..], sep);
        assert s == [s[0]] + s[1..];
      }
    }
  }

  /** A string without the separator splits into itself alone. */
  lemma {:induction false} SplitNoSep(s: string, sep: char)
    requires sep !in s
    ensures Split(s, sep) == [s]
    decreases |s|
  {
    if |s| > 0 {
      SplitNoSep(s[1..], sep);
      assert s == [s[0]] + s[1..];
    }
  }

  /** A string splits into several pieces exactly when it holds the
      separator. */
  lemma {:induction false} SplitFindsSep(s: string, sep: char)
    ensures |Split(s, sep)| >= 2 <==> sep in s
    decreases |s|
  {
    if |s| > 0 && s[0] != sep {
      SplitFindsSep(s[1..], sep);
      assert sep in s <==> sep in s[1..] by {
        assert s == [s[0]] + s[1..];
      }
    }
  }

  /** Splitting a concatenation around one separator splits both halves. */
  lemma {:induction false} SplitConcat(a: string, sep: char, b: string)
    ensures Split(a + [sep] + b, sep) == Split(a, sep) + Split(b, sep)
    decreases |a|
  {
    var s := a + [sep] + b;
    if |a| == 0 {
      assert s[1..] == b;
    } else {
      assert s[1..] == a[1..] + [sep] + b;
      SplitConcat(a[1..], sep, b);
      if a[0] != sep {
        var ra := Split(a[1..], sep);
        assert Split(s[1..], sep) == ra + Split(b, sep);
        assert (ra + Split(b, sep))[0] == ra[0];
        assert (ra + Split(b, sep))[1..] == ra[1..] + Split(b, sep);
      }
    }
  }

  /** A piece free of the separator comes off the front unchanged. */
  lemma SplitCons(a: string, sep: char, b: string)
    requires sep !in a
    ensures Split(a + [sep] + b, sep) == [a] + Split(b, sep)
  {
    SplitConcat(a, sep, b);
    SplitNoSep(a, sep);
  }

  /** A piece free of the separator comes off the back unchanged. */
  lemma SplitSnoc(a: string, sep: char, b: string)
    requires sep !in b
    ensures Split(a + [sep] + b, sep) == Split(a, sep) + [b]
  {
    SplitConcat(a, sep, b);
    SplitNoSep(b, sep);
  }

  /** Joining pieces free of the separator and splitting again gives the
      pieces back. */
  lemma {:induction false} SplitJoin(parts: seq<string>, sep: char)
    requires |parts| >= 1
    requires forall i :: 0 <= i < |parts| ==> sep !in parts[i]
    ensures Split(Join(parts, sep), sep) == parts
    decreases |parts|
  {
    if |parts| == 1 {
      SplitNoSep(parts[0], sep);
    } else {
      SplitNoSep(parts[0], sep);
      SplitJoin(parts[1..], sep);
      SplitConcat(parts[0], sep, Join(parts[1..], sep));
      assert parts == [parts[0]] + parts[1..];
    }
  }

  /** `s.slice(k)` for a non-negative `k`. */
  function SliceFrom(s: string, k: nat): (r: string)
    ensures |r| == if k >= |s| then 0 else |s| - k
    ensures forall i :: 0 <= i < |r| ==> r[i] == s[k + i]
  {
    if k >= |s| then "" else s[k..]
  }

  /** `s.slice(0, -1)`: everything but the last character. */
  function DropLast<T>(s: seq<T>): (r: seq<T>)
    ensures |s| > 0 ==> s == r + [s[|s| - 1]]
    ensures |s| == 0 ==> r == []
  {
    if |s| == 0 then [] else s[..|s| - 1]
  }

  /** `a.slice(-n)` on an array: the last `n` elements, or all of them. */
  function LastN<T>(s: seq<T>, n: nat): (r: seq<T>)
    ensures |r| == if |s| <= n then |s| else n
    ensures s == s[..|s| - |r|] + r
  {
    if |s| <= n then s else s[|s| - n..]
  }

  /** `sub` occurs in `s` starting at index `i`. */
  predicate OccursAt(s: string, sub: string, i: int)
  {
    0 <= i <= |s| - |sub| && s[i..i + |sub|] == sub
  }

  /** `s.includes(sub)`. */
  predicate Contains(s: string, sub: string)
  {
    exists i | 0 <= i <= |s| - |sub| :: OccursAt(s, sub, i)
  }

  /** A string contains whatever is placed inside it. */
  lemma ContainsInfix(a: string, sub: string, b: string)
    ensures Contains(a + sub + b, sub)
  {
    var s := a + sub + b;
    assert s[|a|..|a| + |sub|] == sub;
    assert OccursAt(s, sub, |a|);
  }

  predicate IsDigit(c: char)
  {
    '0' <= c <= '9'
  }

  predicate AllDigits(s: string)
  {
    forall i :: 0 <= i < |s| ==> IsDigit(s[i])
  }

  function DigitChar(d: nat): (c: char)
    requires d < 10
    ensures IsDigit(c) && c as int - '0' as int == d
  {
    (d + '0' as int) as char
  }

  /** Decimal rendering of a non-negative integer, as `String(n)` or a
      template literal gives it for integers below 10^21. */
  function NatToString(n: nat): (s: string)
    ensures |s| >= 1 && AllDigits(s)
    ensures n < 10 <==> |s| == 1
    decreases n
  {
    if n < 10 then [DigitChar(n)] else NatToString(n / 10) + [DigitChar(n % 10)]
  }

  /** The value of a string of decimal digits. */
  function DecimalValue(s: string): nat
    requires AllDigits(s)
    decreases |s|
  {
    if |s| == 0 then 0
    else DecimalValue(s[..|s| - 1]) * 10 + (s[|s| - 1] as int - '0' as int)
  }

  /** Decimal rendering can be read back. */
  lemma {:induction false} DecimalRoundTrip(n: nat)
    ensures DecimalValue(NatToString(n)) == n
    decreases n
  {
    if n >= 10 {
      DecimalRoundTrip(n / 10);
      var s := NatToString(n);
      assert s[..|s| - 1] == NatToString(n / 10);
    }
  }

  /** Distinct numbers render to distinct strings. */
  lemma NatToStringInjective(m: nat, n: nat)
    requires NatToString(m) == NatToString(n)
    ensures m == n
  {
    DecimalRoundTrip(m);
    DecimalRoundTrip(n);
  }

  /** Leading zeros do not change the value of a digit string. */
  lemma {:induction false} DecimalLeadingZero(s: string)
    requires AllDigits(s)
    ensures AllDigits("0" + s) && DecimalValue("0" + s) == DecimalValue(s)
    decreases |s|
  {
    if |s| > 0 {
      var t := "0" + s;
      assert t[..|t| - 1] == "0" + s[..|s| - 1];
      DecimalLeadingZero(s[..|s| - 1]);
    }
  }

  /** The characters ECMAScript counts as white space or line terminators,
      which `String.prototype.trim` removes. */
  predicate IsJsWhiteSpace(c: char)
  {
    || c == '\t' || c == '\n' || c == '\U{000B}' || c == '\U{000C}' || c == '\r'
    || c == ' ' || c == '\U{00A0}' || c == '\U{1680}'
    || ('\U{2000}' <= c <= '\U{200A}')
    || c == '\U{2028}' || c == '\U{2029}' || c == '\U{202F}' || c == '\U{205F}'
    || c == '\U{3000}' || c == '\U{FEFF}'
  }

  /** The characters that end a line for a regular expression's `.`. */
  predicate IsLineTerminator(c: char)
  {
    c == '\n' || c == '\r' || c == '\U{2028}' || c == '\U{2029}'
  }

  /** `s.trim()` is empty exactly when every character is white space. */
  predicate IsBlank(s: string)
  {
    forall i :: 0 <= i < |s| ==> IsJsWhiteSpace(s[i])
  }

  /** `s.length` in JavaScript: characters outside the Basic Multilingual
      Plane count twice (they are stored as surrogate pairs). */
  function Utf16Length(s: string): (n: nat)
    ensures |s| <= n <= 2 * |s|
    decreases |s|
  {
    if |s| == 0 then 0
    else (if s[0] as int > 0xFFFF then 2 else 1) + Utf16Length(s[1..])
  }
}

=== FILE: tool.dfy ===
/** The panel that shows one resource (components/Panel/Tool.js): from the
    resource's manifest it picks the tool component, the endpoint that
    serves its data, the book's file, the panel title, and the verses to
    show. */
module Tool {
  import opened Wrappers
  import opened Json
  import Seqs
  import Info

  /** The `dublin_core` part of a manifest that the panel reads. */
  datatype DublinCore = DublinCore(subject: string, title: Option<string>)

  datatype Manifest = Manifest(dublinCore: Option<DublinCore>, projects: seq<Info.Project>)

  /** The passage: the book, the chapter, and its verses as the reference
      holds them (verse records or bare values). */
  datatype Reference = Reference(book: string, chapter: string, verses: seq<Value>)

  datatype Config = Config(manifest: Manifest, reference: Reference, wholeChapter: bool)

  /** The tool components. */
  datatype ToolKind = TnTwl | Tq | Bible | Editor | BlindEditor | OwnNotes | Notes | Audio | Dictionary

  /** Where the book's file comes from: the first project of the manifest,
      the project whose identifier is the book, or nowhere (the tool needs
      no file). */
  datatype PathRule = FirstProject | ProjectOfBook | NoPath

  /** The panel title: the manifest's title, `<Chapter> <n>`, or a fixed
      translated key. */
  datatype Title = ManifestTitle(title: Option<string>) | ChapterTitle(chapter: string) | Translated(key: string)

  /** The panel's content. */
  datatype Panel =
    | NoContent
    | WrongResource
    | Shown(tool: ToolKind, url: Option<string>, bookPath: Option<Option<string>>, title: Title, verses: seq<Value>)

  /** The subjects of Open Bible Stories helps, whose manifest has one
      project. */
  predicate ObsSubject(subject: string)
  {
    subject in {"TSV OBS Translation Words Links", "OBS Translation Questions", "TSV OBS Translation Questions",
                "OBS Translation Notes", "TSV OBS Translation Notes", "Open Bible Stories"}
  }

  /** The subjects of scripture helps and texts, whose manifest has one
      project per book. */
  predicate ScriptureSubject(subject: string)
  {
    subject in {"TSV Translation Words Links", "TSV Translation Notes", "TSV Translation Questions",
                "Translation Questions", "Bible", "Aligned Bible", "Hebrew Old Testament", "Greek New Testament"}
  }

  /** The Bible texts, titled by chapter. */
  predicate BibleFamily(subject: string)
  {
    subject in {"Bible", "Aligned Bible", "Hebrew Old Testament", "Greek New Testament"}
  }

  /** The subjects that need no file: the editors, the notes, the audio
      and the dictionary. */
  predicate LocalSubject(subject: string)
  {
    subject in {"translate", "draftTranslate", "ownNotes", "teamNotes", "audio", "dictionary"}
  }

  /** The `switch` on the subject: the tool, the endpoint, where the file
      comes from and the title key of a local tool; `None` for an unknown
      subject. */
  function Dispatch(subject: string): (r: Option<(ToolKind, Option<string>, PathRule, string)>)
    ensures r.Some? <==> ObsSubject(subject) || ScriptureSubject(subject) || LocalSubject(subject)
    ensures r.Some? ==> (r.value.2 == FirstProject <==> ObsSubject(subject))
    ensures r.Some? ==> (r.value.2 == ProjectOfBook <==> ScriptureSubject(subject))
    ensures r.Some? ==> (r.value.1.None? <==> LocalSubject(subject))
  {
    match subject
    case "TSV OBS Translation Words Links" => Some((TnTwl, Some("/api/git/obs-twl"), FirstProject, ""))
    case "OBS Translation Questions" => Some((Tq, Some("/api/git/obs-tq"), FirstProject, ""))
    case "TSV OBS Translation Questions" => Some((Tq, Some("/api/git/obs-tq"), FirstProject, ""))
    case "OBS Translation Notes" => Some((TnTwl, Some("/api/git/obs-tn"), FirstProject, ""))
    case "TSV OBS Translation Notes" => Some((TnTwl, Some("/api/git/obs-tn"), FirstProject, ""))
    case "TSV Translation Words Links" => Some((TnTwl, Some("/api/git/twl"), ProjectOfBook, ""))
    case "TSV Translation Notes" => Some((TnTwl, Some("/api/git/tn"), ProjectOfBook, ""))
    case "TSV Translation Questions" => Some((Tq, Some("/api/git/tq"), ProjectOfBook, ""))
    case "Translation Questions" => Some((Tq, Some("/api/git/tq"), ProjectOfBook, ""))
    case "Open Bible Stories" => Some((Bible, Some("/api/git/obs"), FirstProject, ""))
    case "Bible" => Some((Bible, Some("/api/git/bible"), ProjectOfBook, ""))
    case "Aligned Bible" => Some((Bible, Some("/api/git/bible"), ProjectOfBook, ""))
    case "Hebrew Old Testament" => Some((Bible, Some("/api/git/bible"), ProjectOfBook, ""))
    case "Greek New Testament" => Some((Bible, Some("/api/git/bible"), ProjectOfBook, ""))
    case "translate" => Some((Editor, None, NoPath, "Editor"))
    case "draftTranslate" => Some((BlindEditor, None, NoPath, "BlindEditor"))
    case "ownNotes" => Some((OwnNotes, None, NoPath, "OwnNotes"))
    case "teamNotes" => Some((Notes, None, NoPath, "TeamNotes"))
    case "audio" => Some((Audio, None, NoPath, "Audio"))
    case "dictionary" => Some((Dictionary, None, NoPath, "Dictionary"))
    case _ => None
  }

  /** The tool that reads each endpoint's data. */
  function EndpointTool(url: string): Option<ToolKind>
  {
    match url
    case "/api/git/obs-twl" => Some(TnTwl)
    case "/api/git/obs-tn" => Some(TnTwl)
    case "/api/git/twl" => Some(TnTwl)
    case "/api/git/tn" => Some(TnTwl)
    case "/api/git/obs-tq" => Some(Tq)
    case "/api/git/tq" => Some(Tq)
    case "/api/git/obs" => Some(Bible)
    case "/api/git/bible" => Some(Bible)
    case _ => None
  }

  /** The endpoints of the stories. */
  predicate ObsEndpoint(url: string)
  {
    url in {"/api/git/obs-twl", "/api/git/obs-tn", "/api/git/obs-tq", "/api/git/obs"}
  }

  /** Every subject with an endpoint opens the tool that reads that
      endpoint, and a story subject uses a story endpoint. */
  lemma DispatchMatchesEndpoint(subject: string)
    requires Dispatch(subject).Some? && Dispatch(subject).value.1.Some?
    ensures EndpointTool(Dispatch(subject).value.1.value) == Some(Dispatch(subject).value.0)
    ensures ObsSubject(subject) <==> ObsEndpoint(Dispatch(subject).value.1.value)
  {
  }

  /** Two subjects served by the same endpoint open the same tool, and both
      are stories or both are scripture. */
  lemma SharedEndpointSharedTool(s1: string, s2: string)
    requires Dispatch(s1).Some? && Dispatch(s2).Some?
    requires Dispatch(s1).value.1.Some? && Dispatch(s1).value.1 == Dispatch(s2).value.1
    ensures Dispatch(s1).value.0 == Dispatch(s2).value.0
    ensures ObsSubject(s1) <==> ObsSubject(s2)
  {
    DispatchMatchesEndpoint(s1);
    DispatchMatchesEndpoint(s2);
  }

  /** `v?.num ? v.num : v`: a verse record with a truthy `num` stands for
      that number; anything else stays as it is. */
  function VerseNumber(v: Value): (r: Value)
    ensures v.Obj? && Present(Field(v.fields, "num")) ==> r == v.fields["num"]
    ensures !(v.Obj? && Present(Field(v.fields, "num"))) ==> r == v
  {
    if v.Obj? && "num" in v.fields && Truthy(v.fields["num"]) then v.fields["num"] else v
  }

  /** `config.verses`: none for a whole chapter, otherwise the reference's
      verses by number. */
  function Verses(config: Config): (verses: seq<Value>)
    ensures config.wholeChapter ==> verses == []
    ensures !config.wholeChapter ==>
      |verses| == |config.reference.verses|
      && forall i :: 0 <= i < |verses| ==> verses[i] == VerseNumber(config.reference.verses[i])
  {
    if config.wholeChapter then [] else Seqs.Map(config.reference.verses, VerseNumber)
  }

  /** `projects[0]?.path`. */
  function FirstPath(projects: seq<Info.Project>): (path: Option<string>)
    ensures |projects| == 0 ==> path.None?
    ensures |projects| > 0 ==> path == projects[0].path
  {
    if |projects| == 0 then None else projects[0].path
  }

  /** The panel for a configuration. */
  function ToolPanel(config: Config): (panel: Panel)
    ensures panel == NoContent <==> config.manifest.dublinCore.None?
    ensures panel == WrongResource <==>
      (&& config.manifest.dublinCore.Some?
       && var subject := config.manifest.dublinCore.value.subject;
       && !ObsSubject(subject) && !ScriptureSubject(subject) && !LocalSubject(subject))
    ensures panel.Shown? ==> panel.verses == Verses(config)
    ensures panel.Shown? ==>
      && var dispatched := Dispatch(config.manifest.dublinCore.value.subject);
      && dispatched.Some? && panel.tool == dispatched.value.0 && panel.url == dispatched.value.1
    ensures panel.Shown? && ObsSubject(config.manifest.dublinCore.value.subject) ==>
      panel.bookPath == Some(FirstPath(config.manifest.projects))
    ensures panel.Shown? && ScriptureSubject(config.manifest.dublinCore.value.subject) ==>
      panel.bookPath == Some(Info.FindBookPath(config.manifest.projects, config.reference.book))
    ensures panel.Shown? && LocalSubject(config.manifest.dublinCore.value.subject) ==>
      panel.bookPath.None? && panel.url.None? && panel.title.Translated?
    ensures panel.Shown? && BibleFamily(config.manifest.dublinCore.value.subject) ==>
      panel.title == ChapterTitle(config.reference.chapter)
    ensures (&& panel.Shown? && !BibleFamily(config.manifest.dublinCore.value.subject)
             && !LocalSubject(config.manifest.dublinCore.value.subject)) ==>
      panel.title == ManifestTitle(config.manifest.dublinCore.value.title)
  {
    if config.manifest.dublinCore.None? then NoContent
    else
      var resource := config.manifest.dublinCore.value;
      var dispatched := Dispatch(resource.subject);
      if dispatched.None? then WrongResource
      else
        var (tool, url, rule, key) := dispatched.value;
        var bookPath :=
          match rule
          case FirstProject => Some(FirstPath(config.manifest.projects))
          case ProjectOfBook => Some(Info.FindBookPath(config.manifest.projects, config.reference.book))
          case NoPath => None;
        var title :=
          if rule == NoPath then Translated(key)
          else if BibleFamily(resource.subject) then ChapterTitle(config.reference.chapter)
          else ManifestTitle(resource.title);
        Shown(tool, url, bookPath, title, Verses(config))
  }

  /** Translation notes go to the notes endpoint in the notes tool. */
  lemma NotesRoute(config: Config)
    requires config.manifest.dublinCore.Some?
    requires config.manifest.dublinCore.value.subject == "TSV Translation Notes"
    ensures ToolPanel(config).Shown? && ToolPanel(config).tool == TnTwl && ToolPanel(config).url == Some("/api/git/tn")
  {
  }

  /** A Bible goes to the Bible endpoint, titled by the chapter. */
  lemma BibleRoute(config: Config)
    requires config.manifest.dublinCore.Some?
    requires config.manifest.dublinCore.value.subject == "Bible"
    ensures ToolPanel(config).url == Some("/api/git/bible") && ToolPanel(config).title == ChapterTitle(config.reference.chapter)
  {
  }

  /** An unknown subject shows the wrong-resource message. */
  lemma UnknownSubjectRoute(config: Config)
    requires config.manifest.dublinCore.Some?
    requires config.manifest.dublinCore.value.subject == "scripture"
    ensures ToolPanel(config) == WrongResource
  {
  }
}

=== FILE: twl.dfy ===
/** The translation-words-links endpoint (pages/api/git/twl.js): fetch the
    book's TSV, keep the rows of the requested chapter (and verses), fetch
    the article each row links to, and group the articles by verse. */
module Twl {
  import opened Wrappers
  import opened Strings
  import Seqs
  import opened Door43

  /** The columns of a TSV row the handler reads. */
  datatype TwlRow = TwlRow(reference: string, twLink: string)

  /** A fetched article, tagged with the reference of its row. */
  datatype Word = Word(reference: string, title: string, text: string)

  /** An entry of the answer. */
  datatype TwlEntry = TwlEntry(id: string, title: string, text: string)

  /** The answer: 200 with the grouped entries, or 404. */
  datatype Reply = Ok(groups: map<string, seq<TwlEntry>>) | NotFound

  // ---------------------------------------------------------------------
  // Selecting rows

  /** A row is kept when its chapter is the requested one and, when verses
      are given, the query includes its verse. */
  predicate Selected(row: TwlRow, chapter: string, verses: Option<VerseQuery>)
  {
    && ChapterOf(row.reference) == chapter
    && (VersesGiven(verses) ==> VerseIncluded(verses.value, VerseOf(row.reference)))
  }

  function SelectRows(rows: seq<TwlRow>, chapter: string, verses: Option<VerseQuery>): (kept: seq<TwlRow>)
    ensures forall i :: 0 <= i < |kept| ==> kept[i] in rows && Selected(kept[i], chapter, verses)
    ensures forall i :: 0 <= i < |rows| && Selected(rows[i], chapter, verses) ==> rows[i] in kept
  {
    Seqs.Filter(rows, row => Selected(row, chapter, verses))
  }

  /** The filter for each form of the query: an array keeps the rows whose
      verse is one of its items; a single string keeps the rows whose verse
      is written inside it; without verses the chapter decides alone. */
  lemma SelectedCases(row: TwlRow, chapter: string, verses: Option<VerseQuery>)
    ensures verses.Some? && verses.value.VerseList? && |verses.value.items| > 0 ==>
      (Selected(row, chapter, verses) <==>
         && ChapterOf(row.reference) == chapter
         && VerseOf(row.reference).Some? && VerseOf(row.reference).value in verses.value.items)
    ensures verses.Some? && verses.value.VerseText? && |verses.value.text| > 0 ==>
      (Selected(row, chapter, verses) <==>
         && ChapterOf(row.reference) == chapter
         && Contains(verses.value.text, VerseOf(row.reference).GetOr("undefined")))
    ensures !VersesGiven(verses) ==> (Selected(row, chapter, verses) <==> ChapterOf(row.reference) == chapter)
  {
  }

  /** Without verses every row of the chapter is kept, wherever in the
      chapter it is. */
  lemma WholeChapterKept(rows: seq<TwlRow>, chapter: string, verses: Option<VerseQuery>)
    requires !VersesGiven(verses)
    requires forall i :: 0 <= i < |rows| ==> ChapterOf(rows[i].reference) == chapter
    ensures SelectRows(rows, chapter, verses) == rows
  {
    Seqs.FilterAll(rows, row => Selected(row, chapter, verses));
  }

  // ---------------------------------------------------------------------
  // Articles

  /** The article a row links to: in the words repository (the links
      repository's name without its last letter, `en_twl` to `en_tw`), on
      branch master, at the last three pieces of the link, plus `.md`. */
  function ArticleUrl(owner: string, repo: string, twLink: string): string
  {
    "https://git.door43.org/" + owner + "/" + DropLast(repo) + "/raw/branch/master/"
    + Join(LastN(Split(twLink, '/'), 3), '/') + ".md"
  }

  /** A link ending in `/bible/kt/god` leads to `bible/kt/god.md`: the
      article path is the link's last three pieces. */
  lemma ArticlePath(parts: seq<string>)
    requires |parts| >= 3
    requires forall i :: 0 <= i < |parts| ==> '/' !in parts[i]
    ensures Join(LastN(Split(Join(parts, '/'), '/'), 3), '/') == Join(parts[|parts| - 3..], '/')
  {
    SplitJoin(parts, '/');
  }

  /** The first index of `c` in `s`, or -1 (`s.search(c)` for a one-character
      pattern). */
  function IndexOf(s: string, c: char): (k: int)
    ensures -1 <= k < |s|
    ensures k == -1 <==> c !in s
    ensures k >= 0 ==> s[k] == c && c !in s[..k]
    decreases |s|
  {
    if |s| == 0 then -1
    else if s[0] == c then 0
    else
      var k := IndexOf(s[1..], c);
      if k == -1 then -1
      else
        assert s[..k + 1] == [s[0]] + s[1..][..k];
        k + 1
  }

  /** `title = data.slice(0, splitter)` and `text = data.slice(splitter)`
      with `splitter = data.search('\n')`. When there is no newline the
      index is -1, so the title loses its last character and the text is
      that character. */
  function SplitArticle(data: string): (r: (string, string))
    ensures r.0 + r.1 == data
    ensures '\n' !in r.0
    ensures '\n' in data ==> |r.1| > 0 && r.1[0] == '\n'
    ensures '\n' !in data && |data| > 0 ==> |r.1| == 1
  {
    var k := IndexOf(data, '\n');
    if k == -1 then
      assert '\n' !in DropLast(data) by {
        if |data| > 0 { assert data == DropLast(data) + [data[|data| - 1]]; }
      }
      (DropLast(data), LastN(data, 1))
    else (data[..k], data[k..])
  }

  /** The word an article becomes, tagged with the reference of its row. */
  function WordOf(reference: string, data: string): (w: Word)
    ensures w.reference == reference && w.title + w.text == data
    ensures '\n' !in w.title
  {
    var parts := SplitArticle(data);
    Word(reference, parts.0, parts.1)
  }

  /** The request of one row: the article at the row's link, split into
      title and text; `None` when the request fails. */
  function RowWord(owner: string, repo: string, fetch: string -> Option<string>): TwlRow -> Option<Word>
  {
    (row: TwlRow) =>
      var data := fetch(ArticleUrl(owner, repo, row.twLink));
      if data.None? then None else Some(WordOf(row.reference, data.value))
  }

  /** A row's request fails exactly when its article cannot be fetched, and
      otherwise gives that article's word. */
  lemma RowWordFetches(owner: string, repo: string, fetch: string -> Option<string>, row: TwlRow)
    ensures var w := RowWord(owner, repo, fetch)(row);
      var data := fetch(ArticleUrl(owner, repo, row.twLink));
      && (w.None? <==> data.None?)
      && (w.Some? ==> w.value.reference == row.reference && w.value.title + w.value.text == data.value)
  {
  }

  /** `Promise.all` over the row requests: every word, in row order, or
      nothing when any request fails. */
  function FetchWords(rows: seq<TwlRow>, request: TwlRow -> Option<Word>): (words: Option<seq<Word>>)
    ensures words.Some? ==> |words.value| == |rows|
    decreases |rows|
  {
    if |rows| == 0 then Some([])
    else if request(rows[0]).None? then None
    else
      var rest := FetchWords(rows[1..], request);
      if rest.None? then None else Some([request(rows[0]).value] + rest.value)
  }

  /** The fetch fails exactly when the request of some row fails. */
  lemma {:induction false} FetchWordsFails(rows: seq<TwlRow>, request: TwlRow -> Option<Word>)
    ensures FetchWords(rows, request).None? <==> exists i :: 0 <= i < |rows| && request(rows[i]).None?
    decreases |rows|
  {
    if |rows| > 0 && request(rows[0]).Some? {
      FetchWordsFails(rows[1..], request);
      if exists i :: 0 <= i < |rows| && request(rows[i]).None? {
        var i :| 0 <= i < |rows| && request(rows[i]).None?;
        assert rows[1..][i - 1] == rows[i];
      }
      if exists i :: 0 <= i < |rows[1..]| && request(rows[1..][i]).None? {
        var i :| 0 <= i < |rows[1..]| && request(rows[1..][i]).None?;
        assert rows[i + 1] == rows[1..][i];
      }
    }
  }

  /** A successful fetch holds, at each position, the word of that row's
      request. */
  lemma {:induction false} FetchWordsAt(rows: seq<TwlRow>, request: TwlRow -> Option<Word>, i: nat)
    requires FetchWords(rows, request).Some? && i < |rows|
    ensures request(rows[i]) == Some(FetchWords(rows, request).value[i])
    decreases |rows|
  {
    var rest := FetchWords(rows[1..], request);
    assert request(rows[0]).Some? && rest.Some?;
    var words := [request(rows[0]).value] + rest.value;
    assert FetchWords(rows, request).value == words;
    if i > 0 {
      assert rows[1..][i - 1] == rows[i];
      FetchWordsAt(rows[1..], request, i - 1);
      assert words[i] == rest.value[i - 1];
    }
  }

  // ---------------------------------------------------------------------
  // Grouping

  /** `reference.split(':').slice(-1)[0]`: the part after the last colon
      (the whole reference when there is none). */
  function GroupKey(reference: string): string
  {
    var parts := Split(reference, ':');
    parts[|parts| - 1]
  }

  /** `${reference}_${time}_${count}`. */
  function EntryId(reference: string, time: nat, count: nat): string
  {
    reference + "_" + NatToString(time) + "_" + NatToString(count)
  }

  /** The entry built for the `i`-th word, at time `clock(i)`. */
  function EntryAt(words: seq<Word>, clock: nat -> nat, i: nat): TwlEntry
    requires i < |words|
  {
    TwlEntry(EntryId(words[i].reference, clock(i), i), words[i].title, words[i].text)
  }

  /** Reference definition of a group: the entries of the first `n` words
      whose key is `key`, in word order. */
  function EntriesFor(words: seq<Word>, clock: nat -> nat, key: string, n: nat): seq<TwlEntry>
    requires n <= |words|
  {
    if n == 0 then []
    else
      EntriesFor(words, clock, key, n - 1)
      + (if GroupKey(words[n - 1].reference) == key then [EntryAt(words, clock, n - 1)] else [])
  }

  /** `groupData`: one group per verse key met, holding exactly that key's
      entries in word order. `clock(i)` is `new Date().getTime()` when the
      `i`-th word is handled. */
  method GroupByVerse(words: seq<Word>, clock: nat -> nat) returns (groups: map<string, seq<TwlEntry>>)
    ensures forall key :: key in groups <==> exists i :: 0 <= i < |words| && GroupKey(words[i].reference) == key
    ensures forall key :: key in groups ==> groups[key] == EntriesFor(words, clock, key, |words|)
  {
    groups := map[];
    var count := 0;
    while count < |words|
      invariant 0 <= count <= |words|
      invariant forall key :: key in groups <==>
        exists i :: 0 <= i < count && GroupKey(words[i].reference) == key
      invariant forall key :: key in groups ==> groups[key] == EntriesFor(words, clock, key, count)
    {
      var entry := EntryAt(words, clock, count);
      var key := GroupKey(words[count].reference);
      if key !in groups {
        groups := groups[key := [entry]];
        assert EntriesFor(words, clock, key, count) == [] by {
          EntriesForAbsent(words, clock, key, count);
        }
      } else {
        groups := groups[key := groups[key] + [entry]];
      }
      count := count + 1;
    }
  }

  lemma {:induction false} EntriesForAbsent(words: seq<Word>, clock: nat -> nat, key: string, n: nat)
    requires n <= |words|
    requires forall i :: 0 <= i < n ==> GroupKey(words[i].reference) != key
    ensures EntriesFor(words, clock, key, n) == []
  {
    if n > 0 {
      EntriesForAbsent(words, clock, key, n - 1);
    }
  }

  /** The last underscore-separated piece of an id is its count, so two
      entries of one answer never share an id. */
  lemma EntryIdsDistinct(reference1: string, time1: nat, count1: nat,
                         reference2: string, time2: nat, count2: nat)
    requires count1 != count2
    ensures EntryId(reference1, time1, count1) != EntryId(reference2, time2, count2)
  {
    CountPiece(reference1, time1, count1);
    CountPiece(reference2, time2, count2);
    if EntryId(reference1, time1, count1) == EntryId(reference2, time2, count2) {
      NatToStringInjective(count1, count2);
    }
  }

  lemma CountPiece(reference: string, time: nat, count: nat)
    ensures var pieces := Split(EntryId(reference, time, count), '_');
      pieces[|pieces| - 1] == NatToString(count)
  {
    var digits := NatToString(count);
    assert forall i :: 0 <= i < |digits| ==> digits[i] != '_';
    SplitSnoc(reference + "_" + NatToString(time), '_', digits);
  }

  // ---------------------------------------------------------------------
  // The handler

  /** The articles of the selected rows, or `None` when the TSV or any
      article cannot be fetched. */
  function Articles(q: TsvQuery, fetch: string -> Option<string>, parseTsv: string -> seq<TwlRow>)
    : Option<seq<Word>>
  {
    var tsv := fetch(TsvUrl(q.owner, q.repo, q.commit, q.bookPath));
    if tsv.None? then None
    else FetchWords(SelectRows(parseTsv(tsv.value), q.chapter, q.verses), RowWord(q.owner, q.repo, fetch))
  }

  /** `twlHandler`. `fetch` is `axios.get(url).data`, `None` when the
      request fails; `parseTsv` is `tsvToJson`. */
  method TwlHandler(q: TsvQuery, fetch: string -> Option<string>, parseTsv: string -> seq<TwlRow>,
                    clock: nat -> nat) returns (reply: Reply)
    ensures reply.NotFound? <==> Articles(q, fetch, parseTsv).None?
    ensures fetch(TsvUrl(q.owner, q.repo, q.commit, q.bookPath)).None? ==> reply.NotFound?
    ensures reply.Ok? ==>
      var words := Articles(q, fetch, parseTsv).value;
      && (forall key :: key in reply.groups <==>
            exists i :: 0 <= i < |words| && GroupKey(words[i].reference) == key)
      && (forall key :: key in reply.groups ==> reply.groups[key] == EntriesFor(words, clock, key, |words|))
  {
    var tsv := fetch(TsvUrl(q.owner, q.repo, q.commit, q.bookPath));
    if tsv.None? {
      return NotFound;
    }
    var kept := SelectRows(parseTsv(tsv.value), q.chapter, q.verses);
    var words := FetchWords(kept, RowWord(q.owner, q.repo, fetch));
    if words.None? {
      return NotFound;
    }
    var groups := GroupByVerse(words.value, clock);
    return Ok(groups);
  }
}

=== FILE: wrappers.dfy ===
/** Optional and fallible values shared by every module of the model.
    `None` stands for JavaScript's `undefined`/`null`; `Failure` stands for a
    thrown error or an error response. */
module Wrappers {

  datatype Option<+T> = None | Some(value: T) {

    /** The value, or `default` when absent (the `??` operator). */
    function GetOr(default: T): T
    {
      match this
      case Some(v) => v
      case None => default
    }
  }

  datatype Result<+T, +E> = Success(value: T) | Failure(error: E)
}
